=== FILE: README.md ===
# Customer-record ETL core, modelled in Dafny

The system reads customer records from two input formats and writes them in two
output formats:

- delimited text, where each row is a header-keyed map;
- fixed-width text, where each line is cut into six columns;
- an HTML table page;
- a JSON array of objects.

Every input is normalised into one `Record`: name, address, postcode, phone, credit
limit and birthday. Two normalisers do the work:

- `transformNumber` turns free-form amount text into an amount of whole cents,
  except the "a-b"/"a+b" expression shortcut, whose result is not rounded. The
  text may carry currency symbols, thousands separators, accounting parentheses,
  scientific notation, "a-b" expressions or labels such as "Subtotal:".
- `transformDate` reads 'DD/MM/YYYY' or 'YYYYMMDD' text. It checks the layout and
  the ranges, then checks the calendar date by constructing a JavaScript `Date` and
  reading it back.

The model is a set of pure functions over immutable data. These choices apply
throughout:

- Strings are `seq<char>`.
- Amounts are exact `real`s.
- A thrown error becomes a `Result` failure.
- `NaN` from `parseInt` or `Number` is `None`.

One module per file:

| file | module | what it holds |
|---|---|---|
| wrappers.dfy | `Wrappers` | `Option` and `Result` |
| seqs.dfy | `Seqs` | `map` over a sequence, element by element |
| text.dfy | `Text` | `trim`, `indexOf`, `split`/`join`, `replace(/c/g, …)`, character removal |
| numerals.dfy | `Numerals` | digit runs and their values, `toString` of integers, `padStart(2, '0')`, `parseInt` |
| js_number.dfy | `JsNumber` | the numeral regex (greedy, leftmost), `Number()`, `parseFloat` values, `Math.round` |
| number_transformer.dfy | `NumberTransformer` | `transformNumber` |
| calendar.dfy | `Calendar` | the proleptic Gregorian calendar and `new Date(y, m, d)` read back |
| date_transformer.dfy | `DateTransformer` | `transformDate` |
| records.dfy | `Records` | the `Record` type (src/types.ts:4-11) |
| csv_parser.dfy | `CsvParser` | the row policy of `CSVParser.parse` |
| prn_parser.dfy | `PrnParser` | `PRNParser.parse` and its column table |
| date_text.dfy | `DateText` | `formatDate` (identical in both formatters) |
| html_formatter.dfy | `HtmlFormatter` | `escapeHtml` and `HTMLFormatter.format` |
| json_formatter.dfy | `JsonFormatter` | the record→object mapping of `JSONFormatter.format` |

A fixed-width line whose birthday does not parse lets the date error escape the `map`,
where it is rethrown (src/parsers/prn-parser.ts:49-54). So the whole parse fails with
the first such line's error, which `PrnParser.AllOrNothing` states.

## Model

| member | source | states |
|---|---|---|
| Text.Trim | src/transformers/number-transformer.ts:15 | The trimmed text is the contiguous middle of the input. Only white characters lie outside it, and it neither starts nor ends with white. |
| Text.Split | src/transformers/date-transformer.ts:21 | Splitting gives one more piece than there are separators. No piece holds the separator, and joining the pieces with it gives the input back. |
| Text.SplitJoin | src/transformers/date-transformer.ts:21-22 | Splitting recovers exactly the pieces that were joined, when none holds the separator. |
| Text.SplitOnce | src/transformers/number-transformer.ts:27-28 | A separator that occurs once splits the text into the part before it and the part after it. |
| Text.IndexOf | src/transformers/number-transformer.ts:27 | `indexOf` is -1 exactly when the character is absent; otherwise it is the first position holding it. |
| Text.IndexOfText | src/transformers/number-transformer.ts:58 | `indexOf` of a text is -1 or a position where the text occurs, and the text occurs at no earlier position. |
| Text.ReplaceAll | src/formatters/html-formatter.ts:116-121 | A one-character text becomes the replacement when it is the character and stays itself otherwise; with `ReplaceAllAppend` this fixes every result. The character is gone when the replacement does not contain it, and a text without it is unchanged. |
| Text.ReplaceAllAppend | src/formatters/html-formatter.ts:116-121 | A global replacement works piece by piece over a concatenation. |
| Text.RemoveAppend | src/transformers/number-transformer.ts:24 | Removing currency symbols and commas works piece by piece, so the order of the kept characters is preserved. |
| Text.RemoveCounts | src/transformers/number-transformer.ts:24 | Every character not removed is kept as often as it occurs. |
| Numerals.PadStart2 | src/formatters/html-formatter.ts:99-100 | `padStart(2, '0')` is at least two long, ends with the original text, and fills only with '0'. |
| Numerals.IntToStringChars | src/formatters/html-formatter.ts:101-103 | An integer's decimal text starts with '-' exactly when the integer is negative. Every other character is a digit. |
| Numerals.ParseIntPrefix | src/transformers/date-transformer.ts:26-28 | `parseInt` of a digit string followed by a non-digit is the value of the digits. |
| Numerals.ParseIntOfIntToString | src/transformers/date-transformer.ts:28 | `parseInt` reads back the decimal text of every integer, negative ones included. |
| Numerals.ParseIntLeadingZero | src/transformers/date-transformer.ts:26-27 | A leading zero does not change what `parseInt` reads. |
| JsNumber.RegexScanAt | src/transformers/number-transformer.ts:49 | The numeral regex matches at a position exactly when a digit, or a point then a digit, starts there, optionally after one sign. The match lies inside the text. |
| JsNumber.FirstMatch | src/transformers/number-transformer.ts:49 | `match` finds the leftmost position where the regex matches: it matches there and at no earlier position. |
| JsNumber.MatchIsFirstOccurrence | src/transformers/number-transformer.ts:57-58 | `indexOf` of the matched text is the match position: the text cannot occur earlier, because the regex would have matched there. |
| JsNumber.NumberOf | src/transformers/number-transformer.ts:29 | `Number(x)` is not NaN exactly when the trimmed text is empty or a decimal literal. |
| JsNumber.ScientificIsNumber | src/transformers/number-transformer.ts:42-43 | On a text the anchored scientific regex accepts, `Number` reads exactly the numeral the regex delimits. |
| JsNumber.MathRound | src/transformers/number-transformer.ts:84 | `Math.round` lies within half of its argument, halves rounding up. |
| NumberTransformer.RoundToCentsBounds | src/transformers/number-transformer.ts:84 | `Math.round(x * 100) / 100` is a whole number of cents, at most half a cent from `x`. |
| NumberTransformer.RoundToCentsNegate | src/transformers/number-transformer.ts:79-84 | Rounding commutes with negation, except on an exact half cent, where the negated result is one cent higher. |
| NumberTransformer.Prepare | src/transformers/number-transformer.ts:15-24 | The amount is negative exactly when the trimmed text is enclosed in parentheses. The working text has no currency symbol or comma, no white at either end, and only characters of the input. |
| NumberTransformer.SymbolIgnored | src/transformers/number-transformer.ts:24 | A currency symbol or comma between two parts of the text does not change the amount ("1,234,567.89", "12$3"). |
| NumberTransformer.LeadingSymbolIgnored | src/transformers/number-transformer.ts:24 | A leading currency symbol or comma does not change the amount ("£123.45"). |
| NumberTransformer.TrailingSymbolIgnored | src/transformers/number-transformer.ts:24 | A trailing currency symbol or comma does not change the amount ("123.45€"). |
| NumberTransformer.PaddedAmount | src/transformers/number-transformer.ts:15 | White padding on either side does not change the amount. |
| NumberTransformer.ShortcutReads | src/transformers/number-transformer.ts:27-39 | The "a-b" / "a+b" reading applies exactly when the operator occurs once, not first, with a `Number`-readable text on each side. It then reads those two sides. |
| NumberTransformer.ExpressionIgnoresSignAndScale | src/transformers/number-transformer.ts:27-39 | An expression's value is returned as computed: enclosing parentheses and the scaling flag change nothing. |
| NumberTransformer.ScientificRead | src/transformers/number-transformer.ts:42-46 | A text the anchored scientific regex accepts takes neither shortcut and is read as one scientific numeral. |
| NumberTransformer.ScientificAmount | src/transformers/number-transformer.ts:42-46 | A scientific text is its value rounded to cents, unscaled even when scaling is asked for, and negated first when parenthesised. |
| NumberTransformer.ReadFirstMatch | src/transformers/number-transformer.ts:49-69 | Without a shortcut or a scientific reading, the first numeral is read. The exception is a text that starts with a letter where the numeral follows a character other than ':', ' ' or '-'; that text reads nothing. |
| NumberTransformer.NoDigitGivesZero | src/transformers/number-transformer.ts:49-53 | A text without a digit is worth 0. |
| NumberTransformer.GluedDigitsGiveZero | src/transformers/number-transformer.ts:55-69 | A word followed directly by digits, or by '-' and digits, is worth 0. |
| NumberTransformer.LabelledAmount | src/transformers/number-transformer.ts:55-69 | A label ending in ':' or ' ' before a plain numeral, and a suffix after it, change nothing ("Subtotal: 123.45", "123.45 USD", "123abc"). |
| NumberTransformer.PlainAmount | src/transformers/number-transformer.ts:71-84 | A plain numeral is worth its value, divided by 100 when scaled, rounded to cents. |
| NumberTransformer.DigitsAmount | src/transformers/number-transformer.ts:71-84 | A run of digits is worth the integer it spells, or that integer divided by 100 when scaled. |
| NumberTransformer.PaddedDigitsAmount | src/transformers/number-transformer.ts:71-84 | Digits followed by white space, scaled, are worth that many cents. |
| NumberTransformer.ParenthesesNegate | src/transformers/number-transformer.ts:18-21 | Enclosing parentheses negate the amount. The exception is an exact half cent, where the result is a cent above the negation. The negation is exact whenever the unrounded value is whole cents. |
| NumberTransformer.TransformNumberCents | src/transformers/number-transformer.ts:8-10 | The empty text is worth 0. Every amount not computed by an expression is a whole number of cents. |
| NumberTransformer.WholeAmountsAreCents | src/transformers/number-transformer.ts:84 | Rounding leaves integers and whole cents unchanged. |
| NumberTransformer.CentsRoundTrip | src/transformers/number-transformer.ts:49-84 | Reading back the two-decimal text of any whole number of cents, negative ones included, gives that amount. |
| Calendar.DaysInMonth | src/transformers/date-transformer.ts:62-67 | A month has 28 to 31 days, and 29 exactly for February of a Gregorian leap year. |
| Calendar.FullYear | src/transformers/date-transformer.ts:62 | The `Date` constructor changes the year exactly when it is 0 to 99, moving it to 1900 or later. |
| Calendar.NewDate | src/transformers/date-transformer.ts:62 | The constructed date, when it exists, is a calendar date inside the time range a `Date` can hold. |
| Calendar.NewDateReadsBack | src/transformers/date-transformer.ts:62-67 | A triple reads back unchanged exactly when it is a valid date: a calendar date in the time range whose year is not 0 to 99. |
| DateTransformer.TransformDate | src/transformers/date-transformer.ts:7-74 | The empty text, and only it, fails as empty. A slashed text without '/' or without exactly three pieces is refused, as is a compact text not 8 long. Every accepted date is valid. |
| DateTransformer.RangeChecksFirst | src/transformers/date-transformer.ts:53-59 | After the layout check, a day outside 1 to 31 is refused first, and a month outside 1 to 12 next. |
| DateTransformer.AcceptsExactlyValidDates | src/transformers/date-transformer.ts:52-69 | After the layout check, the text is accepted exactly when all three components are numbers forming a valid date, and the result is that date. |
| DateTransformer.ValidateExactly | src/transformers/date-transformer.ts:52-69 | The range checks and the read-back check together accept exactly the valid dates. |
| DateTransformer.SlashedComponents | src/transformers/date-transformer.ts:19-28 | In 'DD/MM/YYYY', day, month and year come from the first, second and third '/'-separated pieces. |
| DateTransformer.CompactComponents | src/transformers/date-transformer.ts:41-47 | In 'YYYYMMDD', the year comes from positions 0-3, the month from 4-5 and the day from 6-7. |
| DateTransformer.LeadingZeroIgnored | src/transformers/date-transformer.ts:21-28 | "1/1/1990" and "01/01/1990" give the same result. |
| DateText.FormatDateChars | src/formatters/html-formatter.ts:97-103 | A rendered date holds only digits, '/' and a year's minus sign. |
| DateText.FormatDateLayout | src/formatters/html-formatter.ts:97-103 | A date with a non-negative year renders as two day digits, '/', two month digits, '/' and the year's digits, each worth its component. |
| DateText.PaddedTwoDigits | src/formatters/html-formatter.ts:99-100 | A number below 100, zero-padded, is two digits worth the number, and `parseInt` reads it back. |
| DateText.FormatThenTransform | src/formatters/json-formatter.ts:37-43 | Rendering a valid date and reading the text back as 'DD/MM/YYYY' gives the date. |
| DateText.TransformThenFormat | src/formatters/html-formatter.ts:97-103 | An accepted 'DD/MM/YYYY' text, with a four-digit year without a leading zero, renders back to itself. |
| CsvParser.Field | src/parsers/csv-parser.ts:42-45 | A text field is the trimmed cell, or empty when the column is missing. |
| CsvParser.ParseRow | src/parsers/csv-parser.ts:32-48 | A row yields a record exactly when the raw Name, Birthday and Credit Limit cells are non-empty and the birthday reads as 'DD/MM/YYYY'. The record's birthday is valid. |
| CsvParser.RowRecord | src/parsers/csv-parser.ts:41-48 | An accepted row's record has the four trimmed text fields, the unscaled amount of the raw credit-limit cell, and the birthday read from the raw cell. |
| CsvParser.ParseCsv | src/parsers/csv-parser.ts:19-21 | Blank input gives no records. There are never more records than rows. |
| CsvParser.OutcomeAt | src/parsers/csv-parser.ts:29-55 | The i-th row's outcome is decided by that row alone. |
| CsvParser.AcceptedSelects | src/parsers/csv-parser.ts:50 | The output is exactly the records of the accepted rows, in row order: every accepted row is picked, and nothing else. |
| CsvParser.AcceptedAppend | src/parsers/csv-parser.ts:29-55 | The records of two batches of rows are the records of each batch, one after the other. |
| CsvParser.RejectedRowInvisible | src/parsers/csv-parser.ts:51-54 | A skipped or rejected row leaves no trace in the output. |
| CsvParser.OtherColumnsIgnored | src/parsers/csv-parser.ts:32-48 | Rows that agree on the six named columns give the same result. |
| CsvParser.AcceptedBirthdaysValid | src/parsers/csv-parser.ts:37-38 | Every output record has a valid birthday. |
| PrnParser.ColumnTable | src/parsers/prn-parser.ts:11-18 | The columns follow each other without gap or overlap, from 0 to 82. |
| PrnParser.Slice | src/parsers/prn-parser.ts:40 | A column's text is at most its width: the exact slice when the line is long enough, and empty when the line ends before the column. |
| PrnParser.ParseLine | src/parsers/prn-parser.ts:43-50 | A line's record, when it has one, carries a valid birthday. |
| PrnParser.LineFields | src/parsers/prn-parser.ts:43-50 | On a full-width line, the record exists exactly when the last 8 characters read as 'YYYYMMDD'. Text fields are the trimmed column slices, and the credit limit is the scaled amount of its slice. |
| PrnParser.CreditLimitCents | src/parsers/prn-parser.ts:48 | A credit-limit column of digits with white space on either side, left- or right-aligned, is read as that many cents. |
| PrnParser.BirthdayDigits | src/parsers/prn-parser.ts:49 | Eight birthday digits yield the date they spell, exactly when that date is valid. |
| PrnParser.ShortLineFails | src/parsers/prn-parser.ts:49 | A line that ends before the birthday column fails with the empty-date error. |
| PrnParser.LineResultAt | src/parsers/prn-parser.ts:43 | The i-th mapped result is that of the i-th data line. |
| PrnParser.AllOrNothing | src/parsers/prn-parser.ts:43-54 | Either every data line yields a record, one per line in order, or the parse fails with the error of the first failing line. |
| PrnParser.FailsIffSomeLineFails | src/parsers/prn-parser.ts:43-54 | The parse fails exactly when some data line's birthday fails. |
| PrnParser.ParsePrn | src/parsers/prn-parser.ts:30-33 | Input of at most one line gives no records. |
| PrnParser.HeaderSkipped | src/parsers/prn-parser.ts:30-36 | Whatever the header says, the result depends only on the lines after it. |
| PrnParser.DataLines | src/parsers/prn-parser.ts:35 | No blank line is kept, and no line is added. |
| PrnParser.BlankIsTrimEmpty | src/parsers/prn-parser.ts:35 | A line is dropped exactly when its trimmed length is 0. |
| PrnParser.BlankLineIgnored | src/parsers/prn-parser.ts:35 | A blank line among the data lines leaves no trace. |
| PrnParser.DataLinesKeep | src/parsers/prn-parser.ts:35 | Non-blank lines are all kept, in order. |
| PrnParser.ParsedBirthdaysValid | src/parsers/prn-parser.ts:49 | Every record of a successful parse has a valid birthday. |
| HtmlFormatter.EscapeHtml | src/formatters/html-formatter.ts:115-122 | Text without any of the five special characters is unchanged. |
| HtmlFormatter.EscapeChar | src/formatters/html-formatter.ts:117-121 | A character is kept as itself exactly when it is not one of the five special characters. |
| HtmlFormatter.EscapeHtmlAppend | src/formatters/html-formatter.ts:116-121 | Escaping works piece by piece over a concatenation. |
| HtmlFormatter.EscapeHtmlChar | src/formatters/html-formatter.ts:116-121 | On one character, the five chained replacements give exactly its entity: no entity is escaped twice, because '&' goes first. |
| HtmlFormatter.EscapeHtmlCharwise | src/formatters/html-formatter.ts:115-122 | `escapeHtml` equals escaping each character independently. |
| HtmlFormatter.EscapedHasNoMarkup | src/formatters/html-formatter.ts:115-122 | Escaped text holds none of '<', '>', '"' and '\'', whatever the input, and is never shorter. |
| HtmlFormatter.EscapeRoundTrip | src/formatters/html-formatter.ts:115-122 | Decoding the entities gives the original text back, so escaping loses nothing. |
| HtmlFormatter.RowTextAt | src/formatters/html-formatter.ts:66-75 | The i-th row is built from the i-th record. |
| HtmlFormatter.RowsAppend | src/formatters/html-formatter.ts:66-76 | The rows of two batches of records are the rows of each batch, one after the other. |
| HtmlFormatter.RowTags | src/formatters/html-formatter.ts:67-75 | A row opens and closes exactly the 14 tags of its template, whatever its text fields hold. |
| HtmlFormatter.PageTags | src/formatters/html-formatter.ts:15-83 | The page frame adds the same tags whatever rows it holds. |
| HtmlFormatter.FormatTags | src/formatters/html-formatter.ts:12-85 | The page has the tags of the empty page plus 14 per record: record text never adds markup. |
| JsonFormatter.ToJsonAt | src/formatters/json-formatter.ts:15-22 | The i-th object is the i-th record's. |
| JsonFormatter.JsonRecordRoundTrip | src/formatters/json-formatter.ts:15-22 | An object carries its record's fields unchanged, and a birthday text that reads back as the record's birthday. |
| JsonFormatter.JsonRoundTrip | src/formatters/json-formatter.ts:15-22 | The records, in order, are recovered from the objects. |
| JsonFormatter.CsvToJsonRoundTrip | src/formatters/json-formatter.ts:15-22 | The records parsed from delimited input are recovered from their objects. |
| JsonFormatter.PrnToJsonRoundTrip | src/formatters/json-formatter.ts:15-22 | The records parsed from fixed-width input are recovered from their objects. |

## Left out

- IEEE-754 doubles: amounts and parsed numbers are exact reals. So `parseFloat` and `Number` do not round to a double, `x * 100` and `/ 100` are exact, and `Math.round` sees no representation error.
- `Number()` prefixes and words: hexadecimal, octal and binary prefixes (`0x`, `0o`, `0b`) and `Infinity` are not recognised. A text using them reads as NaN in the model.
- UTF-16: strings are sequences of Unicode scalar values rather than UTF-16 code units. No surrogate pairs and no normalisation are modelled.
- The `catch` of `transformNumber` (src/transformers/number-transformer.ts:85-88): the model computes the result directly. None of the modelled steps throws, so returning 0 from the `catch` and the `console.error` call are left out.
- The default `isScaledInteger = false` (src/transformers/number-transformer.ts:7): `TransformNumber` always takes the flag explicitly. The delimited-text parser passes `false`, as the default would.
- `console.error` logging in every component.
- The catch-and-rethrow blocks of `transformDate`, `PRNParser.parse` and `HTMLFormatter.format`.
- The "Unsupported date format" branch (src/transformers/date-transformer.ts:48-49) cannot be reached: the format is a two-value datatype.
- The three refusals of a slashed text without '/' (src/transformers/date-transformer.ts:29-38) throw the same error and are one `BadFormat` outcome.
- Local time zones: `new Date(y, m, d)` is taken in UTC. The time range is the one of section 21.4.1.31 of ECMA-262 at midnight UTC, so a local offset that moves its two end days is not modelled.
- The CSV tokenizer (the `csv-parser` package), streams and promises: `CsvParser.ParseCsv` takes the tokenizer's rows as a parameter. Quoting, header detection and line-ending handling belong to the package and are not modelled.
- The `fixed-width-parser` package: `PrnParser.Slice` assumes it cuts each line at the column bounds, clamped to the line's length, and returns the untrimmed text. Any trimming the package itself does is not modelled: the credit-limit and birthday slices reach `transformNumber` and `transformDate` untrimmed. One visible consequence: a birthday column " 9870101" is accepted as 1 January 987, because `parseInt` skips the leading space, whereas a trimmed "9870101" has seven characters and is refused. The re-joining and re-splitting of the data lines at src/parsers/prn-parser.ts:36-40 is modelled as a per-line map.
- Carriage returns: a "\r\n" input keeps the '\r' at the end of each line, as `split('\n')` does. Its effect on a line shorter than 83 characters depends on the fixed-width package and is not modelled separately.
- HtmlFormatter.FormatTags: assumes the credit limit's rendering holds no '<'. `Number.prototype.toString` guarantees this, but the rendering is a function parameter of `Format`, as `${record.creditLimit}` is not modelled.
- The document head of the HTML page is the literal text of src/formatters/html-formatter.ts:15-63, held line by line. No property of its content beyond its tag count is stated.
- `JSON.stringify` (src/formatters/json-formatter.ts:25): the model stops at the array of objects, and no serialisation or parsing of JSON text is modelled.
- `formatDate`'s `catch` returning '' (src/formatters/html-formatter.ts:104-107): it is never reached, because `getDate`, `getMonth` and `getFullYear` of a JavaScript `Date` return NaN on an invalid date and never throw. `Record` itself admits any year, month and day triple, so `DateText.FormatDate` renders any triple, and its layout and round-trip lemmas require a calendar date. Every record the parsers produce carries a valid date (`CsvParser.AcceptedBirthdaysValid`, `PrnParser.ParsedBirthdaysValid`).
- The command-line entry point, file I/O and the format dispatch (src/index.ts, src/cli.ts) are not part of this model.

=== FILE: calendar.dfy ===
// The proleptic Gregorian calendar, and the JavaScript `Date` constructor as the date
// transformer uses it: `new Date(year, monthIndex, day)` read back through
// `getFullYear`, `getMonth` and `getDate`.
module Calendar {
  import opened Wrappers

  /** A calendar date. `month` counts from 1, unlike JavaScript's `getMonth`. */
  datatype Date = Date(year: int, month: int, day: int)

  /** Gregorian leap years, extended to every integer year (year 0 is 1 BC). */
  predicate IsLeapYear(y: int) {
    y % 4 == 0 && (y % 100 != 0 || y % 400 == 0)
  }

  function DaysInMonth(y: int, m: int): (n: nat)
    requires 1 <= m <= 12
    ensures 28 <= n <= 31
    ensures n == 29 <==> m == 2 && IsLeapYear(y)
  {
    if m == 2 then (if IsLeapYear(y) then 29 else 28)
    else if m == 4 || m == 6 || m == 9 || m == 11 then 30
    else 31
  }

  /** The triple names a day of the proleptic Gregorian calendar. */
  predicate IsCalendarDate(d: Date) {
    1 <= d.month <= 12 && 1 <= d.day <= DaysInMonth(d.year, d.month)
  }

  /** Chronological order of dates, which is lexicographic on the triple. */
  predicate NotAfter(a: Date, b: Date) {
    a.year < b.year ||
    (a.year == b.year && (a.month < b.month || (a.month == b.month && a.day <= b.day)))
  }

  /** The first and the last day a JavaScript time value can hold: 10^8 days before and
      after 1 January 1970 (the TimeClip operation of ECMA-262, section 21.4.1.31 of
      the 2023 edition), taken at midnight UTC. */
  const EarliestDate := Date(-271821, 4, 20)
  const LatestDate := Date(275760, 9, 13)

  predicate InTimeRange(d: Date) {
    NotAfter(EarliestDate, d) && NotAfter(d, LatestDate)
  }

  /** The year the `Date` constructor uses: 0 to 99 stand for 1900 to 1999 (section
      21.4.2.1 of ECMA-262, 2023 edition). */
  function FullYear(y: int): (r: int)
    ensures r != y <==> 0 <= y <= 99
    ensures r >= 1900 || r == y
  {
    if 0 <= y <= 99 then 1900 + y else y
  }

  /** `new Date(year, monthIndex, day)`, read back as a calendar date, for the month
      indexes (0 to 11) and days (1 to 31) the date transformer lets through. A day past
      the end of the month rolls over into the next month, and into the next year after
      December; a date outside the time range is the invalid date, `None`. */
  function NewDate(year: int, monthIndex: int, day: int): (r: Option<Date>)
    requires 0 <= monthIndex <= 11 && 1 <= day <= 31
    ensures r.Some? ==> IsCalendarDate(r.value) && InTimeRange(r.value)
  {
    var y := FullYear(year);
    var m := monthIndex + 1;
    var n := DaysInMonth(y, m);
    var d := if day <= n then Date(y, m, day)
             else if m == 12 then Date(y + 1, 1, day - n)
             else Date(y, m + 1, day - n);
    if InTimeRange(d) then Some(d) else None
  }

  /** The dates the transformer accepts: real calendar dates in the time range, outside
      the years 0 to 99 that the constructor would move into the 1900s. */
  predicate IsValidDate(d: Date) {
    IsCalendarDate(d) && !(0 <= d.year <= 99) && InTimeRange(d)
  }

  /** Constructing a date and reading it back gives the same year, month and day exactly
      when the triple is a valid date. */
  lemma NewDateReadsBack(y: int, m: int, d: int)
    requires 1 <= m <= 12 && 1 <= d <= 31
    ensures NewDate(y, m - 1, d) == Some(Date(y, m, d)) <==> IsValidDate(Date(y, m, d))
  {
    var r := NewDate(y, m - 1, d);
    if 0 <= y <= 99 {
      assert FullYear(y) >= 1900;
      assert r.Some? ==> r.value.year >= 1900;
    } else if d <= DaysInMonth(y, m) {
      assert r == (if InTimeRange(Date(y, m, d)) then Some(Date(y, m, d)) else None);
    } else {
      assert r.Some? ==> r.value.day < d;
    }
  }
}

=== FILE: csv_parser.dfy ===
// `CSVParser.parse`: the row policy applied to what the CSV tokenizer delivers, one
// header-keyed row at a time. The tokenizer itself is not modelled; its output is the
// `rows` parameter.
module CsvParser {
  import opened Wrappers
  import opened Seqs
  import opened Text
  import opened Calendar
  import opened Records
  import opened NumberTransformer
  import opened DateTransformer

  /** One row as the tokenizer gives it: column header to raw cell text. */
  type Row = map<string, string>

  /** `data[key]` is truthy: the column is there and its raw, untrimmed text is not
      empty. */
  predicate Present(row: Row, key: string) {
    key in row && row[key] != ""
  }

  /** `data[key]?.trim() || ''`. */
  function Field(row: Row, key: string): (r: string)
    ensures key !in row ==> r == ""
    ensures key in row ==> r == Trim(row[key])
    ensures |r| > 0 ==> !IsWhite(r[0]) && !IsWhite(r[|r| - 1])
  {
    if key in row then Trim(row[key]) else ""
  }

  /** The record a row yields, or `None` when it is skipped (a required column missing or
      empty) or rejected (its birthday is not a 'DD/MM/YYYY' date). */
  function ParseRow(row: Row): (r: Option<Record>)
    ensures r.Some? <==>
              Present(row, "Name") && Present(row, "Birthday") && Present(row, "Credit Limit") &&
              TransformDate(row["Birthday"], Slashed).Success?
    ensures r.Some? ==> IsValidDate(r.value.birthday)
  {
    if !Present(row, "Name") || !Present(row, "Birthday") || !Present(row, "Credit Limit") then None
    else
      match TransformDate(row["Birthday"], Slashed)
      case Failure(_) => None
      case Success(birthday) =>
        Some(Record(
          Field(row, "Name"),
          Field(row, "Address"),
          Field(row, "Postcode"),
          Field(row, "Phone"),
          TransformNumber(row["Credit Limit"], false),
          birthday))
  }

  /** What each row yields, in row order. */
  function Outcomes(rows: seq<Row>): (o: seq<Option<Record>>)
    ensures |o| == |rows|
  {
    Map(rows, ParseRow)
  }

  /** The `i`-th outcome is what the `i`-th row yields. */
  lemma OutcomeAt(rows: seq<Row>, i: nat)
    requires i < |rows|
    ensures Outcomes(rows)[i] == ParseRow(rows[i])
  {
    MapAt(rows, ParseRow, i);
  }

  /** The records of the accepted rows, pushed in the order the rows arrive. */
  function Accepted(rows: seq<Row>): (r: seq<Record>)
    ensures |r| <= |rows|
  {
    Somes(Outcomes(rows))
  }

  /** The values present in a sequence of outcomes, in order. */
  function Somes(o: seq<Option<Record>>): (r: seq<Record>)
    ensures |r| <= |o|
    decreases |o|
  {
    if o == [] then []
    else
      var init := Somes(o[..|o| - 1]);
      match o[|o| - 1]
      case None => init
      case Some(record) => init + [record]
  }

  /** `parse(input)`: blank input gives no records without tokenizing; otherwise the
      records of the accepted rows. */
  function ParseCsv(input: string, rows: seq<Row>): (r: seq<Record>)
    ensures Trim(input) == "" ==> r == []
    ensures |r| <= |rows|
  {
    if Trim(input) == "" then [] else Accepted(rows)
  }

  /** An accepted row's record: the four text columns trimmed (empty when absent), the
      credit limit as the unscaled amount of the raw cell, and the birthday read in the
      'DD/MM/YYYY' layout from the raw cell. */
  lemma RowRecord(row: Row)
    requires ParseRow(row).Some?
    ensures ParseRow(row).value.name == Field(row, "Name")
    ensures ParseRow(row).value.address == Field(row, "Address")
    ensures ParseRow(row).value.postcode == Field(row, "Postcode")
    ensures ParseRow(row).value.phone == Field(row, "Phone")
    ensures ParseRow(row).value.creditLimit == TransformNumber(row["Credit Limit"], false)
    ensures TransformDate(row["Birthday"], Slashed) == Success(ParseRow(row).value.birthday)
  {
  }

  /** The indexes of the present outcomes, in increasing order. */
  function SomeIndexes(o: seq<Option<Record>>): seq<nat>
    decreases |o|
  {
    if o == [] then []
    else
      var init := SomeIndexes(o[..|o| - 1]);
      if o[|o| - 1].Some? then init + [|o| - 1] else init
  }

  /** `out` is the in-order subsequence of the outcomes' values picked by `idx`: the
      picked indexes increase, each picks a present outcome and its value, and every
      present outcome is picked. */
  predicate Selects(out: seq<Record>, o: seq<Option<Record>>, idx: seq<nat>) {
    && |idx| == |out|
    && (forall k :: 0 <= k < |idx| ==> idx[k] < |o| && o[idx[k]] == Some(out[k]))
    && (forall k, l :: 0 <= k < l < |idx| ==> idx[k] < idx[l])
    && (forall i :: 0 <= i < |o| && o[i].Some? ==> i in idx)
  }

  /** The output is exactly the records of the accepted rows, in row order. */
  lemma AcceptedSelects(rows: seq<Row>)
    ensures Selects(Accepted(rows), Outcomes(rows), SomeIndexes(Outcomes(rows)))
  {
    SomesSelects(Outcomes(rows));
  }

  lemma {:induction false} SomesSelects(o: seq<Option<Record>>)
    ensures Selects(Somes(o), o, SomeIndexes(o))
    decreases |o|
  {
    if o != [] {
      var n := |o| - 1;
      var init := o[..n];
      SomesSelects(init);
      var out, idx := Somes(init), SomeIndexes(init);
      assert forall i :: 0 <= i < n ==> o[i] == init[i];
      if o[n].Some? {
        var out', idx' := out + [o[n].value], idx + [n];
        assert Somes(o) == out' && SomeIndexes(o) == idx';
        forall k | 0 <= k < |idx'| ensures idx'[k] < |o| && o[idx'[k]] == Some(out'[k]) {
          if k < |idx| {
            assert idx'[k] == idx[k] && out'[k] == out[k];
          }
        }
        forall i | 0 <= i < |o| && o[i].Some? ensures i in idx' {
          if i < n {
            assert i in idx;
          }
        }
      } else {
        forall i | 0 <= i < |o| && o[i].Some? ensures i in idx {
          assert i < n;
        }
      }
    }
  }

  /** Rows are handled one by one: the records of two batches of rows are the records of
      each batch, one after the other. */
  lemma AcceptedAppend(a: seq<Row>, b: seq<Row>)
    ensures Accepted(a + b) == Accepted(a) + Accepted(b)
  {
    OutcomesAppend(a, b);
    SomesAppend(Outcomes(a), Outcomes(b));
  }

  lemma OutcomesAppend(a: seq<Row>, b: seq<Row>)
    ensures Outcomes(a + b) == Outcomes(a) + Outcomes(b)
  {
    MapAppend(a, b, ParseRow);
  }

  lemma {:induction false} SomesAppend(a: seq<Option<Record>>, b: seq<Option<Record>>)
    ensures Somes(a + b) == Somes(a) + Somes(b)
    decreases |b|
  {
    if b == [] {
      assert a + b == a;
    } else {
      var n := |b| - 1;
      SomesAppend(a, b[..n]);
      assert (a + b)[..|a + b| - 1] == a + b[..n];
      assert (a + b)[|a + b| - 1] == b[n];
    }
  }

  /** A skipped or rejected row leaves no trace: the other rows give the same records
      as without it. */
  lemma RejectedRowInvisible(a: seq<Row>, row: Row, b: seq<Row>)
    requires ParseRow(row).None?
    ensures Accepted(a + [row] + b) == Accepted(a + b)
  {
    AcceptedAppend(a + [row], b);
    AcceptedAppend(a, [row]);
    AcceptedAppend(a, b);
    assert [row][..0] == [];
    var none: seq<Option<Record>> := [None];
    assert Outcomes([row]) == none;
    assert none[..0] == [];
  }

  /** The column `key` reads the same in both rows. */
  predicate SameColumn(row: Row, other: Row, key: string) {
    (key in row <==> key in other) && (key in row ==> row[key] == other[key])
  }

  /** Only the six named columns matter: rows that agree on them give the same
      result, whatever else they hold. */
  lemma OtherColumnsIgnored(row: Row, other: Row)
    requires SameColumn(row, other, "Name") && SameColumn(row, other, "Address")
    requires SameColumn(row, other, "Postcode") && SameColumn(row, other, "Phone")
    requires SameColumn(row, other, "Credit Limit") && SameColumn(row, other, "Birthday")
    ensures ParseRow(row) == ParseRow(other)
  {
    assert Field(row, "Name") == Field(other, "Name");
    assert Field(row, "Address") == Field(other, "Address");
    assert Field(row, "Postcode") == Field(other, "Postcode");
    assert Field(row, "Phone") == Field(other, "Phone");
  }

  /** Every record of the output has a valid birthday. */
  lemma AcceptedBirthdaysValid(rows: seq<Row>)
    ensures forall k :: 0 <= k < |Accepted(rows)| ==> IsValidDate(Accepted(rows)[k].birthday)
  {
    var o := Outcomes(rows);
    forall i | 0 <= i < |o| && o[i].Some? ensures IsValidDate(o[i].value.birthday) {
      OutcomeAt(rows, i);
    }
    SomesValid(o);
  }

  lemma {:induction false} SomesValid(o: seq<Option<Record>>)
    requires forall i :: 0 <= i < |o| && o[i].Some? ==> IsValidDate(o[i].value.birthday)
    ensures forall k :: 0 <= k < |Somes(o)| ==> IsValidDate(Somes(o)[k].birthday)
    decreases |o|
  {
    if o != [] {
      var n := |o| - 1;
      assert forall i :: 0 <= i < n ==> o[..n][i] == o[i];
      SomesValid(o[..n]);
    }
  }
}

=== FILE: date_text.dfy ===
// `formatDate` of the HTML and JSON formatters (the two copies are identical): the day
// and the 1-based month zero-padded to two digits, then the year as written by
// `Number.prototype.toString`, separated by '/'.
module DateText {
  import opened Wrappers
  import opened Text
  import opened Numerals
  import opened Calendar
  import opened DateTransformer

  function FormatDate(d: Date): string
  {
    PadStart2(IntToString(d.day)) + "/" + PadStart2(IntToString(d.month)) + "/" + IntToString(d.year)
  }

  /** The rendering holds nothing but digits, '/' and a year's minus sign. */
  lemma FormatDateChars(d: Date)
    ensures forall c :: c in FormatDate(d) ==> IsDigit(c) || c == '/' || c == '-'
  {
    PaddedNumberChars(d.day);
    PaddedNumberChars(d.month);
    NumberChars(d.year);
    var a := PadStart2(IntToString(d.day));
    var b := PadStart2(IntToString(d.month));
    var c := IntToString(d.year);
    assert FormatDate(d) == a + "/" + b + "/" + c;
  }

  lemma NumberChars(n: int)
    ensures forall c :: c in IntToString(n) ==> IsDigit(c) || c == '-'
  {
    var t := IntToString(n);
    IntToStringChars(n);
    forall c | c in t ensures IsDigit(c) || c == '-' {
      var k :| 0 <= k < |t| && t[k] == c;
    }
  }

  lemma PaddedNumberChars(n: int)
    ensures forall c :: c in PadStart2(IntToString(n)) ==> IsDigit(c) || c == '-'
  {
    var t := IntToString(n);
    var p := PadStart2(t);
    NumberChars(n);
    forall c | c in p ensures IsDigit(c) || c == '-' {
      var k :| 0 <= k < |p| && p[k] == c;
      if k >= |p| - |t| {
        assert p[k] == t[k - (|p| - |t|)];
      }
    }
  }

  /** The rendering of a calendar date with a non-negative year is 'DD/MM/' followed by
      the year's digits, each field worth the date's component. */
  lemma FormatDateLayout(d: Date)
    requires IsCalendarDate(d) && d.year >= 0
    ensures var r := FormatDate(d);
            && |r| >= 7 && r[2] == '/' && r[5] == '/'
            && AllDigits(r[..2]) && DigitsValue(r[..2]) == d.day
            && AllDigits(r[3..5]) && DigitsValue(r[3..5]) == d.month
            && AllDigits(r[6..]) && DigitsValue(r[6..]) == d.year
  {
    var a := PadStart2(IntToString(d.day));
    var b := PadStart2(IntToString(d.month));
    var c := NatToString(d.year);
    PaddedTwoDigitsValue(d.day, a);
    PaddedTwoDigitsValue(d.month, b);
    assert IntToString(d.year) == c;
    assert FormatDate(d) == a + "/" + b + "/" + c;
    SlashedLayout(a, b, c);
  }

  /** Where the pieces of a 'DD/MM/Y...' text sit. */
  lemma SlashedLayout(a: string, b: string, c: string)
    requires |a| == 2 && |b| == 2 && |c| >= 1
    ensures var r := a + "/" + b + "/" + c;
            |r| >= 7 && r[2] == '/' && r[5] == '/' && r[..2] == a && r[3..5] == b && r[6..] == c
  {
  }

  /** A number below 100, zero-padded to two places, is two digits worth the number,
      and `parseInt` reads it back. */
  lemma PaddedTwoDigits(n: int)
    requires 0 <= n <= 99
    ensures var t := PadStart2(IntToString(n));
            |t| == 2 && AllDigits(t) && DigitsValue(t) == n && ParseInt(t) == Some(n)
  {
    var t := PadStart2(IntToString(n));
    PaddedTwoDigitsValue(n, t);
    ParseIntPrefix(t, "");
    assert t + "" == t;
  }

  lemma PaddedTwoDigitsValue(n: int, t: string)
    requires 0 <= n <= 99 && t == PadStart2(IntToString(n))
    ensures |t| == 2 && AllDigits(t) && DigitsValue(t) == n
  {
    var s := NatToString(n);
    assert IntToString(n) == s;
    if n < 10 {
      assert s == [DigitChar(n)];
      assert t == "0" + s;
      DigitsValueLeadingZero(s);
    } else {
      assert |NatToString(n / 10)| == 1;
      assert |s| == 2;
    }
  }

  /** Two digits, read as a number and zero-padded back, are the same two digits. */
  lemma PaddedDigits(ds: string)
    requires |ds| == 2 && AllDigits(ds)
    ensures PadStart2(IntToString(DigitsValue(ds))) == ds
  {
    if ds[0] == '0' {
      var tail := ds[1..];
      assert ds == "0" + tail;
      DigitsValueLeadingZero(tail);
      NatToStringOfDigits(tail);
    } else {
      NatToStringOfDigits(ds);
    }
  }

  /** Rendering a valid date and transforming the text back in the 'DD/MM/YYYY' layout
      gives the date itself. */
  lemma FormatThenTransform(d: Date)
    requires IsValidDate(d)
    ensures TransformDate(FormatDate(d), Slashed) == Success(d)
  {
    var a := PadStart2(IntToString(d.day));
    var b := PadStart2(IntToString(d.month));
    var c := IntToString(d.year);
    PaddedTwoDigits(d.day);
    PaddedTwoDigits(d.month);
    ParseIntOfIntToString(d.year);
    assert '/' !in a && '/' !in b by {
      assert forall i :: 0 <= i < 2 ==> a[i] != '/' && b[i] != '/';
    }
    SlashedComponents(a, b, c);
    var comps := Components(Some(d.day), Some(d.month), Some(d.year));
    AcceptsExactlyValidDates(FormatDate(d), Slashed, comps);
  }

  /** A 'DD/MM/YYYY' text with two-digit day and month and a four-digit year without a
      leading zero is, when the transformer accepts it, exactly the rendering of the date
      it yields. */
  lemma TransformThenFormat(dd: string, mm: string, yyyy: string)
    requires |dd| == 2 && AllDigits(dd) && |mm| == 2 && AllDigits(mm)
    requires |yyyy| == 4 && AllDigits(yyyy) && yyyy[0] != '0'
    requires TransformDate(dd + "/" + mm + "/" + yyyy, Slashed).Success?
    ensures FormatDate(TransformDate(dd + "/" + mm + "/" + yyyy, Slashed).value) == dd + "/" + mm + "/" + yyyy
  {
    var s := dd + "/" + mm + "/" + yyyy;
    assert '/' !in dd && '/' !in mm && '/' !in yyyy by {
      assert forall i :: 0 <= i < 2 ==> dd[i] != '/' && mm[i] != '/';
      assert forall i :: 0 <= i < 4 ==> yyyy[i] != '/';
    }
    SlashedComponents(dd, mm, yyyy);
    ParseIntPrefix(dd, "");
    ParseIntPrefix(mm, "");
    ParseIntPrefix(yyyy, "");
    assert dd + "" == dd && mm + "" == mm && yyyy + "" == yyyy;
    var comps := Components(Some(DigitsValue(dd) as int), Some(DigitsValue(mm) as int), Some(DigitsValue(yyyy) as int));
    AcceptsExactlyValidDates(s, Slashed, comps);
    PaddedDigits(dd);
    PaddedDigits(mm);
    NatToStringOfDigits(yyyy);
  }
}

=== FILE: date_transformer.dfy ===
// `transformDate`: strict layout checks for 'DD/MM/YYYY' and 'YYYYMMDD', positional
// extraction of the components with `parseInt`, range checks on day and month, then a
// "construct and read back" check against the `Date` constructor.
module DateTransformer {
  import opened Wrappers
  import opened Text
  import opened Numerals
  import opened Calendar

  /** The two layouts the transformer accepts: 'DD/MM/YYYY' and 'YYYYMMDD'. */
  datatype DateFormat = Slashed | Compact

  /** Why a date was refused, one constructor per `throw` of the transformer. */
  datatype DateError = EmptyDate | BadFormat | BadDay | BadMonth | InvalidDate

  /** The components as `parseInt` reads them; `None` stands for NaN. `month` is the
      written month, counting from 1. */
  datatype Components = Components(day: Option<int>, month: Option<int>, year: Option<int>)

  /** The layout check and the extraction of the three components; `None` when the text
      does not have the layout. In the slashed layout every text without a '/' is
      refused, whether or not it is a hyphenated or ISO date. */
  function Extract(s: string, format: DateFormat): Option<Components>
  {
    match format
    case Slashed =>
      if '/' in s then
        var parts := Split(s, '/');
        if |parts| != 3 then None
        else Some(Components(ParseInt(parts[0]), ParseInt(parts[1]), ParseInt(parts[2])))
      else None
    case Compact =>
      if |s| != 8 then None
      else Some(Components(ParseInt(s[6..8]), ParseInt(s[4..6]), ParseInt(s[0..4])))
  }

  /** The range checks and the calendar check. A NaN component passes the range checks
      (every comparison with NaN is false) and makes the constructed date invalid. */
  function Validate(c: Components): Result<Date, DateError>
  {
    if c.day.Some? && (c.day.value < 1 || c.day.value > 31) then Failure(BadDay)
    else if c.month.Some? && (c.month.value - 1 < 0 || c.month.value - 1 > 11) then Failure(BadMonth)
    else if c.day.None? || c.month.None? || c.year.None? then Failure(InvalidDate)
    else
      var y := c.year.value;
      var m := c.month.value - 1;
      var d := c.day.value;
      match NewDate(y, m, d)
      case None => Failure(InvalidDate)
      case Some(date) =>
        if date.year != y || date.month - 1 != m || date.day != d then Failure(InvalidDate)
        else Success(date)
  }

  /** `transformDate(dateStr, format)`. */
  function TransformDate(s: string, format: DateFormat): (r: Result<Date, DateError>)
    ensures r == Failure(EmptyDate) <==> s == ""
    ensures format == Slashed && s != "" && '/' !in s ==> r == Failure(BadFormat)
    ensures format == Slashed && '/' in s && |Split(s, '/')| != 3 ==> r == Failure(BadFormat)
    ensures format == Compact && s != "" && |s| != 8 ==> r == Failure(BadFormat)
    ensures r.Success? ==> IsValidDate(r.value)
  {
    if s == "" then Failure(EmptyDate)
    else
      match Extract(s, format)
      case None => Failure(BadFormat)
      case Some(c) => Validate(c)
  }

  /** Past the layout check, what the components make of the date decides alone. */
  lemma ExtractedThenValidated(s: string, format: DateFormat, c: Components)
    requires s != "" && Extract(s, format) == Some(c)
    ensures TransformDate(s, format) == Validate(c)
  {
  }

  /** Past the layout check, a day outside 1..31 is refused before anything else, and a
      month outside 1..12 next, whatever the other components are. */
  lemma RangeChecksFirst(s: string, format: DateFormat, c: Components)
    requires s != "" && Extract(s, format) == Some(c)
    ensures c.day.Some? && (c.day.value < 1 || c.day.value > 31) ==>
              TransformDate(s, format) == Failure(BadDay)
    ensures c.day.Some? && 1 <= c.day.value <= 31 && c.month.Some? &&
            (c.month.value < 1 || c.month.value > 12) ==>
              TransformDate(s, format) == Failure(BadMonth)
  {
    ExtractedThenValidated(s, format, c);
  }

  /** Past the layout check, the transformer succeeds exactly when all three components
      are numbers forming a valid date, and then returns that very date. */
  lemma AcceptsExactlyValidDates(s: string, format: DateFormat, c: Components)
    requires s != "" && Extract(s, format) == Some(c)
    ensures TransformDate(s, format).Success? <==>
              c.day.Some? && c.month.Some? && c.year.Some? &&
              IsValidDate(Date(c.year.value, c.month.value, c.day.value))
    ensures TransformDate(s, format).Success? ==>
              TransformDate(s, format).value == Date(c.year.value, c.month.value, c.day.value)
  {
    ExtractedThenValidated(s, format, c);
    ValidateExactly(c);
  }

  /** The range and calendar checks accept exactly the components that are numbers
      forming a valid date, and return that date. */
  lemma ValidateExactly(c: Components)
    ensures Validate(c).Success? <==>
              c.day.Some? && c.month.Some? && c.year.Some? &&
              IsValidDate(Date(c.year.value, c.month.value, c.day.value))
    ensures Validate(c).Success? ==> Validate(c).value == Date(c.year.value, c.month.value, c.day.value)
  {
    if c.day.Some? && c.month.Some? && c.year.Some? &&
       1 <= c.day.value <= 31 && 1 <= c.month.value <= 12 {
      NewDateReadsBack(c.year.value, c.month.value, c.day.value);
    }
  }

  /** The slashed layout reads day, month and year from the three '/'-separated pieces. */
  lemma SlashedComponents(dd: string, mm: string, yyyy: string)
    requires '/' !in dd && '/' !in mm && '/' !in yyyy
    ensures Extract(dd + "/" + mm + "/" + yyyy, Slashed) ==
              Some(Components(ParseInt(dd), ParseInt(mm), ParseInt(yyyy)))
  {
    var parts := [dd, mm, yyyy];
    assert parts[1..] == [mm, yyyy] && parts[1..][1..] == [yyyy];
    assert Join([mm, yyyy], '/') == mm + "/" + yyyy;
    assert Join(parts, '/') == dd + "/" + mm + "/" + yyyy;
    SplitJoin(parts, '/');
  }

  /** The compact layout reads the year from positions 0 to 3, the month from 4 and 5 and
      the day from 6 and 7. */
  lemma CompactComponents(yyyy: string, mm: string, dd: string)
    requires |yyyy| == 4 && |mm| == 2 && |dd| == 2
    ensures Extract(yyyy + mm + dd, Compact) ==
              Some(Components(ParseInt(dd), ParseInt(mm), ParseInt(yyyy)))
  {
    var s := yyyy + mm + dd;
    assert s[0..4] == yyyy && s[4..6] == mm && s[6..8] == dd;
  }

  /** A leading zero on a day or month does not change the date: "1/1/1990" and
      "01/01/1990" give the same result. */
  lemma LeadingZeroIgnored(dd: string, mm: string, yyyy: string)
    requires |dd| >= 1 && AllDigits(dd) && |mm| >= 1 && AllDigits(mm) && '/' !in yyyy
    ensures TransformDate("0" + dd + "/" + "0" + mm + "/" + yyyy, Slashed) ==
            TransformDate(dd + "/" + mm + "/" + yyyy, Slashed)
  {
    assert '/' !in dd && '/' !in mm by {
      assert forall i :: 0 <= i < |dd| ==> dd[i] != '/';
      assert forall i :: 0 <= i < |mm| ==> mm[i] != '/';
    }
    assert '/' !in "0" + dd && '/' !in "0" + mm;
    var padded := ("0" + dd) + "/" + ("0" + mm) + "/" + yyyy;
    var plain := dd + "/" + mm + "/" + yyyy;
    assert "0" + dd + "/" + "0" + mm + "/" + yyyy == padded;
    SlashedComponents(dd, mm, yyyy);
    SlashedComponents("0" + dd, "0" + mm, yyyy);
    ParseIntLeadingZero(dd);
    ParseIntLeadingZero(mm);
    var c := Components(ParseInt(dd), ParseInt(mm), ParseInt(yyyy));
    assert padded != "" && plain != "";
    ExtractedThenValidated(padded, Slashed, c);
    ExtractedThenValidated(plain, Slashed, c);
  }
}

=== FILE: html_formatter.dfy ===
// `HTMLFormatter.format`: a fixed document head, one table row per record in record
// order, a fixed tail. The four text fields go through `escapeHtml`, the birthday
// through `formatDate`; the credit limit is written by `Number.prototype.toString`,
// which is the `render` parameter here.
module HtmlFormatter {
  import opened Seqs
  import opened Text
  import opened Numerals
  import opened Calendar
  import opened Records
  import opened DateText

  /** The characters `escapeHtml` replaces. */
  predicate IsSpecial(c: char) {
    c == '&' || c == '<' || c == '>' || c == '"' || c == '\''
  }

  /** The characters that could open or close a tag or an attribute value. */
  predicate IsMarkup(c: char) {
    c == '<' || c == '>' || c == '"' || c == '\''
  }

  /** `escapeHtml(str)`: five global replacements, '&' first. */
  function EscapeHtml(s: string): (r: string)
    ensures (forall i :: 0 <= i < |s| ==> !IsSpecial(s[i])) ==> r == s
  {
    ReplaceAll(ReplaceAll(ReplaceAll(ReplaceAll(ReplaceAll(s, '&', "&amp;"), '<', "&lt;"), '>', "&gt;"), '"', "&quot;"), '\'', "&#039;")
  }

  /** The entity of one character: the reference definition of escaping. */
  function EscapeChar(c: char): (r: string)
    ensures !IsSpecial(c) <==> r == [c]
  {
    if c == '&' then "&amp;"
    else if c == '<' then "&lt;"
    else if c == '>' then "&gt;"
    else if c == '"' then "&quot;"
    else if c == '\'' then "&#039;"
    else [c]
  }

  /** Every character replaced by its entity, independently of its neighbours. */
  function EscapeEach(s: string): string
    decreases |s|
  {
    if s == [] then "" else EscapeChar(s[0]) + EscapeEach(s[1..])
  }

  /** Escaping works piece by piece. */
  lemma EscapeHtmlAppend(a: string, b: string)
    ensures EscapeHtml(a + b) == EscapeHtml(a) + EscapeHtml(b)
  {
    var a1, b1 := ReplaceAll(a, '&', "&amp;"), ReplaceAll(b, '&', "&amp;");
    ReplaceAllAppend(a, b, '&', "&amp;");
    var a2, b2 := ReplaceAll(a1, '<', "&lt;"), ReplaceAll(b1, '<', "&lt;");
    ReplaceAllAppend(a1, b1, '<', "&lt;");
    var a3, b3 := ReplaceAll(a2, '>', "&gt;"), ReplaceAll(b2, '>', "&gt;");
    ReplaceAllAppend(a2, b2, '>', "&gt;");
    var a4, b4 := ReplaceAll(a3, '"', "&quot;"), ReplaceAll(b3, '"', "&quot;");
    ReplaceAllAppend(a3, b3, '"', "&quot;");
    ReplaceAllAppend(a4, b4, '\'', "&#039;");
  }

  /** On one character the five replacements give its entity: the '&' of an entity made
      by a later replacement is never replaced again. */
  lemma EscapeHtmlChar(c: char)
    ensures EscapeHtml([c]) == EscapeChar(c)
  {
    if c == '&' {
      EscapeAmpersand();
    } else if c == '<' {
      EscapeLess();
    } else if c == '>' {
      EscapeGreater();
    } else if c == '"' {
      EscapeQuote();
    } else if c == '\'' {
      EscapeApostrophe();
    }
  }

  /** '&' becomes "&amp;", which no later replacement touches. */
  lemma EscapeAmpersand()
    ensures EscapeHtml("&") == "&amp;"
  {
    assert "&"[1..] == "";
    var s1 := ReplaceAll("&", '&', "&amp;");
    assert s1 == "&amp;";
    assert '<' !in s1 && '>' !in s1 && '"' !in s1 && '\'' !in s1;
    var s2 := ReplaceAll(s1, '<', "&lt;");
    assert s2 == s1;
    var s3 := ReplaceAll(s2, '>', "&gt;");
    assert s3 == s2;
    var s4 := ReplaceAll(s3, '"', "&quot;");
    assert s4 == s3;
    assert '\'' !in s4;
    var s5 := ReplaceAll(s4, '\'', "&#039;");
    assert s5 == s4;
  }

  /** '<' becomes "&lt;", which no later replacement touches. */
  lemma EscapeLess()
    ensures EscapeHtml("<") == "&lt;"
  {
    assert "<"[1..] == "";
    var s1 := ReplaceAll("<", '&', "&amp;");
    assert s1 == "<";
    var s2 := ReplaceAll(s1, '<', "&lt;");
    assert s2 == "&lt;";
    var s3 := ReplaceAll(s2, '>', "&gt;");
    assert s3 == s2;
    var s4 := ReplaceAll(s3, '"', "&quot;");
    assert s4 == s3;
    assert '\'' !in s4;
    var s5 := ReplaceAll(s4, '\'', "&#039;");
    assert s5 == s4;
  }

  /** '>' becomes "&gt;", which no later replacement touches. */
  lemma EscapeGreater()
    ensures EscapeHtml(">") == "&gt;"
  {
    assert ">"[1..] == "";
    var s1 := ReplaceAll(">", '&', "&amp;");
    assert s1 == ">";
    var s2 := ReplaceAll(s1, '<', "&lt;");
    assert s2 == s1;
    var s3 := ReplaceAll(s2, '>', "&gt;");
    assert s3 == "&gt;";
    var s4 := ReplaceAll(s3, '"', "&quot;");
    assert s4 == s3;
    assert '\'' !in s4;
    var s5 := ReplaceAll(s4, '\'', "&#039;");
    assert s5 == s4;
  }

  /** '"' becomes "&quot;", which the last replacement does not touch. */
  lemma EscapeQuote()
    ensures EscapeHtml("\"") == "&quot;"
  {
    assert "\""[1..] == "";
    var s1 := ReplaceAll("\"", '&', "&amp;");
    assert s1 == "\"";
    var s2 := ReplaceAll(s1, '<', "&lt;");
    assert s2 == s1;
    var s3 := ReplaceAll(s2, '>', "&gt;");
    assert s3 == s2;
    var s4 := ReplaceAll(s3, '"', "&quot;");
    assert s4 == "&quot;";
    assert '\'' !in s4;
    var s5 := ReplaceAll(s4, '\'', "&#039;");
    assert s5 == s4;
  }

  /** '\'' becomes "&#039;". */
  lemma EscapeApostrophe()
    ensures EscapeHtml("'") == "&#039;"
  {
    assert "'"[1..] == "";
    var s1 := ReplaceAll("'", '&', "&amp;");
    assert s1 == "'";
    var s2 := ReplaceAll(s1, '<', "&lt;");
    assert s2 == s1;
    var s3 := ReplaceAll(s2, '>', "&gt;");
    assert s3 == s2;
    var s4 := ReplaceAll(s3, '"', "&quot;");
    assert s4 == s3;
    var s5 := ReplaceAll(s4, '\'', "&#039;");
    assert s5 == "&#039;";
  }

  /** `escapeHtml` escapes each character exactly once: it agrees with the
      character-by-character definition. */
  lemma {:induction false} EscapeHtmlCharwise(s: string)
    ensures EscapeHtml(s) == EscapeEach(s)
    decreases |s|
  {
    if s != [] {
      assert s == [s[0]] + s[1..];
      EscapeHtmlAppend([s[0]], s[1..]);
      EscapeHtmlChar(s[0]);
      EscapeHtmlCharwise(s[1..]);
    }
  }

  /** The entities hold no markup character, and every character gives at least one. */
  lemma {:induction false} EscapeEachNoMarkup(s: string)
    ensures forall i :: 0 <= i < |EscapeEach(s)| ==> !IsMarkup(EscapeEach(s)[i])
    ensures |EscapeEach(s)| >= |s|
    decreases |s|
  {
    if s != [] {
      EscapeEachNoMarkup(s[1..]);
      var e := EscapeChar(s[0]);
      assert forall i :: 0 <= i < |e| ==> !IsMarkup(e[i]);
      var rest := EscapeEach(s[1..]);
      assert EscapeEach(s) == e + rest;
      forall i | 0 <= i < |e + rest| ensures !IsMarkup((e + rest)[i]) {
        if i >= |e| { assert (e + rest)[i] == rest[i - |e|]; }
      }
    }
  }

  /** Escaped text holds none of '<', '>', '"' and '\'', whatever the input, and is at
      least as long. */
  lemma EscapedHasNoMarkup(s: string)
    ensures forall i :: 0 <= i < |EscapeHtml(s)| ==> !IsMarkup(EscapeHtml(s)[i])
    ensures |EscapeHtml(s)| >= |s|
  {
    EscapeHtmlCharwise(s);
    EscapeEachNoMarkup(s);
  }

  predicate StartsWith(t: string, p: string) {
    |p| <= |t| && t[..|p|] == p
  }

  /** Decoding of the five entities `escapeHtml` produces; any other character is kept. */
  function Unescape(t: string): string
    decreases |t|
  {
    if t == [] then ""
    else if t[0] != '&' then [t[0]] + Unescape(t[1..])
    else if StartsWith(t, "&amp;") then "&" + Unescape(t[5..])
    else if StartsWith(t, "&lt;") then "<" + Unescape(t[4..])
    else if StartsWith(t, "&gt;") then ">" + Unescape(t[4..])
    else if StartsWith(t, "&quot;") then "\"" + Unescape(t[6..])
    else if StartsWith(t, "&#039;") then "'" + Unescape(t[6..])
    else [t[0]] + Unescape(t[1..])
  }

  lemma UnescapeChar(c: char, rest: string)
    ensures Unescape(EscapeChar(c) + rest) == [c] + Unescape(rest)
  {
    var e := EscapeChar(c);
    var t := e + rest;
    assert t[..|e|] == e && t[|e|..] == rest;
    if c == '&' {
      assert StartsWith(t, "&amp;");
    } else if c == '<' {
      assert t[1] == 'l';
      assert StartsWith(t, "&lt;");
    } else if c == '>' {
      assert t[1] == 'g';
      assert StartsWith(t, "&gt;");
    } else if c == '"' {
      assert t[1] == 'q';
      assert StartsWith(t, "&quot;");
    } else if c == '\'' {
      assert t[1] == '#';
      assert StartsWith(t, "&#039;");
    } else {
      assert t[0] == c;
    }
  }

  lemma {:induction false} UnescapeEach(s: string)
    ensures Unescape(EscapeEach(s)) == s
    decreases |s|
  {
    if s != [] {
      UnescapeEach(s[1..]);
      UnescapeChar(s[0], EscapeEach(s[1..]));
      assert s == [s[0]] + s[1..];
    }
  }

  /** Escaping loses nothing: decoding the entities gives the text back, so distinct
      texts are shown as distinct cells. */
  lemma EscapeRoundTrip(s: string)
    ensures Unescape(EscapeHtml(s)) == s
  {
    EscapeHtmlCharwise(s);
    UnescapeEach(s);
  }

  /** The lines of the document head, up to the opening of the table body. */
  const HeadLines: seq<string> := [
    "<!DOCTYPE html>",
    "<html lang=\"en\">",
    "<head>",
    "  <meta charset=\"UTF-8\">",
    "  <meta name=\"viewport\" content=\"width=device-width, initial-scale=1.0\">",
    "  <title>Data Records</title>",
    "  <style>",
    "    body {",
    "      font-family: Arial, sans-serif;",
    "      line-height: 1.6;",
    "      margin: 0;",
    "      padding: 20px;",
    "    }",
    "    table {",
    "      border-collapse: collapse;",
    "      width: 100%;",
    "      margin-bottom: 20px;",
    "    }",
    "    th, td {",
    "      border: 1px solid #ddd;",
    "      padding: 8px;",
    "      text-align: left;",
    "    }",
    "    th {",
    "      background-color: #f2f2f2;",
    "      font-weight: bold;",
    "    }",
    "    tr:nth-child(even) {",
    "      background-color: #f9f9f9;",
    "    }",
    "    tr:hover {",
    "      background-color: #f1f1f1;",
    "    }",
    "  </style>",
    "</head>",
    "<body>",
    "  <h1>Data Records</h1>",
    "  <table>",
    "    <thead>",
    "      <tr>",
    "        <th>Name</th>",
    "        <th>Address</th>",
    "        <th>Postcode</th>",
    "        <th>Phone</th>",
    "        <th>Credit Limit</th>",
    "        <th>Birthday</th>",
    "      </tr>",
    "    </thead>",
    "    <tbody>"
  ]

  /** The document head. */
  const Prefix: string := Join(HeadLines, '\n')

  /** The document tail, from the closing of the table body. */
  const Suffix: string := "\n    </tbody>\n  </table>\n</body>\n</html>"

  /** One cell on its own line. */
  function Cell(text: string): string {
    "\n        <td>" + text + "</td>"
  }

  /** One table row: the four escaped text fields, the rendered credit limit and the
      formatted birthday, one cell each. */
  function Row(r: Record, render: real -> string): string
  {
    "\n      <tr>" +
    Cell(EscapeHtml(r.name)) + Cell(EscapeHtml(r.address)) +
    Cell(EscapeHtml(r.postcode)) + Cell(EscapeHtml(r.phone)) +
    Cell(render(r.creditLimit)) + Cell(FormatDate(r.birthday)) +
    "\n      </tr>"
  }

  /** The row of each record, in record order. */
  function RowTexts(records: seq<Record>, render: real -> string): seq<string>
  {
    Map(records, r => Row(r, render))
  }

  /** The texts one after the other (`html += ...` in a loop). */
  function Concat(parts: seq<string>): string
    decreases |parts|
  {
    if parts == [] then "" else Concat(parts[..|parts| - 1]) + parts[|parts| - 1]
  }

  /** The rows of the records, appended in record order. */
  function Rows(records: seq<Record>, render: real -> string): string
  {
    Concat(RowTexts(records, render))
  }

  /** The page around the rows. */
  function Page(rows: string): string {
    Prefix + rows + Suffix
  }

  /** `format(records)`. */
  function Format(records: seq<Record>, render: real -> string): string
  {
    Page(Rows(records, render))
  }

  /** The `i`-th row is the `i`-th record's. */
  lemma RowTextAt(records: seq<Record>, render: real -> string, i: nat)
    requires i < |records|
    ensures RowTexts(records, render)[i] == Row(records[i], render)
  {
    MapAt(records, r => Row(r, render), i);
  }

  lemma {:induction false} ConcatAppend(p: seq<string>, q: seq<string>)
    ensures Concat(p + q) == Concat(p) + Concat(q)
    decreases |q|
  {
    if q == [] {
      assert p + q == p;
    } else {
      var n := |q| - 1;
      ConcatAppend(p, q[..n]);
      assert (p + q)[..|p + q| - 1] == p + q[..n];
      assert (p + q)[|p + q| - 1] == q[n];
    }
  }

  /** The rows of two batches of records are the rows of each batch, one after the
      other. */
  lemma RowsAppend(a: seq<Record>, b: seq<Record>, render: real -> string)
    ensures Rows(a + b, render) == Rows(a, render) + Rows(b, render)
  {
    MapAppend(a, b, r => Row(r, render));
    ConcatAppend(RowTexts(a, render), RowTexts(b, render));
  }

  /** The number of '<' in a text: the tags it opens or closes. */
  function Tags(s: string): nat {
    multiset(s)['<']
  }

  /** Tags add up over a concatenation. */
  lemma TagsOfPair(p: string, q: string)
    ensures Tags(p + q) == Tags(p) + Tags(q)
  {
    assert multiset(p + q) == multiset(p) + multiset(q);
  }

  /** Tags add up over a concatenation of three. */
  lemma TagsOfFrame(p: string, m: string, q: string)
    ensures Tags(p + m + q) == Tags(p) + Tags(m) + Tags(q)
  {
    assert multiset(p + m + q) == multiset(p) + multiset(m) + multiset(q);
  }

  lemma CellOpenTags()
    ensures Tags("\n        <td>") == 1
  {
  }

  lemma CellCloseTags()
    ensures Tags("</td>") == 1
  {
  }

  lemma RowOpenTags()
    ensures Tags("\n      <tr>") == 1
  {
  }

  lemma RowCloseTags()
    ensures Tags("\n      </tr>") == 1
  {
  }

  /** A cell whose text has no '<' holds exactly its `<td>` and `</td>`. */
  lemma CellTags(text: string)
    requires '<' !in text
    ensures Tags(Cell(text)) == 2
  {
    CellOpenTags();
    CellCloseTags();
    TagsOfFrame("\n        <td>", text, "</td>");
  }

  /** A row opens and closes exactly the fourteen tags of its template, whatever its
      text fields hold. */
  lemma RowTags(r: Record, render: real -> string)
    requires '<' !in render(r.creditLimit)
    ensures Tags(Row(r, render)) == 14
  {
    var t0, t1, t2 := EscapeHtml(r.name), EscapeHtml(r.address), EscapeHtml(r.postcode);
    var t3, t4, t5 := EscapeHtml(r.phone), render(r.creditLimit), FormatDate(r.birthday);
    EscapedHasNoMarkup(r.name);
    EscapedHasNoMarkup(r.address);
    EscapedHasNoMarkup(r.postcode);
    EscapedHasNoMarkup(r.phone);
    FormatDateChars(r.birthday);
    RowOfCells(t0, t1, t2, t3, t4, t5);
  }

  /** The row template around six cells free of '<' has fourteen tags. */
  lemma RowOfCells(t0: string, t1: string, t2: string, t3: string, t4: string, t5: string)
    requires '<' !in t0 && '<' !in t1 && '<' !in t2 && '<' !in t3 && '<' !in t4 && '<' !in t5
    ensures Tags("\n      <tr>" + Cell(t0) + Cell(t1) + Cell(t2) + Cell(t3) + Cell(t4) + Cell(t5) + "\n      </tr>") == 14
  {
    CellTags(t0);
    CellTags(t1);
    CellTags(t2);
    CellTags(t3);
    CellTags(t4);
    CellTags(t5);
    RowOpenTags();
    RowCloseTags();
  }

  /** Pieces of fourteen tags each, one after the other. */
  lemma {:induction false} ConcatTags(parts: seq<string>)
    requires forall i :: 0 <= i < |parts| ==> Tags(parts[i]) == 14
    ensures Tags(Concat(parts)) == 14 * |parts|
    decreases |parts|
  {
    if parts != [] {
      var n := |parts| - 1;
      ConcatTags(parts[..n]);
      TagsOfPair(Concat(parts[..n]), parts[n]);
    }
  }

  lemma RowsTags(records: seq<Record>, render: real -> string)
    requires forall i :: 0 <= i < |records| ==> '<' !in render(records[i].creditLimit)
    ensures Tags(Rows(records, render)) == 14 * |records|
  {
    var rows := RowTexts(records, render);
    forall i | 0 <= i < |rows| ensures Tags(rows[i]) == 14 {
      RowTextAt(records, render, i);
      RowTags(records[i], render);
    }
    ConcatTags(rows);
  }

  /** The page adds the same tags whatever rows it frames. */
  lemma PageTags(rows: string)
    ensures Tags(Page(rows)) == Tags(Page("")) + Tags(rows)
  {
    TagsOfFrame(Prefix, rows, Suffix);
    TagsOfFrame(Prefix, "", Suffix);
  }

  /** Every tag of the document comes from the template: the page has the tags of the
      empty page and fourteen per record, whatever text the records hold. */
  lemma FormatTags(records: seq<Record>, render: real -> string)
    requires forall i :: 0 <= i < |records| ==> '<' !in render(records[i].creditLimit)
    ensures Tags(Format(records, render)) == Tags(Format([], render)) + 14 * |records|
  {
    RowsTags(records, render);
    PageTags(Rows(records, render));
    NoRecordsNoRows(render);
  }

  /** No records, no rows: the page is the head and the tail. */
  lemma NoRecordsNoRows(render: real -> string)
    ensures Rows([], render) == ""
  {
    assert RowTexts([], render) == [];
  }
}

=== FILE: js_number.dfy ===
/** The ECMAScript number readers the amount normaliser relies on, over exact reals:
    the numeral regex `/[-+]?[0-9]*\.?[0-9]+([eE][-+]?[0-9]+)?/` (leftmost match, greedy),
    `Number(s)` (section 7.1.4.1 of ECMA-262), `parseFloat` of a matched numeral and
    `Math.round` (section 21.3.2.28 of ECMA-262). */
module JsNumber {
  import opened Wrappers
  import opened Text
  import opened Numerals

  predicate IsSign(c: char) {
    c == '+' || c == '-'
  }

  predicate IsExponentMarker(c: char) {
    c == 'e' || c == 'E'
  }

  /** Where a decimal numeral lies in a text, part by part: the sign (0 or 1 character),
      the integer digits, whether a point follows them, the fraction digits and the
      exponent part (marker, optional sign and digits; 0 when absent). */
  datatype Scan = Scan(sign: nat, whole: nat, point: bool, fraction: nat, exponent: nat) {
    function Length(): nat {
      sign + whole + (if point then 1 else 0) + fraction + exponent
    }
    /** Offset, from the numeral's start, of its exponent part. */
    function ExponentStart(): nat {
      sign + whole + (if point then 1 else 0) + fraction
    }
  }

  /** Length of the exponent part `[eE][-+]?[0-9]+` at `k`, 0 when there is none. */
  function ExponentLength(s: string, k: nat): (n: nat)
    requires k <= |s|
    ensures k + n <= |s|
    ensures n > 0 ==> n >= 2 && IsExponentMarker(s[k]) && IsDigit(s[k + n - 1])
    ensures n > 0 ==> forall j :: k + 1 < j < k + n ==> IsDigit(s[j])
    ensures n > 0 ==> IsSign(s[k + 1]) || IsDigit(s[k + 1])
  {
    if k < |s| && IsExponentMarker(s[k]) then
      if k + 1 < |s| && IsSign(s[k + 1]) && DigitRun(s, k + 2) > 0 then 2 + DigitRun(s, k + 2)
      else if DigitRun(s, k + 1) > 0 then 1 + DigitRun(s, k + 1)
      else 0
    else 0
  }

  /** What the greedy `[0-9]*\.?[0-9]+` matches at `j`: all the digits there and, when a
      point followed by a digit comes next, the point and all the digits after it. When the
      point is not followed by a digit the engine backtracks to the integer digits alone. */
  function RegexMantissa(s: string, j: nat): (r: Option<Scan>)
    requires j <= |s|
    ensures r.Some? ==> r.value.sign == 0 && r.value.exponent == 0 && j + r.value.Length() <= |s|
    ensures r.Some? <==> MantissaStart(s, j)
  {
    var w := DigitRun(s, j);
    if j + w < |s| && s[j + w] == '.' && DigitRun(s, j + w + 1) > 0 then
      Some(Scan(0, w, true, DigitRun(s, j + w + 1), 0))
    else if w > 0 then Some(Scan(0, w, false, 0, 0))
    else None
  }

  /** A mantissa can start at `j`: a digit, or a point followed by a digit. */
  predicate MantissaStart(s: string, j: nat) {
    j < |s| && (IsDigit(s[j]) || (s[j] == '.' && j + 1 < |s| && IsDigit(s[j + 1])))
  }

  /** The match of the numeral regex that starts exactly at `i`, if there is one. */
  function RegexScanAt(s: string, i: nat): (r: Option<Scan>)
    requires i <= |s|
    ensures r.Some? ==> i + r.value.Length() <= |s|
    ensures r.Some? <==> MantissaStart(s, i) || (i < |s| && IsSign(s[i]) && MantissaStart(s, i + 1))
  {
    var sign: nat := if i < |s| && IsSign(s[i]) && RegexMantissa(s, i + 1).Some? then 1 else 0;
    match RegexMantissa(s, i + sign)
    case None => None
    case Some(m) =>
      Some(m.(sign := sign, exponent := ExponentLength(s, i + sign + m.Length())))
  }

  /** The leftmost position, at or after `from`, where the numeral regex matches. */
  function FirstMatch(s: string, from: nat): (r: Option<nat>)
    requires from <= |s|
    ensures r.Some? ==> from <= r.value < |s| && RegexScanAt(s, r.value).Some?
    ensures forall p :: from <= p <= |s| && (r.None? || p < r.value) ==> RegexScanAt(s, p).None?
    decreases |s| - from
  {
    if from == |s| then None
    else if RegexScanAt(s, from).Some? then Some(from)
    else FirstMatch(s, from + 1)
  }

  /** Wherever the text of a match occurs, the regex matches too: whether it matches only
      depends on the first three characters, which every match contains when it needs them. */
  lemma MatchRecurs(s: string, i: nat, p: nat)
    requires i <= |s| && p <= |s| && RegexScanAt(s, i).Some?
    requires OccursAt(s, s[i..i + RegexScanAt(s, i).value.Length()], p)
    ensures RegexScanAt(s, p).Some?
  {
    var t := s[i..i + RegexScanAt(s, i).value.Length()];
    MatchHead(s, i);
    if MantissaStart(t, 0) {
      MantissaStartAt(s, t, p, 0);
    } else {
      MantissaStartAt(s, t, p, 1);
      assert s[p] == t[0];
    }
  }

  /** The text of a match starts a match by itself: a mantissa, or a sign and a
      mantissa. */
  lemma MatchHead(s: string, i: nat)
    requires i <= |s| && RegexScanAt(s, i).Some?
    ensures var t := s[i..i + RegexScanAt(s, i).value.Length()];
            MantissaStart(t, 0) || (|t| > 0 && IsSign(t[0]) && MantissaStart(t, 1))
  {
    var sc := RegexScanAt(s, i).value;
    ScanSign(s, i, sc);
    ScanParts(s, i, sc);
    HeadOfParts(s, i, sc);
  }

  /** The same, from the parts of the match. */
  lemma HeadOfParts(s: string, i: nat, sc: Scan)
    requires i + sc.Length() <= |s|
    requires sc.sign == if i < |s| && IsSign(s[i]) then 1 else 0
    requires RegexMantissa(s, i + sc.sign) == Some(Scan(0, sc.whole, sc.point, sc.fraction, 0))
    ensures var t := s[i..i + sc.Length()];
            MantissaStart(t, 0) || (|t| > 0 && IsSign(t[0]) && MantissaStart(t, 1))
  {
    var t := s[i..i + sc.Length()];
    var j := i + sc.sign;
    MantissaParts(s, j, Scan(0, sc.whole, sc.point, sc.fraction, 0));
    assert sc.Length() >= sc.sign + sc.whole + (if sc.point then 1 + sc.fraction else 0);
    if sc.whole > 0 {
      assert IsDigit(s[j]) && t[j - i] == s[j];
    } else {
      assert sc.point && sc.fraction > 0 && s[j] == '.' && IsDigit(s[j + 1]);
      assert t[j - i] == s[j] && t[j - i + 1] == s[j + 1];
    }
    if sc.sign == 1 {
      assert t[0] == s[i];
    }
  }

  /** A mantissa start inside a text is one wherever the text occurs. */
  lemma MantissaStartAt(s: string, t: string, p: nat, j: nat)
    requires OccursAt(s, t, p) && MantissaStart(t, j)
    ensures MantissaStart(s, p + j)
  {
    assert s[p + j] == t[j];
    if j + 1 < |t| {
      assert s[p + j + 1] == t[j + 1];
    }
  }

  /** `indexOf` of the matched text finds the match itself: had the text occurred earlier,
      the regex would have matched there. */
  lemma MatchIsFirstOccurrence(s: string, i: nat)
    requires FirstMatch(s, 0) == Some(i)
    ensures IndexOfText(s, s[i..i + RegexScanAt(s, i).value.Length()], 0) == i
  {
    var t := s[i..i + RegexScanAt(s, i).value.Length()];
    var r := IndexOfText(s, t, 0);
    assert OccursAt(s, t, i);
    if 0 <= r < i {
      MatchRecurs(s, i, r);
    }
  }

  /** A mantissa consists of digits and a point. */
  lemma MantissaChars(s: string, j: nat, m: Scan)
    requires j <= |s| && RegexMantissa(s, j) == Some(m)
    ensures forall k :: j <= k < j + m.Length() ==> IsDigit(s[k]) || s[k] == '.'
  {
    var w := DigitRun(s, j);
    if j + w < |s| && s[j + w] == '.' && DigitRun(s, j + w + 1) > 0 {
      assert m == Scan(0, w, true, DigitRun(s, j + w + 1), 0);
    }
  }

  /** What a match at `i` consists of: after the sign, digits and points up to the
      exponent part, then the exponent marker, its sign and its digits. */
  lemma ScanLayout(s: string, i: nat, sc: Scan)
    requires i <= |s| && RegexScanAt(s, i) == Some(sc)
    ensures sc.sign <= 1
    ensures forall k :: i + sc.sign <= k < i + sc.ExponentStart() ==> IsDigit(s[k]) || s[k] == '.'
    ensures sc.exponent > 0 ==> IsExponentMarker(s[i + sc.ExponentStart()])
    ensures forall k :: i + sc.ExponentStart() + 1 < k < i + sc.Length() ==> IsDigit(s[k])
  {
    ScanParts(s, i, sc);
    var m := Scan(0, sc.whole, sc.point, sc.fraction, 0);
    MantissaChars(s, i + sc.sign, m);
    assert sc.ExponentStart() == sc.sign + m.Length();
  }

  /** A character a numeral can hold. */
  predicate IsNumeralChar(c: char) {
    IsDigit(c) || c == '.' || IsSign(c) || IsExponentMarker(c)
  }

  /** A match holds only digits, points, signs and exponent markers. */
  lemma MatchChars(s: string, i: nat, sc: Scan)
    requires i <= |s| && RegexScanAt(s, i) == Some(sc)
    ensures i + sc.Length() <= |s|
    ensures forall k :: i <= k < i + sc.Length() ==> IsNumeralChar(s[k])
  {
    ScanLayout(s, i, sc);
    ScanParts(s, i, sc);
    var e := i + sc.ExponentStart();
    var n := i + sc.Length();
    assert n == e + sc.exponent;
    assert sc.sign == 1 ==> IsSign(s[i]);
    assert sc.exponent > 0 ==> IsSign(s[e + 1]) || IsDigit(s[e + 1]);
    forall k | i <= k < n ensures IsNumeralChar(s[k]) {
      if k < i + sc.sign {
        assert k == i && sc.sign == 1;
      } else if k < e {
        assert IsDigit(s[k]) || s[k] == '.';
      } else if k == e {
        assert sc.exponent > 0;
      } else if k > e + 1 {
        assert IsDigit(s[k]);
      }
    }
  }

  /** A match with an exponent part ends with a digit of the exponent. */
  lemma MatchEndsInDigit(s: string, i: nat, sc: Scan)
    requires i <= |s| && RegexScanAt(s, i) == Some(sc) && sc.exponent > 0
    ensures 0 < i + sc.Length() <= |s| && IsDigit(s[i + sc.Length() - 1])
  {
    ScanParts(s, i, sc);
    var e := i + sc.ExponentStart();
    assert i + sc.Length() == e + sc.exponent;
  }

  /** A match is a sign, a mantissa and the exponent part after it. */
  lemma ScanParts(s: string, i: nat, sc: Scan)
    requires i <= |s| && RegexScanAt(s, i) == Some(sc)
    ensures sc.sign <= 1 && i + sc.sign <= |s|
    ensures RegexMantissa(s, i + sc.sign) == Some(Scan(0, sc.whole, sc.point, sc.fraction, 0))
    ensures i + sc.ExponentStart() <= |s| && sc.exponent == ExponentLength(s, i + sc.ExponentStart())
  {
  }

  /** Past its first character, a match holds a sign only as the exponent's sign, right
      after the exponent marker. */
  lemma SignInsideMatch(s: string, i: nat, p: nat)
    requires i <= |s| && RegexScanAt(s, i).Some?
    requires i < p < i + RegexScanAt(s, i).value.Length() && IsSign(s[p])
    ensures RegexScanAt(s, i).value.exponent > 0
    ensures p == i + RegexScanAt(s, i).value.ExponentStart() + 1 && IsExponentMarker(s[p - 1])
  {
    ScanLayout(s, i, RegexScanAt(s, i).value);
  }

  /** Digits running to the end of the text match as a plain integer numeral. */
  lemma DigitTailMatch(s: string, j: nat)
    requires j < |s| && AllDigits(s[j..])
    ensures RegexScanAt(s, j) == Some(Scan(0, |s| - j, false, 0, 0))
  {
    assert forall k :: j <= k < |s| ==> s[k] == s[j..][k - j];
    DigitRunIs(s, j, |s| - j);
    assert RegexMantissa(s, j) == Some(Scan(0, |s| - j, false, 0, 0));
  }

  /** A sign followed by digits running to the end of the text matches as a signed
      integer numeral. */
  lemma SignedDigitTailMatch(s: string, j: nat)
    requires j + 1 < |s| && IsSign(s[j]) && AllDigits(s[j + 1..])
    ensures RegexScanAt(s, j) == Some(Scan(1, |s| - j - 1, false, 0, 0))
  {
    DigitTailMatch(s, j + 1);
  }

  /** `StrDecimalLiteral` of section 7.1.4.1 of ECMA-262 spanning all of `t`, without
      `Infinity`: an optional sign, digits with an optional point (at least one digit on
      either side), and an optional exponent part. */
  function LiteralScan(t: string): (r: Option<Scan>)
    ensures r.Some? ==> r.value.Length() == |t| && r.value.whole + r.value.fraction > 0
  {
    var sign: nat := if |t| > 0 && IsSign(t[0]) then 1 else 0;
    var w := DigitRun(t, sign);
    var point := sign + w < |t| && t[sign + w] == '.';
    var f := if point then DigitRun(t, sign + w + 1) else 0;
    var m := Scan(sign, w, point, f, 0);
    var sc := m.(exponent := ExponentLength(t, m.ExponentStart()));
    if w + f > 0 && sc.Length() == |t| then Some(sc) else None
  }

  /** A decimal literal ends in a digit or in a point. */
  lemma LiteralEnd(t: string)
    ensures LiteralScan(t).Some? ==> IsDigit(t[|t| - 1]) || t[|t| - 1] == '.'
  {
    if LiteralScan(t).Some? {
      var sc := LiteralScan(t).value;
      var k := sc.ExponentStart();
      assert sc.exponent == ExponentLength(t, k);
      if sc.exponent == 0 {
        if sc.fraction > 0 {
          assert sc.fraction == DigitRun(t, sc.sign + sc.whole + 1);
        } else if !sc.point {
          assert sc.whole == DigitRun(t, sc.sign);
        }
      }
    }
  }

  /** A text that starts with a non-white character and ends in an exponent marker is not
      a decimal literal. */
  lemma MarkerEndNotNumeric(a: string)
    requires |a| > 0 && !IsWhite(a[0]) && IsExponentMarker(a[|a| - 1])
    ensures !IsNumeric(a)
  {
    TrimOfTrimmed(a);
    LiteralEnd(a);
  }

  /** `m` times ten to the power `x`. */
  function Scale(m: real, x: int): real
    decreases if x >= 0 then x else -x
  {
    if x == 0 then m
    else if x > 0 then Scale(m * 10.0, x - 1)
    else Scale(m / 10.0, x + 1)
  }

  /** The signed power of ten an exponent part of length `n` at `e` denotes. */
  function ExponentValue(s: string, e: nat, n: nat): int
    requires e + n <= |s|
  {
    if n < 2 then 0
    else if s[e + 1] == '-' then 0 - DigitsValue(s[e + 2..e + n])
    else if s[e + 1] == '+' then DigitsValue(s[e + 2..e + n])
    else DigitsValue(s[e + 1..e + n])
  }

  /** A decimal numeral taken apart: its sign, integer digits, fraction digits and the
      power of ten its exponent part denotes. */
  datatype Numeral = Numeral(negative: bool, whole: string, fraction: string, exponent: int) {
    /** The exact value: what `Number` and `parseFloat` compute before rounding to a
        double. */
    function Value(): real {
      var mantissa := DigitsValue(whole) as real + Scale(DigitsValue(fraction) as real, -|fraction|);
      var magnitude := if exponent == 0 then mantissa else Scale(mantissa, exponent);
      if negative then -magnitude else magnitude
    }
  }

  /** The parts of the numeral `sc` delimits at `i`. */
  function NumeralAt(s: string, i: nat, sc: Scan): Numeral
    requires i + sc.Length() <= |s|
  {
    var w := i + sc.sign;
    var f := w + sc.whole + (if sc.point then 1 else 0);
    var e := f + sc.fraction;
    Numeral(sc.sign == 1 && s[i] == '-', s[w..w + sc.whole], s[f..e], ExponentValue(s, e, sc.exponent))
  }

  /** `Number(s)` is not NaN: after trimming, the text is empty or a decimal literal. */
  predicate IsNumeric(s: string) {
    var t := Trim(s);
    |t| == 0 || LiteralScan(t).Some?
  }

  /** The numeral "0". */
  const Zero := Numeral(false, "0", "", 0)

  /** `Number(s)`, as the numeral it reads (its value is `Value()`): white around the
      literal ignored, empty text reads as 0, and anything that is not a decimal literal
      is NaN (`None`). */
  function NumberOf(s: string): (r: Option<Numeral>)
    ensures r.Some? <==> IsNumeric(s)
  {
    var t := Trim(s);
    if |t| == 0 then Some(Zero)
    else match LiteralScan(t)
      case None => None
      case Some(sc) => Some(NumeralAt(t, 0, sc))
  }

  /** `/^[-+]?[0-9]*\.?[0-9]+([eE][-+]?[0-9]+)$/.test(w)`: the greedy match at the start
      spans the whole text and ends in an exponent part. */
  predicate IsScientific(w: string) {
    match RegexScanAt(w, 0)
    case None => false
    case Some(sc) => sc.exponent > 0 && sc.Length() == |w|
  }

  /** On a text the anchored scientific regex accepts, `Number` reads exactly the numeral
      the regex delimits. */
  lemma ScientificIsNumber(w: string)
    requires IsScientific(w)
    ensures NumberOf(w) == Some(NumeralAt(w, 0, RegexScanAt(w, 0).value))
  {
    var sc := RegexScanAt(w, 0).value;
    assert sc.Length() == |w|;
    assert Trim(w) == w by {
      MatchChars(w, 0, sc);
      MatchEndsInDigit(w, 0, sc);
      assert IsNumeralChar(w[0]);
      TrimOfTrimmed(w);
    }
    LiteralScanOfMatch(w, sc);
  }

  lemma LiteralScanOfMatch(w: string, sc: Scan)
    requires RegexScanAt(w, 0) == Some(sc) && sc.exponent > 0 && sc.Length() == |w|
    ensures LiteralScan(w) == Some(sc)
  {
    ScanParts(w, 0, sc);
    ScanSign(w, 0, sc);
    LiteralScanOfParts(w, sc);
  }

  /** A match takes the sign in front of it exactly when there is one. */
  lemma ScanSign(s: string, i: nat, sc: Scan)
    requires i <= |s| && RegexScanAt(s, i) == Some(sc)
    ensures sc.sign == if i < |s| && IsSign(s[i]) then 1 else 0
  {
  }

  /** A whole text laid out as a sign, a mantissa and an exponent part scans as a
      literal with those parts. */
  lemma LiteralScanOfParts(w: string, sc: Scan)
    requires sc.sign == (if |w| > 0 && IsSign(w[0]) then 1 else 0)
    requires RegexMantissa(w, sc.sign) == Some(Scan(0, sc.whole, sc.point, sc.fraction, 0))
    requires sc.ExponentStart() <= |w| && sc.exponent == ExponentLength(w, sc.ExponentStart())
    requires sc.exponent > 0 && sc.Length() == |w|
    ensures LiteralScan(w) == Some(sc)
  {
    var j := sc.sign;
    MantissaParts(w, j, Scan(0, sc.whole, sc.point, sc.fraction, 0));
    var e := sc.ExponentStart();
    assert e == j + sc.whole + (if sc.point then 1 else 0) + sc.fraction;
    assert IsExponentMarker(w[e]);
    assert sc.point == (j + sc.whole < |w| && w[j + sc.whole] == '.');
    LiteralScanIs(w, sc);
  }

  /** The parts of a mantissa match: the digits at `j`, then the point and the digits
      after it when there are some. */
  lemma MantissaParts(s: string, j: nat, m: Scan)
    requires j <= |s| && RegexMantissa(s, j) == Some(m)
    ensures m.whole == DigitRun(s, j) && m.whole + m.fraction > 0
    ensures m.point ==> j + m.whole < |s| && s[j + m.whole] == '.'
    ensures m.fraction == if m.point then DigitRun(s, j + m.whole + 1) else 0
  {
  }

  /** The literal scan of a text, given part by part. */
  lemma LiteralScanIs(t: string, sc: Scan)
    requires sc.sign == (if |t| > 0 && IsSign(t[0]) then 1 else 0)
    requires sc.whole == DigitRun(t, sc.sign)
    requires sc.point == (sc.sign + sc.whole < |t| && t[sc.sign + sc.whole] == '.')
    requires sc.fraction == if sc.point then DigitRun(t, sc.sign + sc.whole + 1) else 0
    requires sc.Length() == |t| && sc.exponent == ExponentLength(t, sc.ExponentStart())
    requires sc.whole + sc.fraction > 0
    ensures LiteralScan(t) == Some(sc)
  {
    var m := Scan(sc.sign, sc.whole, sc.point, sc.fraction, 0);
    assert m.ExponentStart() == sc.ExponentStart();
    assert m.(exponent := ExponentLength(t, m.ExponentStart())) == sc;
  }

  /** `Math.round`: the nearest integer, halves rounded up (towards +infinity). */
  function MathRound(x: real): (n: int)
    ensures x - 0.5 < n as real <= x + 0.5
  {
    (x + 0.5).Floor
  }
}

=== FILE: json_formatter.dfy ===
// `JSONFormatter.format`: each record becomes a plain object with the same fields, the
// birthday written by `formatDate`, and the array of objects is handed to
// `JSON.stringify`. The serialisation itself is not modelled: the model stops at the
// array of objects.
module JsonFormatter {
  import opened Wrappers
  import opened Seqs
  import opened Calendar
  import opened Records
  import opened DateTransformer
  import opened DateText
  import opened CsvParser
  import opened PrnParser

  /** The object written for one record: the birthday is text. */
  datatype JsonRecord = JsonRecord(
    name: string,
    address: string,
    postcode: string,
    phone: string,
    creditLimit: real,
    birthday: string)

  /** The `records.map(...)` callback. */
  function ToJsonRecord(r: Record): JsonRecord
  {
    JsonRecord(r.name, r.address, r.postcode, r.phone, r.creditLimit, FormatDate(r.birthday))
  }

  /** The objects of the records, in record order. */
  function ToJson(records: seq<Record>): (out: seq<JsonRecord>)
    ensures |out| == |records|
  {
    Map(records, ToJsonRecord)
  }

  /** Reading an object back: the text fields and the amount as they are, the birthday
      through the 'DD/MM/YYYY' transformer. */
  function FromJsonRecord(j: JsonRecord): Option<Record>
  {
    match TransformDate(j.birthday, Slashed)
    case Failure(_) => None
    case Success(d) => Some(Record(j.name, j.address, j.postcode, j.phone, j.creditLimit, d))
  }

  /** Reading every object back with `read`; `None` as soon as one does not read. */
  function ReadAll(js: seq<JsonRecord>, read: JsonRecord -> Option<Record>): Option<seq<Record>>
    decreases |js|
  {
    if js == [] then Some([])
    else
      match read(js[0])
      case None => None
      case Some(r) =>
        match ReadAll(js[1..], read)
        case None => None
        case Some(rs) => Some([r] + rs)
  }

  /** Reading every object back. */
  function FromJson(js: seq<JsonRecord>): Option<seq<Record>>
  {
    ReadAll(js, FromJsonRecord)
  }

  /** Mapping with `f` and reading back with `read` gives the records back when `read`
      undoes `f` on each of them. */
  lemma {:induction false} MapThenReadAll(records: seq<Record>, f: Record -> JsonRecord, read: JsonRecord -> Option<Record>)
    requires forall k :: 0 <= k < |records| ==> read(f(records[k])) == Some(records[k])
    ensures ReadAll(Map(records, f), read) == Some(records)
    decreases |records|
  {
    if records != [] {
      var head, tail := [records[0]], records[1..];
      assert records == head + tail;
      MapAppend(head, tail, f);
      assert Map(head, f) == [f(records[0])] by {
        assert head[..0] == [];
      }
      var js := Map(records, f);
      assert js[0] == f(records[0]) && js[1..] == Map(tail, f);
      assert forall k :: 0 <= k < |tail| ==> tail[k] == records[k + 1];
      MapThenReadAll(tail, f, read);
    }
  }

  /** The `i`-th object is the `i`-th record's. */
  lemma ToJsonAt(records: seq<Record>, i: nat)
    requires i < |records|
    ensures ToJson(records)[i] == ToJsonRecord(records[i])
  {
    MapAt(records, ToJsonRecord, i);
  }

  /** An object carries its record's text fields and amount unchanged, and a birthday in
      the 'DD/MM/YYYY' layout that reads back as the record's birthday. */
  lemma JsonRecordRoundTrip(r: Record)
    requires IsValidDate(r.birthday)
    ensures FromJsonRecord(ToJsonRecord(r)) == Some(r)
  {
    FormatThenTransform(r.birthday);
  }

  /** Nothing is lost in the mapping: the records are read back, in order, from their
      objects. */
  lemma JsonRoundTrip(records: seq<Record>)
    requires forall k :: 0 <= k < |records| ==> IsValidDate(records[k].birthday)
    ensures FromJson(ToJson(records)) == Some(records)
  {
    forall k | 0 <= k < |records| ensures FromJsonRecord(ToJsonRecord(records[k])) == Some(records[k]) {
      JsonRecordRoundTrip(records[k]);
    }
    MapThenReadAll(records, ToJsonRecord, FromJsonRecord);
  }

  /** The records parsed from a CSV input are recovered from their JSON objects. */
  lemma CsvToJsonRoundTrip(input: string, rows: seq<CsvParser.Row>)
    ensures FromJson(ToJson(ParseCsv(input, rows))) == Some(ParseCsv(input, rows))
  {
    AcceptedBirthdaysValid(rows);
    JsonRoundTrip(ParseCsv(input, rows));
  }

  /** The records parsed from a fixed-width input are recovered from their JSON
      objects. */
  lemma PrnToJsonRoundTrip(input: string)
    requires ParsePrn(input).Success?
    ensures FromJson(ToJson(ParsePrn(input).value)) == Some(ParsePrn(input).value)
  {
    ParsedBirthdaysValid(input);
    JsonRoundTrip(ParsePrn(input).value);
  }
}

=== FILE: number_transformer.dfy ===
/** The amount normaliser: free-form amount text (currency symbols, thousands
    separators, accounting parentheses, scientific notation, "a-b" expressions, labels)
    to a number of whole cents, or to 0 when no amount can be read. */
module NumberTransformer {
  import opened Wrappers
  import opened Text
  import opened Numerals
  import opened JsNumber

  /** The currency symbols stripped before reading. */
  const CurrencySymbols: set<char> := {'$', '£', '€'}

  /** A whole number of cents. */
  predicate IsWholeCents(x: real) {
    (100.0 * x).Floor as real == 100.0 * x
  }

  /** `Math.round(x * 100) / 100`. */
  function RoundToCents(x: real): real
  {
    MathRound(x * 100.0) as real / 100.0
  }

  /** Rounding yields whole cents, at most half a cent away. */
  lemma RoundToCentsBounds(x: real)
    ensures IsWholeCents(RoundToCents(x))
    ensures x - 0.005 < RoundToCents(x) <= x + 0.005
  {
    var n := MathRound(x * 100.0);
    assert 100.0 * RoundToCents(x) == n as real;
  }

  /** Rounding to cents leaves whole cents alone. */
  lemma RoundToCentsOfCents(x: real)
    requires IsWholeCents(x)
    ensures RoundToCents(x) == x
  {
    var k := (100.0 * x).Floor;
    assert x * 100.0 == k as real;
    assert (k as real + 0.5).Floor == k;
    assert RoundToCents(x) == k as real / 100.0;
  }

  /** A value exactly halfway between two whole cents. */
  predicate IsHalfCent(x: real) {
    (100.0 * x + 0.5).Floor as real == 100.0 * x + 0.5
  }

  /** Rounding commutes with negation except on an exact half cent, where `Math.round`
      rounds both values up and the negated result is a cent above the negation. */
  lemma RoundToCentsNegate(x: real)
    ensures IsHalfCent(x) ==> RoundToCents(-x) == 0.01 - RoundToCents(x)
    ensures !IsHalfCent(x) ==> RoundToCents(-x) == -RoundToCents(x)
  {
    var y := 100.0 * x + 0.5;
    var n := MathRound(x * 100.0);
    var m := MathRound(-x * 100.0);
    assert n == y.Floor;
    assert m == (1.0 - y).Floor;
    FloorOneMinus(y);
  }

  lemma FloorOneMinus(y: real)
    ensures (1.0 - y).Floor == if y.Floor as real == y then 1 - y.Floor else -y.Floor
  {
  }

  /** Whole cents are never a half cent. */
  lemma WholeCentsNotHalf(x: real)
    requires IsWholeCents(x)
    ensures !IsHalfCent(x)
  {
    var k := (100.0 * x).Floor;
    assert 100.0 * x + 0.5 == k as real + 0.5;
    assert (k as real + 0.5).Floor == k;
  }

  /** What rounding adds to the negation of a rounded value: a cent on an exact half
      cent, nothing otherwise. */
  function TieCorrection(x: real): real {
    if IsHalfCent(x) then 0.01 else 0.0
  }

  lemma NegatedRounding(x: real, a: real, b: real)
    requires a == RoundToCents(-x) && b == RoundToCents(x)
    ensures a == TieCorrection(x) - b
  {
    RoundToCentsNegate(x);
  }


  /** The text once accounting parentheses, currency symbols and commas are gone. */
  datatype Prepared = Prepared(negative: bool, text: string)

  predicate Parenthesised(t: string) {
    |t| > 0 && t[0] == '(' && t[|t| - 1] == ')'
  }

  /** Currency symbols and commas removed wherever they are, then trimmed. */
  function Clean(inner: string): (w: string)
    ensures forall c :: c in w ==> c in inner && c !in CurrencySymbols && c != ','
    ensures |w| > 0 ==> !IsWhite(w[0]) && !IsWhite(w[|w| - 1])
  {
    var w := Trim(Remove(Remove(inner, CurrencySymbols), {','}));
    forall c | c in w
      ensures c in inner && c !in CurrencySymbols && c != ','
    {
      TrimKeeps(Remove(Remove(inner, CurrencySymbols), {','}), c);
      RemoveKeeps(Remove(inner, CurrencySymbols), {','}, c);
      RemoveKeeps(inner, CurrencySymbols, c);
    }
    w
  }

  /** Trim; one pair of enclosing parentheses marks a negative amount and is dropped;
      currency symbols and commas are removed anywhere; trim again. */
  function Prepare(s: string): (p: Prepared)
    ensures p.negative <==> Parenthesised(Trim(s))
    ensures forall c :: c in p.text ==> c in s && c !in CurrencySymbols && c != ','
    ensures |p.text| > 0 ==> !IsWhite(p.text[0]) && !IsWhite(p.text[|p.text| - 1])
  {
    var t := Trim(s);
    var inner := Unwrapped(t);
    forall c | c in inner ensures c in s {
      TrimKeeps(s, c);
    }
    Prepared(Parenthesised(t), Clean(inner))
  }

  /** The text inside one pair of enclosing parentheses, or the text itself. */
  function Unwrapped(t: string): (inner: string)
    ensures forall c :: c in inner ==> c in t
  {
    if Parenthesised(t) then
      var inner := t[1..|t| - 1];
      assert forall i :: 0 <= i < |inner| ==> inner[i] == t[i + 1];
      inner
    else t
  }

  predicate IsStripped(g: char) {
    g in CurrencySymbols || g == ','
  }

  /** A currency symbol or comma anywhere in the text makes no difference to cleaning. */
  lemma CleanIgnores(p: string, g: char, q: string)
    requires IsStripped(g)
    ensures Clean(p + [g] + q) == Clean(p + q)
  {
    var r1 := Remove(p + [g] + q, CurrencySymbols);
    RemoveAppend(p + [g], q, CurrencySymbols);
    RemoveAppend(p, [g], CurrencySymbols);
    RemoveAppend(p, q, CurrencySymbols);
    var a, b := Remove(p, CurrencySymbols), Remove(q, CurrencySymbols);
    assert Remove(p + q, CurrencySymbols) == a + b;
    var c := RemoveChar(g, CurrencySymbols);
    assert r1 == a + c + b;
    RemoveAppend(a + c, b, {','});
    RemoveAppend(a, c, {','});
    RemoveAppend(a, b, {','});
    assert Remove(c, {','}) == "" by {
      if c != "" {
        assert c == [','];
        assert c[1..] == "";
      }
    }
    assert Remove(r1, {','}) == Remove(a + b, {','});
  }

  /** A currency symbol or comma between two pieces of the text is ignored: the text is
      prepared as if it were not there. */
  lemma PrepareIgnores(a: string, g: char, b: string)
    requires IsStripped(g)
    requires |a| > 0 && !IsWhite(a[0]) && |b| > 0 && !IsWhite(b[|b| - 1])
    ensures Prepare(a + [g] + b) == Prepare(a + b)
  {
    var x, y := a + [g] + b, a + b;
    assert x[0] == y[0] == a[0] && x[|x| - 1] == y[|y| - 1] == b[|b| - 1];
    if a[0] == '(' && b[|b| - 1] == ')' {
      assert x[1..|x| - 1] == a[1..] + [g] + b[..|b| - 1];
      assert y[1..|y| - 1] == a[1..] + b[..|b| - 1];
      CleanIgnores(a[1..], g, b[..|b| - 1]);
      PrepareWrapped(x);
      PrepareWrapped(y);
    } else {
      CleanIgnores(a, g, b);
      PrepareSame(x, y);
    }
  }

  /** A currency symbol or comma before an unparenthesised text is ignored. */
  lemma PrepareIgnoresLeading(g: char, b: string)
    requires IsStripped(g)
    requires |b| > 0 && !IsWhite(b[0]) && !IsWhite(b[|b| - 1]) && b[0] != '('
    ensures Prepare([g] + b) == Prepare(b)
  {
    var x := [g] + b;
    StrippedNotWhite(g);
    assert x[0] == g && x[|x| - 1] == b[|b| - 1];
    CleanIgnoresAround(x, "", g, b, b);
    PrepareSame(x, b);
  }

  /** A currency symbol or comma after an unparenthesised text is ignored. */
  lemma PrepareIgnoresTrailing(a: string, g: char)
    requires IsStripped(g)
    requires |a| > 0 && !IsWhite(a[0]) && !IsWhite(a[|a| - 1]) && a[|a| - 1] != ')'
    ensures Prepare(a + [g]) == Prepare(a)
  {
    var x := a + [g];
    StrippedNotWhite(g);
    assert x[0] == a[0] && x[|x| - 1] == g;
    CleanIgnoresAround(x, a, g, "", a);
    PrepareSame(x, a);
  }

  /** Two unparenthesised texts that need no trimming and clean alike are prepared alike. */
  lemma PrepareSame(x: string, y: string)
    requires |x| > 0 && !IsWhite(x[0]) && !IsWhite(x[|x| - 1]) && (x[0] != '(' || x[|x| - 1] != ')')
    requires |y| > 0 && !IsWhite(y[0]) && !IsWhite(y[|y| - 1]) && (y[0] != '(' || y[|y| - 1] != ')')
    requires Clean(x) == Clean(y)
    ensures Prepare(x) == Prepare(y)
  {
    PrepareOpen(x);
    PrepareOpen(y);
  }

  /** A parenthesised text is negative and cleaned inside its parentheses. */
  lemma PrepareWrapped(t: string)
    requires |t| > 1 && t[0] == '(' && t[|t| - 1] == ')'
    ensures Prepare(t) == Prepared(true, Clean(t[1..|t| - 1]))
  {
    TrimOfTrimmed(t);
  }

  /** A text that needs no trimming and is not parenthesised is only cleaned. */
  lemma PrepareOpen(t: string)
    requires |t| > 0 && !IsWhite(t[0]) && !IsWhite(t[|t| - 1])
    requires t[0] != '(' || t[|t| - 1] != ')'
    ensures Prepare(t) == Prepared(false, Clean(t))
  {
    TrimOfTrimmed(t);
  }

  lemma StrippedNotWhite(g: char)
    requires IsStripped(g)
    ensures !IsWhite(g) && g != '(' && g != ')'
  {
  }

  lemma CleanIgnoresAround(x: string, p: string, g: char, q: string, y: string)
    requires IsStripped(g) && x == p + [g] + q && y == p + q
    ensures Clean(x) == Clean(y)
  {
    CleanIgnores(p, g, q);
  }

  /** How the prepared text is read; only the numerals' text is kept, their values are
      computed by `Amount`. */
  datatype Reading =
    | Expression(op: char, left: string, right: string)  // "a-b" or "a+b"
    | Scientific(numeral: string)  // the whole text is one numeral with an exponent
    | Extracted(numeral: string)   // the first numeral found in the text
    | NoNumber                     // no numeral anywhere
    | Unanchored                   // a numeral glued to a leading word

  /** The "a-b" / "a+b" reading: the operator occurs, not first, the text splits around
      it into exactly two pieces and `Number` reads both of them. */
  function Shortcut(w: string, op: char): Option<Reading>
    requires op == '-' || op == '+'
  {
    if op in w && IndexOf(w, op) > 0 then
      var parts := Split(w, op);
      if |parts| == 2 && IsNumeric(parts[0]) && IsNumeric(parts[1]) then
        Some(Expression(op, parts[0], parts[1]))
      else None
    else None
  }

  /** The shortcut fires exactly when the operator occurs once, after the start, with a
      `Number`-readable text on each side, and then reads those two sides. */
  lemma ShortcutReads(w: string, op: char)
    requires op == '-' || op == '+'
    ensures Shortcut(w, op).Some? <==>
              && multiset(w)[op] == 1 && IndexOf(w, op) > 0
              && IsNumeric(w[..IndexOf(w, op)]) && IsNumeric(w[IndexOf(w, op) + 1..])
    ensures Shortcut(w, op).Some? ==>
              Shortcut(w, op).value == Expression(op, w[..IndexOf(w, op)], w[IndexOf(w, op) + 1..])
  {
    var k := IndexOf(w, op);
    if op in w && k > 0 {
      if multiset(w)[op] == 1 {
        ShortcutOnce(w, op);
      } else {
        assert |Split(w, op)| != 2;
      }
    } else {
      assert Shortcut(w, op).None? && k <= 0;
    }
  }

  lemma ShortcutOnce(w: string, op: char)
    requires op == '-' || op == '+'
    requires multiset(w)[op] == 1 && IndexOf(w, op) > 0
    ensures var k := IndexOf(w, op);
            Shortcut(w, op) == if IsNumeric(w[..k]) && IsNumeric(w[k + 1..])
                               then Some(Expression(op, w[..k], w[k + 1..])) else None
  {
    SplitOnce(w, op);
  }

  predicate IsAsciiLetter(c: char) {
    'a' <= c <= 'z' || 'A' <= c <= 'Z'
  }

  /** The readings in the order they are tried: the "-" expression, the "+" expression,
      the anchored scientific numeral, then the first numeral anywhere. */
  function Read(w: string): Reading
  {
    match Shortcut(w, '-')
    case Some(r) => r
    case None =>
      match Shortcut(w, '+')
      case Some(r) => r
      case None =>
        if IsScientific(w) then Scientific(w) else ReadMatch(w)
  }

  /** The first numeral anywhere in the text, which a text starting with a letter only
      yields when ':', ' ' or '-' comes right before the numeral's first occurrence. */
  function ReadMatch(w: string): Reading
  {
    match FirstMatch(w, 0)
    case None => NoNumber
    case Some(i) => MatchReading(w, TokenAt(w, i))
  }

  /** The text of the numeral matched at `i`. */
  function TokenAt(w: string, i: nat): string
    requires i <= |w| && RegexScanAt(w, i).Some?
  {
    w[i..i + RegexScanAt(w, i).value.Length()]
  }

  /** The reading of a numeral `token` found in `w`, judged at its first occurrence. */
  function MatchReading(w: string, token: string): Reading
  {
    var index := IndexOfText(w, token, 0);
    if |w| > 0 && IsAsciiLetter(w[0]) && index > 0 && w[index - 1] !in {':', ' ', '-'} then
      Unanchored
    else
      Extracted(token)
  }

  /** `parseFloat` of a text that starts with a numeral: that numeral's exact value. */
  function NumeralValue(t: string): real
  {
    match RegexScanAt(t, 0)
    case None => 0.0
    case Some(sc) => NumeralAt(t, 0, sc).Value()
  }

  /** `Number(left) - Number(right)`, or `+`. */
  function ExpressionValue(op: char, left: string, right: string): real
  {
    var a := NumberOf(left);
    var b := NumberOf(right);
    if a.None? || b.None? then 0.0
    else if op == '-' then a.value.Value() - b.value.Value()
    else a.value.Value() + b.value.Value()
  }

  /** The amount a reading yields: an expression's value as is; a numeral divided by 100
      when scaled (only an extracted one), negated when parenthesised and rounded to
      cents; otherwise 0. */
  function Amount(negative: bool, reading: Reading, scaled: bool): real
  {
    match reading
    case Expression(op, a, b) => ExpressionValue(op, a, b)
    case Scientific(t) =>
      var v := NumeralValue(t);
      RoundToCents(if negative then -v else v)
    case Extracted(t) =>
      var v := if scaled then NumeralValue(t) / 100.0 else NumeralValue(t);
      RoundToCents(if negative then -v else v)
    case NoNumber => 0.0
    case Unanchored => 0.0
  }

  /** The value read before the sign is applied and before rounding: the numeral's
      `parseFloat` value, divided by 100 for a scaled extracted numeral; 0 when nothing
      is read. */
  function Unrounded(reading: Reading, scaled: bool): real
  {
    match reading
    case Scientific(t) => NumeralValue(t)
    case Extracted(t) => if scaled then NumeralValue(t) / 100.0 else NumeralValue(t)
    case Expression(_, _, _) => 0.0
    case NoNumber => 0.0
    case Unanchored => 0.0
  }

  /** `transformNumber(s, scaled)`: the amount `s` denotes, rounded to whole cents (an
      expression's result is returned unrounded), 0 when none can be read. */
  function TransformNumber(s: string, scaled: bool): real
  {
    if s == "" then 0.0
    else Amount(Prepare(s).negative, Read(Prepare(s).text), scaled)
  }

  /** Nothing is read from the empty text. */
  lemma ReadsEmptyAsNothing()
    ensures Clean("") == ""
    ensures Read("") == NoNumber
  {
    assert !IsScientific("");
  }

  lemma PrepareEmpty()
    ensures Prepare("") == Prepared(false, "")
  {
    ReadsEmptyAsNothing();
  }

  /** The empty text too gets the amount of its reading. */
  lemma TransformNumberByReading(s: string, scaled: bool)
    ensures TransformNumber(s, scaled) == Amount(Prepare(s).negative, Read(Prepare(s).text), scaled)
  {
    if s == "" {
      PrepareEmpty();
      ReadsEmptyAsNothing();
    }
  }

  /** White padding on either side does not change the amount, as the text is trimmed
      first. */
  lemma PaddedAmount(p: string, m: string, q: string, scaled: bool)
    requires AllWhite(p) && AllWhite(q)
    ensures TransformNumber(p + m + q, scaled) == TransformNumber(m, scaled)
  {
    TrimPadded(p, m, q);
    SameTrimSamePrepare(p + m + q, m);
    TransformNumberByReading(p + m + q, scaled);
    TransformNumberByReading(m, scaled);
  }

  /** Digits followed by white space, as a fixed-width column holds them, read as the
      digits alone. */
  lemma PaddedDigitsAmount(d: string, pad: string)
    requires |d| >= 1 && AllDigits(d) && AllWhite(pad)
    ensures TransformNumber(d + pad, true) == DigitsValue(d) as real / 100.0
  {
    TrailingWhitePrepare(d, pad);
    TransformNumberByReading(d + pad, true);
    TransformNumberByReading(d, true);
    DigitsAmount(d);
  }

  lemma TrailingWhitePrepare(m: string, pad: string)
    requires AllWhite(pad)
    ensures Prepare(m + pad) == Prepare(m)
  {
    TrimStartThenEnd(m, pad);
    assert Trim(m + pad) == Trim(m);
    SameTrimSamePrepare(m + pad, m);
  }

  lemma SameTrimSamePrepare(x: string, y: string)
    requires Trim(x) == Trim(y)
    ensures Prepare(x) == Prepare(y)
  {
  }

  /** Currency symbols and commas do not change the amount: inserting one between two
      pieces of a text, or before or after an unparenthesised text, leaves it as it was. */
  lemma SymbolIgnored(a: string, g: char, b: string, scaled: bool)
    requires IsStripped(g)
    requires |a| > 0 && !IsWhite(a[0]) && |b| > 0 && !IsWhite(b[|b| - 1])
    ensures TransformNumber(a + [g] + b, scaled) == TransformNumber(a + b, scaled)
  {
    PrepareIgnores(a, g, b);
  }

  lemma LeadingSymbolIgnored(g: char, b: string, scaled: bool)
    requires IsStripped(g)
    requires |b| > 0 && !IsWhite(b[0]) && !IsWhite(b[|b| - 1]) && b[0] != '('
    ensures TransformNumber([g] + b, scaled) == TransformNumber(b, scaled)
  {
    PrepareIgnoresLeading(g, b);
  }

  lemma TrailingSymbolIgnored(a: string, g: char, scaled: bool)
    requires IsStripped(g)
    requires |a| > 0 && !IsWhite(a[0]) && !IsWhite(a[|a| - 1]) && a[|a| - 1] != ')'
    ensures TransformNumber(a + [g], scaled) == TransformNumber(a, scaled)
  {
    PrepareIgnoresTrailing(a, g);
  }

  /** The empty text is 0, and every amount not computed by an expression is a whole
      number of cents. */
  lemma TransformNumberCents(s: string, scaled: bool)
    ensures s == "" ==> TransformNumber(s, scaled) == 0.0
    ensures !Read(Prepare(s).text).Expression? ==> IsWholeCents(TransformNumber(s, scaled))
  {
    TransformNumberByReading(s, scaled);
    AmountCents(Prepare(s).negative, Read(Prepare(s).text), scaled);
  }

  lemma AmountCents(negative: bool, reading: Reading, scaled: bool)
    ensures !reading.Expression? ==> IsWholeCents(Amount(negative, reading, scaled))
  {
    if !reading.Expression? {
      var v := Unrounded(reading, scaled);
      var x := if negative then -v else v;
      var a := Amount(negative, reading, scaled);
      AmountRounds(negative, reading, scaled);
      assert a == RoundToCents(x);
      RoundedIsWholeCents(a, x);
    }
  }

  /** Every amount not computed by an expression is the unrounded value, negated when
      parenthesised, rounded to cents. */
  lemma AmountRounds(negative: bool, reading: Reading, scaled: bool)
    requires !reading.Expression?
    ensures var v := Unrounded(reading, scaled);
            Amount(negative, reading, scaled) == RoundToCents(if negative then -v else v)
  {
    match reading
    case Scientific(t) => NumeralRounds(negative, reading, scaled);
    case Extracted(t) => NumeralRounds(negative, reading, scaled);
    case NoNumber => RoundZero(negative);
    case Unanchored => RoundZero(negative);
  }

  lemma NumeralRounds(negative: bool, reading: Reading, scaled: bool)
    requires reading.Scientific? || reading.Extracted?
    ensures var v := Unrounded(reading, scaled);
            Amount(negative, reading, scaled) == RoundToCents(if negative then -v else v)
  {
    var v := Unrounded(reading, scaled);
    var x := if negative then -v else v;
    assert Amount(negative, reading, scaled) == RoundToCents(x);
  }

  /** Nothing read rounds to 0, whatever the sign. */
  lemma RoundZero(negative: bool)
    ensures RoundToCents(if negative then -0.0 else 0.0) == 0.0
  {
    assert (if negative then -0.0 else 0.0) == 0.0;
    RoundToCentsOfCents(0.0);
  }

  lemma RoundedIsWholeCents(a: real, x: real)
    requires a == RoundToCents(x)
    ensures IsWholeCents(a)
  {
    RoundToCentsBounds(x);
  }

  predicate NoDigit(s: string) {
    forall i :: 0 <= i < |s| ==> !IsDigit(s[i])
  }

  /** `Number` of a text that is not blank and holds no digit is NaN. */
  lemma NoDigitNoNumber(t: string)
    requires NoDigit(t) && |t| > 0 && !IsWhite(t[0])
    ensures !IsNumeric(t)
  {
    var u := Trim(t);
    TrimEmpty(t);
    assert !AllWhite(t);
    forall i | 0 <= i < |u| ensures !IsDigit(u[i]) {
      TrimKeeps(t, u[i]);
      var j :| 0 <= j < |t| && t[j] == u[i];
    }
  }

  lemma NoShortcutWithoutDigit(w: string, op: char)
    requires op == '-' || op == '+'
    requires NoDigit(w) && (|w| > 0 ==> !IsWhite(w[0]))
    ensures Shortcut(w, op).None?
  {
    ShortcutReads(w, op);
    var k := IndexOf(w, op);
    if k > 0 {
      NoDigitPrefix(w, k);
    }
  }

  lemma NoDigitPrefix(w: string, k: nat)
    requires 0 < k <= |w|
    requires NoDigit(w) && !IsWhite(w[0])
    ensures !IsNumeric(w[..k])
  {
    var a := w[..k];
    assert a[0] == w[0];
    assert NoDigit(a) by {
      forall i | 0 <= i < |a| ensures !IsDigit(a[i]) {
        assert a[i] == w[i];
      }
    }
    NoDigitNoNumber(a);
  }

  lemma PreparedKeepsNoDigit(s: string)
    requires NoDigit(s)
    ensures NoDigit(Prepare(s).text)
  {
    NoDigitKept(s, Prepare(s).text);
  }

  lemma NoDigitKept(s: string, w: string)
    requires NoDigit(s) && forall c :: c in w ==> c in s
    ensures NoDigit(w)
  {
    forall i | 0 <= i < |w| ensures !IsDigit(w[i]) {
      assert w[i] in s;
    }
  }

  lemma NoDigitReadsNothing(w: string)
    requires NoDigit(w) && (|w| > 0 ==> !IsWhite(w[0]))
    ensures Read(w) == NoNumber
  {
    NoShortcutWithoutDigit(w, '-');
    NoShortcutWithoutDigit(w, '+');
    forall p | 0 <= p <= |w| ensures RegexScanAt(w, p).None? {
      assert !MantissaStart(w, p) && !MantissaStart(w, p + 1);
    }
  }

  /** Text without a single digit is worth nothing. */
  lemma NoDigitGivesZero(s: string, scaled: bool)
    requires NoDigit(s)
    ensures TransformNumber(s, scaled) == 0.0
  {
    if s != "" {
      PreparedKeepsNoDigit(s);
      NoDigitReadsNothing(Prepare(s).text);
    }
  }

  /** Parentheses around a trimmed text only set the sign of what is read. */
  lemma PrepareParenthesised(t: string)
    requires |t| > 0 ==> !IsWhite(t[0]) && !IsWhite(t[|t| - 1])
    requires !Parenthesised(t)
    ensures Prepare("(" + t + ")") == Prepared(true, Prepare(t).text)
    ensures !Prepare(t).negative
  {
    var u := "(" + t + ")";
    assert u[1..|u| - 1] == t by {
      assert |u| == |t| + 2;
      assert forall k :: 0 <= k < |t| ==> u[k + 1] == t[k];
    }
    TrimOfTrimmed(u);
    TrimOfTrimmed(t);
    assert Parenthesised(u);
    assert Prepare(u).text == Clean(t);
    assert Prepare(t).text == Clean(t);
  }

  /** Enclosing parentheses negate the amount (up to the half-cent tie, which
      `Math.round` rounds up either way), unless it reads as an expression. */
  lemma ParenthesesNegate(t: string, scaled: bool)
    requires |t| > 0 ==> !IsWhite(t[0]) && !IsWhite(t[|t| - 1])
    requires !Parenthesised(t)
    requires !Read(Prepare(t).text).Expression?
    ensures TransformNumber("(" + t + ")", scaled)
            == TieCorrection(Unrounded(Read(Prepare(t).text), scaled)) - TransformNumber(t, scaled)
    ensures IsWholeCents(Unrounded(Read(Prepare(t).text), scaled))
            ==> TransformNumber("(" + t + ")", scaled) == -TransformNumber(t, scaled)
  {
    PrepareParenthesised(t);
    var v := Unrounded(Read(Prepare(t).text), scaled);
    NegatedReading("(" + t + ")", t, scaled, v);
    if IsWholeCents(v) {
      WholeCentsNotHalf(v);
    }
  }

  lemma NegatedReading(u: string, t: string, scaled: bool, v: real)
    requires Prepare(u) == Prepared(true, Prepare(t).text) && !Prepare(t).negative
    requires !Read(Prepare(t).text).Expression? && v == Unrounded(Read(Prepare(t).text), scaled)
    ensures TransformNumber(u, scaled) == TieCorrection(v) - TransformNumber(t, scaled)
  {
    var r := Read(Prepare(t).text);
    ReadingAmount(u, scaled, true, r);
    ReadingAmount(t, scaled, false, r);
    AmountNegate(r, scaled, v);
  }

  lemma ReadingAmount(s: string, scaled: bool, negative: bool, r: Reading)
    requires Prepare(s).negative == negative && Read(Prepare(s).text) == r
    ensures TransformNumber(s, scaled) == Amount(negative, r, scaled)
  {
    TransformNumberByReading(s, scaled);
  }

  /** Negation commutes with the amount except on an exact half cent. */
  lemma AmountNegate(reading: Reading, scaled: bool, v: real)
    requires !reading.Expression? && v == Unrounded(reading, scaled)
    ensures Amount(true, reading, scaled) == TieCorrection(v) - Amount(false, reading, scaled)
  {
    AmountRounds(true, reading, scaled);
    AmountRounds(false, reading, scaled);
    NegatedRounding(v, Amount(true, reading, scaled), Amount(false, reading, scaled));
  }

  /** An expression's value ignores both enclosing parentheses and scaling. */
  lemma ExpressionIgnoresSignAndScale(t: string, scaled: bool)
    requires |t| > 0 ==> !IsWhite(t[0]) && !IsWhite(t[|t| - 1])
    requires !Parenthesised(t)
    requires Read(Prepare(t).text).Expression?
    ensures TransformNumber("(" + t + ")", scaled) == TransformNumber(t, scaled)
    ensures TransformNumber(t, !scaled) == TransformNumber(t, scaled)
  {
    PrepareParenthesised(t);
    TransformNumberByReading("(" + t + ")", scaled);
    TransformNumberByReading(t, scaled);
    TransformNumberByReading(t, !scaled);
  }

  /** A plain run of digits is read as the integer it spells, divided by 100 when the
      field holds scaled cents: the fixed-width credit limit. */
  lemma DigitsAmount(d: string)
    requires |d| >= 1 && AllDigits(d)
    ensures TransformNumber(d, false) == DigitsValue(d) as real
    ensures TransformNumber(d, true) == DigitsValue(d) as real / 100.0
  {
    PrepareDigits(d);
    ReadDigits(d);
    ExtractedDigits(d, d);
  }

  /** An unparenthesised text read as a run of digits is worth their value. */
  lemma ExtractedDigits(s: string, d: string)
    requires |d| >= 1 && AllDigits(d)
    requires !Prepare(s).negative && Read(Prepare(s).text) == Extracted(d)
    ensures TransformNumber(s, false) == DigitsValue(d) as real
    ensures TransformNumber(s, true) == DigitsValue(d) as real / 100.0
  {
    NumeralOfDigits(d);
    ExtractedAmount(s, false);
    ExtractedAmount(s, true);
    WholeAmountsAreCents(DigitsValue(d));
  }

  /** An unparenthesised text whose reading is an extracted numeral is worth that
      numeral (divided by 100 when scaled) rounded to cents. */
  lemma ExtractedAmount(s: string, scaled: bool)
    requires !Prepare(s).negative && Read(Prepare(s).text).Extracted?
    ensures TransformNumber(s, scaled) == Rounded(NumeralValue(Read(Prepare(s).text).numeral), scaled)
  {
    TransformNumberByReading(s, scaled);
  }

  /** An integer amount, and an integer number of cents, are whole cents already. */
  lemma WholeAmountsAreCents(k: int)
    ensures RoundToCents(k as real) == k as real
    ensures RoundToCents(k as real / 100.0) == k as real / 100.0
  {
    assert (100.0 * (k as real)).Floor == 100 * k;
    RoundToCentsOfCents(k as real);
    assert 100.0 * (k as real / 100.0) == k as real;
    RoundToCentsOfCents(k as real / 100.0);
  }

  lemma PrepareDigits(d: string)
    requires |d| >= 1 && AllDigits(d)
    ensures Prepare(d) == Prepared(false, d)
  {
    assert !IsWhite(d[0]) && !IsWhite(d[|d| - 1]);
    TrimOfTrimmed(d);
    assert !Parenthesised(d);
    RemoveNothing(d, CurrencySymbols);
    RemoveNothing(d, {','});
    assert Clean(d) == d;
  }

  lemma NumeralOfDigits(d: string)
    requires |d| >= 1 && AllDigits(d)
    ensures RegexScanAt(d, 0) == Some(Scan(0, |d|, false, 0, 0))
    ensures NumeralValue(d) == DigitsValue(d) as real
  {
    var sc := Scan(0, |d|, false, 0, 0);
    DigitRunIs(d, 0, |d|);
    assert RegexMantissa(d, 0) == Some(sc);
    assert d[0..|d|] == d;
  }

  lemma ReadDigits(d: string)
    requires |d| >= 1 && AllDigits(d)
    ensures Read(d) == Extracted(d)
  {
    assert '-' !in d && '+' !in d;
    NumeralOfDigits(d);
    assert FirstMatch(d, 0) == Some(0);
    assert d[0..|d|] == d;
  }

  /** The anchored scientific text is never read as an expression: past its first
      character a sign can only follow the exponent marker, and a text ending in that
      marker is not a number. */
  lemma ScientificHasNoShortcut(w: string, op: char)
    requires op == '-' || op == '+'
    requires IsScientific(w)
    ensures Shortcut(w, op).None?
  {
    ShortcutReads(w, op);
    var k := IndexOf(w, op);
    if k > 0 {
      ScientificPrefixNotNumeric(w, k);
    }
  }

  /** Cut before a sign inside it, a scientific text leaves a prefix ending in the
      exponent marker. */
  lemma ScientificPrefixNotNumeric(w: string, k: nat)
    requires IsScientific(w) && 0 < k < |w| && IsSign(w[k])
    ensures !IsNumeric(w[..k])
  {
    SignInsideMatch(w, 0, k);
    PrefixNotNumeric(w, k);
  }

  lemma PrefixNotNumeric(w: string, k: nat)
    requires 0 < k <= |w| && IsExponentMarker(w[k - 1])
    requires IsSign(w[0]) || IsDigit(w[0]) || w[0] == '.'
    ensures !IsNumeric(w[..k])
  {
    var a := w[..k];
    assert a[0] == w[0] && a[|a| - 1] == w[k - 1];
    MarkerEndNotNumeric(a);
  }

  lemma ScientificRead(w: string)
    requires IsScientific(w)
    ensures Read(w) == Scientific(w)
  {
    ScientificHasNoShortcut(w, '-');
    ScientificHasNoShortcut(w, '+');
  }

  /** A text the anchored scientific regex accepts, of value `v` (which is what `Number`
      reads, by `ScientificValue`), is worth `v` rounded to cents whether or not the field
      holds scaled cents, and `-v` rounded when parenthesised. */
  lemma ScientificAmount(w: string, scaled: bool, v: real)
    requires IsScientific(w) && NumeralValue(w) == v
    ensures TransformNumber(w, scaled) == RoundToCents(v)
    ensures TransformNumber("(" + w + ")", scaled) == RoundToCents(-v)
  {
    ScientificReadings(w);
    ReadingAmount(w, scaled, false, Scientific(w));
    ReadingAmount("(" + w + ")", scaled, true, Scientific(w));
    ScientificRounds(w, scaled, v);
  }

  /** `Number` reads a scientific numeral as the value the numeral regex delimits. */
  lemma ScientificValue(w: string)
    requires IsScientific(w)
    ensures NumberOf(w).Some? && NumeralValue(w) == NumberOf(w).value.Value()
  {
    ScientificIsNumber(w);
  }

  lemma ScientificReadings(w: string)
    requires IsScientific(w)
    ensures Prepare(w) == Prepared(false, w) && Read(w) == Scientific(w)
    ensures Prepare("(" + w + ")") == Prepared(true, w)
  {
    ScientificPrepared(w);
    ScientificRead(w);
    PrepareParenthesised(w);
  }

  lemma ScientificRounds(w: string, scaled: bool, v: real)
    requires NumeralValue(w) == v
    ensures Amount(false, Scientific(w), scaled) == RoundToCents(v)
    ensures Amount(true, Scientific(w), scaled) == RoundToCents(-v)
  {
  }

  /** A scientific numeral needs no trimming, is not parenthesised and holds no currency
      symbol or comma, so it is prepared as itself. */
  lemma ScientificPrepared(w: string)
    requires IsScientific(w)
    ensures Prepare(w) == Prepared(false, w)
    ensures !IsWhite(w[0]) && !IsWhite(w[|w| - 1]) && !Parenthesised(w)
  {
    ScientificChars(w);
    PreparePlain(w);
  }

  /** Every character of a scientific numeral is a digit, a point, a sign or an exponent
      marker, and the numeral ends in a digit. */
  lemma ScientificChars(w: string)
    requires IsScientific(w)
    ensures |w| > 0 && IsDigit(w[|w| - 1])
    ensures forall k :: 0 <= k < |w| ==> IsDigit(w[k]) || w[k] == '.' || IsSign(w[k]) || IsExponentMarker(w[k])
  {
    var sc := RegexScanAt(w, 0).value;
    assert sc.exponent > 0 && sc.Length() == |w|;
    MatchChars(w, 0, sc);
    MatchEndsInDigit(w, 0, sc);
  }


  /** A text that needs no trimming, has no enclosing parentheses and holds no currency
      symbol or comma is prepared as itself. */
  lemma PreparePlain(w: string)
    requires |w| > 0 && !IsWhite(w[0]) && !IsWhite(w[|w| - 1]) && w[0] != '('
    requires forall i :: 0 <= i < |w| ==> w[i] !in CurrencySymbols && w[i] != ','
    ensures Prepare(w) == Prepared(false, w)
  {
    TrimOfTrimmed(w);
    assert !Parenthesised(w);
    RemoveNothing(w, CurrencySymbols);
    RemoveNothing(w, {','});
    assert Clean(w) == w;
  }

  /** With no expression and no scientific reading, the text yields its first numeral,
      unless the text starts with a letter and the numeral is glued to a character other
      than ':', ' ' or '-'. */
  lemma ReadFirstMatch(w: string, j: nat)
    requires Shortcut(w, '-').None? && Shortcut(w, '+').None? && !IsScientific(w)
    requires FirstMatch(w, 0) == Some(j)
    ensures IsAsciiLetter(w[0]) && j > 0 && w[j - 1] !in {':', ' ', '-'} ==> Read(w) == Unanchored
    ensures !(IsAsciiLetter(w[0]) && j > 0 && w[j - 1] !in {':', ' ', '-'}) ==>
              Read(w) == Extracted(w[j..j + RegexScanAt(w, j).value.Length()])
  {
    ReadIsMatch(w);
    var token := w[j..j + RegexScanAt(w, j).value.Length()];
    MatchIsFirstOccurrence(w, j);
    ReadMatchAt(w, j, token);
  }

  lemma ReadMatchAt(w: string, j: nat, token: string)
    requires FirstMatch(w, 0) == Some(j) && token == w[j..j + RegexScanAt(w, j).value.Length()]
    requires IndexOfText(w, token, 0) == j
    ensures ReadMatch(w) == if IsAsciiLetter(w[0]) && j > 0 && w[j - 1] !in {':', ' ', '-'}
                            then Unanchored else Extracted(token)
  {
    ReadMatchIs(w, j);
    assert TokenAt(w, j) == token;
    MatchReadingAt(w, token, j);
  }

  lemma ReadMatchIs(w: string, j: nat)
    requires FirstMatch(w, 0) == Some(j)
    ensures j < |w| && RegexScanAt(w, j).Some?
    ensures ReadMatch(w) == MatchReading(w, TokenAt(w, j))
  {
  }

  lemma MatchReadingAt(w: string, token: string, j: nat)
    requires j < |w| && IndexOfText(w, token, 0) == j
    ensures MatchReading(w, token)
            == if IsAsciiLetter(w[0]) && j > 0 && w[j - 1] !in {':', ' ', '-'} then Unanchored else Extracted(token)
  {
  }

  /** Without a shortcut or a scientific reading, the text is read by its first match. */
  lemma ReadIsMatch(w: string)
    requires Shortcut(w, '-').None? && Shortcut(w, '+').None? && !IsScientific(w)
    ensures Read(w) == ReadMatch(w)
  {
  }

  predicate AllLetters(s: string) {
    forall i :: 0 <= i < |s| ==> IsAsciiLetter(s[i])
  }

  /** A word is not a number. */
  lemma WordNotNumeric(word: string)
    requires |word| >= 1 && AllLetters(word)
    ensures !IsNumeric(word)
  {
    NoDigitNoNumber(word);
  }

  /** An unsigned numeral without an exponent: integer digits, then, when there are
      fraction digits, a point and those digits ("123", "123.45"). */
  function PlainText(a: string, b: string): string {
    if b == "" then a else a + "." + b
  }

  predicate IsPlain(a: string, b: string) {
    |a| >= 1 && AllDigits(a) && AllDigits(b)
  }

  /** A character that cannot continue a numeral: not a digit, a point or an exponent
      marker. */
  predicate EndsNumeral(c: char) {
    !IsDigit(c) && c != '.' && !IsExponentMarker(c)
  }

  /** Letters, ':' and ' ': what a label before an amount is made of. */
  predicate IsLabelChar(c: char) {
    IsAsciiLetter(c) || c == ':' || c == ' '
  }

  /** A label: empty, or a letter first, ':' or ' ' last and label characters
      throughout ("Subtotal: ", "Amount "). */
  predicate IsLabel(pre: string) {
    pre == "" ||
    (IsAsciiLetter(pre[0]) && pre[|pre| - 1] in {':', ' '} &&
     forall i :: 0 <= i < |pre| ==> IsLabelChar(pre[i]))
  }

  /** Text after an amount: empty, or starting with a character that ends the numeral,
      without signs, currency symbols or commas, and not ending in white space
      (" USD", "abc"). */
  predicate IsSuffix(post: string) {
    post == "" ||
    (EndsNumeral(post[0]) && !IsWhite(post[|post| - 1]) &&
     forall i :: 0 <= i < |post| ==> !IsSign(post[i]) && !IsStripped(post[i]))
  }

  /** A label before a plain numeral and a suffix after it change nothing: the text is
      worth what the numeral alone is worth ("Subtotal: 123.45", "123.45 USD",
      "123abc"). */
  lemma LabelledAmount(pre: string, a: string, b: string, post: string, scaled: bool)
    requires IsLabel(pre) && IsPlain(a, b) && IsSuffix(post)
    ensures TransformNumber(pre + PlainText(a, b) + post, scaled) == TransformNumber(PlainText(a, b), scaled)
  {
    LabelledReading(pre, a, b, post);
    PlainReading(a, b);
    SameReading(pre + PlainText(a, b) + post, PlainText(a, b), scaled);
  }

  /** Two texts prepared with the same sign and read alike are worth the same. */
  lemma SameReading(x: string, y: string, scaled: bool)
    requires x != "" && y != "" && Prepare(x).negative == Prepare(y).negative
    requires Read(Prepare(x).text) == Read(Prepare(y).text)
    ensures TransformNumber(x, scaled) == TransformNumber(y, scaled)
  {
  }

  lemma LabelledReading(pre: string, a: string, b: string, post: string)
    requires IsLabel(pre) && IsPlain(a, b) && IsSuffix(post)
    ensures var w := pre + PlainText(a, b) + post;
            w != "" && Prepare(w) == Prepared(false, w) && Read(w) == Extracted(PlainText(a, b))
  {
    LabelledPrepared(pre, a, b, post);
    LabelledRead(pre, a, b, post);
  }

  lemma LabelledPrepared(pre: string, a: string, b: string, post: string)
    requires IsLabel(pre) && IsPlain(a, b) && IsSuffix(post)
    ensures var w := pre + PlainText(a, b) + post;
            w != "" && Prepare(w) == Prepared(false, w)
  {
    var w := pre + PlainText(a, b) + post;
    LabelledLayout(pre, a, b, post);
    PreparePlain(w);
  }

  lemma LabelledRead(pre: string, a: string, b: string, post: string)
    requires IsLabel(pre) && IsPlain(a, b) && IsSuffix(post)
    ensures Read(pre + PlainText(a, b) + post) == Extracted(PlainText(a, b))
  {
    var w := pre + PlainText(a, b) + post;
    LabelledLayout(pre, a, b, post);
    ReadPlainAt(w, |pre|, a, b);
  }

  /** A plain numeral is prepared and read as itself. */
  lemma PlainReading(a: string, b: string)
    requires IsPlain(a, b)
    ensures var n := PlainText(a, b);
            n != "" && Prepare(n) == Prepared(false, n) && Read(n) == Extracted(n)
  {
    PlainPrepared(a, b);
    PlainRead(a, b);
  }

  lemma PlainPrepared(a: string, b: string)
    requires IsPlain(a, b)
    ensures PlainText(a, b) != "" && Prepare(PlainText(a, b)) == Prepared(false, PlainText(a, b))
  {
    PlainLayout(a, b);
    PreparePlain(PlainText(a, b));
  }

  lemma PlainRead(a: string, b: string)
    requires IsPlain(a, b)
    ensures Read(PlainText(a, b)) == Extracted(PlainText(a, b))
  {
    var n := PlainText(a, b);
    PlainLayout(a, b);
    assert n[0..|n|] == n;
    ReadPlainAt(n, 0, a, b);
  }

  /** A plain numeral is worth its value, divided by 100 when scaled, rounded to cents. */
  lemma PlainAmount(a: string, b: string, scaled: bool)
    requires IsPlain(a, b)
    ensures TransformNumber(PlainText(a, b), scaled) == Rounded(Numeral(false, a, b, 0).Value(), scaled)
  {
    var n := PlainText(a, b);
    PlainReading(a, b);
    PlainValue(a, b);
    ReadingAmount(n, scaled, false, Extracted(n));
    ExtractedRounds(n, scaled, Numeral(false, a, b, 0).Value());
  }

  lemma ExtractedRounds(t: string, scaled: bool, v: real)
    requires NumeralValue(t) == v
    ensures Amount(false, Extracted(t), scaled) == Rounded(v, scaled)
  {
  }

  /** A value read from a numeral, divided by 100 when scaled, rounded to cents. */
  function Rounded(v: real, scaled: bool): real {
    RoundToCents(if scaled then v / 100.0 else v)
  }

  lemma PlainValue(a: string, b: string)
    requires IsPlain(a, b)
    ensures NumeralValue(PlainText(a, b)) == Numeral(false, a, b, 0).Value()
  {
    var n := PlainText(a, b);
    PlainLayout(a, b);
    assert n[0..|n|] == n;
    PlainScan(n, 0, a, b);
    if b == "" {
      assert n[|a|..|a|] == b;
    } else {
      assert n[|a| + 1..|n|] == b;
    }
  }

  /** Where the parts of a plain numeral lie. */
  lemma PlainLayout(a: string, b: string)
    requires IsPlain(a, b)
    ensures var n := PlainText(a, b);
            && |n| == |a| + (if b == "" then 0 else 1 + |b|)
            && n[..|a|] == a && (b != "" ==> n[|a|] == '.' && n[|a| + 1..] == b)
            && (forall i :: 0 <= i < |n| ==> IsDigit(n[i]) || n[i] == '.')
            && IsDigit(n[0]) && IsDigit(n[|n| - 1])
  {
    var n := PlainText(a, b);
    if b != "" {
      assert forall i :: |a| < i < |n| ==> n[i] == b[i - |a| - 1];
    }
  }

  /** The layout of a labelled, suffixed amount. */
  lemma LabelledLayout(pre: string, a: string, b: string, post: string)
    requires IsLabel(pre) && IsPlain(a, b) && IsSuffix(post)
    ensures var n := PlainText(a, b);
            var w := pre + n + post;
            var j := |pre|;
            && j + |n| <= |w| && w[j..j + |n|] == n
            && (j + |n| < |w| ==> EndsNumeral(w[j + |n|]))
            && (forall i :: 0 <= i < |w| ==> !IsSign(w[i]) && !IsStripped(w[i]))
            && (forall i :: 0 <= i < j ==> IsLabelChar(w[i]))
            && (j > 0 ==> w[j - 1] in {':', ' '})
            && |w| > 0 && !IsWhite(w[0]) && !IsWhite(w[|w| - 1]) && w[0] != '('
  {
    var n := PlainText(a, b);
    PlainChars(a, b);
    LabelledChars(pre, n, post);
    LabelledEnds(pre, n, post);
  }

  /** A plain numeral holds digits and points, and starts and ends with a digit. */
  lemma PlainChars(a: string, b: string)
    requires IsPlain(a, b)
    ensures var n := PlainText(a, b);
            && |n| > 0 && IsDigit(n[0]) && IsDigit(n[|n| - 1])
            && (forall i :: 0 <= i < |n| ==> IsDigit(n[i]) || n[i] == '.')
  {
    PlainLayout(a, b);
  }

  /** Label, numeral and suffix characters carry no sign, currency symbol or comma, and
      the label's characters stay in front. */
  lemma LabelledChars(pre: string, n: string, post: string)
    requires IsLabel(pre) && IsSuffix(post)
    requires forall i :: 0 <= i < |n| ==> IsDigit(n[i]) || n[i] == '.'
    ensures var w := pre + n + post;
            && (forall i :: 0 <= i < |w| ==> !IsSign(w[i]) && !IsStripped(w[i]))
            && (forall i :: 0 <= i < |pre| ==> IsLabelChar(w[i]))
  {
    var w := pre + n + post;
    var j := |pre|;
    forall i | 0 <= i < |w| ensures !IsSign(w[i]) && !IsStripped(w[i]) {
      if i < j {
        assert w[i] == pre[i] && IsLabelChar(pre[i]);
      } else if i < j + |n| {
        assert w[i] == n[i - j];
      } else {
        assert w[i] == post[i - j - |n|];
      }
    }
    forall i | 0 <= i < j ensures IsLabelChar(w[i]) {
      assert w[i] == pre[i];
    }
  }

  /** The characters around and at the ends of a labelled, suffixed numeral. */
  lemma LabelledEnds(pre: string, n: string, post: string)
    requires IsLabel(pre) && IsSuffix(post)
    requires |n| > 0 && IsDigit(n[0]) && IsDigit(n[|n| - 1])
    ensures var w := pre + n + post;
            var j := |pre|;
            && w[j..j + |n|] == n
            && (j + |n| < |w| ==> EndsNumeral(w[j + |n|]))
            && (j > 0 ==> w[j - 1] in {':', ' '})
            && !IsWhite(w[0]) && !IsWhite(w[|w| - 1]) && w[0] != '('
  {
    var w := pre + n + post;
    var j := |pre|;
    assert w[j..j + |n|] == n;
    if j > 0 {
      assert w[0] == pre[0] && w[j - 1] == pre[j - 1];
    } else {
      assert w[0] == n[0];
    }
    if post == "" {
      assert w[|w| - 1] == n[|n| - 1];
    } else {
      assert w[|w| - 1] == post[|post| - 1] && w[j + |n|] == post[0];
    }
  }

  /** The numeral regex matches a plain numeral exactly, when what follows cannot continue
      it. */
  lemma PlainScan(w: string, j: nat, a: string, b: string)
    requires IsPlain(a, b)
    requires j + |PlainText(a, b)| <= |w| && w[j..j + |PlainText(a, b)|] == PlainText(a, b)
    requires j + |PlainText(a, b)| < |w| ==> EndsNumeral(w[j + |PlainText(a, b)|])
    ensures RegexScanAt(w, j) == Some(Scan(0, |a|, b != "", |b|, 0))
  {
    PlainMantissa(w, j, a, b);
    assert ExponentLength(w, j + |PlainText(a, b)|) == 0;
  }

  /** The mantissa of the numeral regex spans a plain numeral, whole part and fraction. */
  lemma PlainMantissa(w: string, j: nat, a: string, b: string)
    requires IsPlain(a, b)
    requires j + |PlainText(a, b)| <= |w| && w[j..j + |PlainText(a, b)|] == PlainText(a, b)
    requires j + |PlainText(a, b)| < |w| ==> EndsNumeral(w[j + |PlainText(a, b)|])
    ensures !IsSign(w[j])
    ensures RegexMantissa(w, j) == Some(Scan(0, |a|, b != "", |b|, 0))
  {
    var n := PlainText(a, b);
    PlainLayout(a, b);
    assert forall k :: j <= k < j + |n| ==> w[k] == n[k - j];
    DigitRunIs(w, j, |a|);
    if b != "" {
      DigitRunIs(w, j + |a| + 1, |b|);
    }
  }

  /** In a text without signs, a plain numeral after label characters (and, unless it
      comes first, right after ':' or ' ') is what the text reads as. */
  lemma ReadPlainAt(w: string, j: nat, a: string, b: string)
    requires IsPlain(a, b)
    requires j + |PlainText(a, b)| <= |w| && w[j..j + |PlainText(a, b)|] == PlainText(a, b)
    requires j + |PlainText(a, b)| < |w| ==> EndsNumeral(w[j + |PlainText(a, b)|])
    requires forall i :: 0 <= i < |w| ==> !IsSign(w[i])
    requires forall i :: 0 <= i < j ==> IsLabelChar(w[i])
    requires j > 0 ==> w[j - 1] in {':', ' '}
    ensures Read(w) == Extracted(PlainText(a, b))
  {
    PlainLayout(a, b);
    PlainScan(w, j, a, b);
    UnsignedNoShortcut(w);
    PlainNotScientific(w, j, a, b);
    FirstMatchAfterWord(w, j);
    assert !(j > 0 && w[j - 1] !in {':', ' ', '-'});
    var n := PlainText(a, b);
    assert RegexScanAt(w, j).value.Length() == |n|;
    ReadAnchoredMatch(w, j, n);
  }

  /** The first match, when it starts the text or follows ':', ' ' or '-', is the
      numeral extracted. */
  lemma ReadAnchoredMatch(w: string, j: nat, n: string)
    requires Shortcut(w, '-').None? && Shortcut(w, '+').None? && !IsScientific(w)
    requires FirstMatch(w, 0) == Some(j)
    requires !(j > 0 && w[j - 1] !in {':', ' ', '-'})
    requires RegexScanAt(w, j).value.Length() == |n| && j + |n| <= |w| && w[j..j + |n|] == n
    ensures Read(w) == Extracted(n)
  {
    ReadAnchoredToken(w, j);
    TokenIs(w, j, n);
  }

  lemma TokenIs(w: string, j: nat, n: string)
    requires j <= |w| && RegexScanAt(w, j).Some?
    requires RegexScanAt(w, j).value.Length() == |n| && j + |n| <= |w| && w[j..j + |n|] == n
    ensures w[j..j + RegexScanAt(w, j).value.Length()] == n
  {
  }

  lemma ReadAnchoredToken(w: string, j: nat)
    requires Shortcut(w, '-').None? && Shortcut(w, '+').None? && !IsScientific(w)
    requires FirstMatch(w, 0) == Some(j)
    requires !(j > 0 && w[j - 1] !in {':', ' ', '-'})
    ensures Read(w) == Extracted(w[j..j + RegexScanAt(w, j).value.Length()])
  {
    ReadFirstMatch(w, j);
  }

  /** Without a sign in the text, neither operator shortcut fires. */
  lemma UnsignedNoShortcut(w: string)
    requires forall i :: 0 <= i < |w| ==> !IsSign(w[i])
    ensures Shortcut(w, '-').None? && Shortcut(w, '+').None?
  {
    assert '-' !in w && '+' !in w;
  }

  /** A plain numeral after a label is not a scientific numeral spanning the whole text. */
  lemma PlainNotScientific(w: string, j: nat, a: string, b: string)
    requires IsPlain(a, b) && j < |w|
    requires RegexScanAt(w, j) == Some(Scan(0, |a|, b != "", |b|, 0))
    requires forall i :: 0 <= i < j ==> IsLabelChar(w[i])
    ensures !IsScientific(w)
  {
    if j > 0 {
      NoMatchAtWordChar(w, 0);
    }
  }

  /** A text starting with a letter and ending in a digit, with no currency symbol or
      comma, is prepared as itself. */
  lemma PrepareWordFirst(w: string)
    requires |w| > 0 && IsAsciiLetter(w[0]) && IsDigit(w[|w| - 1])
    requires forall i :: 0 <= i < |w| ==> IsAsciiLetter(w[i]) || IsDigit(w[i]) || w[i] in {':', ' ', '-'}
    ensures Prepare(w) == Prepared(false, w)
  {
    PreparePlain(w);
  }

  /** A text starting with a letter, holding no numeral before `j` and digits from `j` to
      its end: those digits are read when ':', ' ' or '-' precedes them, nothing otherwise. */
  lemma ReadDigitsAfter(w: string, j: nat)
    requires 0 < j < |w| && AllDigits(w[j..]) && IsAsciiLetter(w[0])
    requires forall i :: 0 <= i < j ==> IsAsciiLetter(w[i]) || w[i] == ':' || w[i] == ' '
    ensures Read(w) == if w[j - 1] in {':', ' '} then Extracted(w[j..]) else Unanchored
  {
    DigitTailFirst(w, j);
    if w[j - 1] in {':', ' '} {
      var n := w[j..];
      assert Scan(0, |w| - j, false, 0, 0).Length() == |n|;
      assert j + |n| == |w| && w[j..j + |n|] == n;
      ReadAnchoredMatch(w, j, n);
    } else {
      GluedMatchUnanchored(w, j);
    }
  }

  /** In such a text there is nothing to shortcut and no scientific reading, and the
      first numeral is the digit tail. */
  lemma DigitTailFirst(w: string, j: nat)
    requires 0 < j < |w| && AllDigits(w[j..]) && IsAsciiLetter(w[0])
    requires forall i :: 0 <= i < j ==> IsAsciiLetter(w[i]) || w[i] == ':' || w[i] == ' '
    ensures Shortcut(w, '-').None? && Shortcut(w, '+').None? && !IsScientific(w)
    ensures FirstMatch(w, 0) == Some(j) && RegexScanAt(w, j) == Some(Scan(0, |w| - j, false, 0, 0))
  {
    assert forall i :: 0 <= i < |w| ==> !IsSign(w[i]) by {
      forall i | j <= i < |w| ensures IsDigit(w[i]) {
        assert w[i] == w[j..][i - j];
      }
    }
    assert Shortcut(w, '-').None? && Shortcut(w, '+').None?;
    NoMatchAtWordChar(w, 0);
    DigitTailMatch(w, j);
    FirstMatchAfterWord(w, j);
  }

  /** A word with digits glued to it, or joined by a single '-', is worth 0: the '-' is
      taken as the numeral's sign, so the numeral still starts right after a letter. */
  lemma GluedDigitsGiveZero(word: string, sep: string, d: string, scaled: bool)
    requires |word| >= 1 && AllLetters(word)
    requires sep == "" || sep == "-"
    requires |d| >= 1 && AllDigits(d)
    ensures TransformNumber(word + sep + d, scaled) == 0.0
  {
    GluedRead(word, sep, d);
    TransformNumberByReading(word + sep + d, scaled);
  }

  lemma GluedRead(word: string, sep: string, d: string)
    requires |word| >= 1 && AllLetters(word)
    requires sep == "" || sep == "-"
    requires |d| >= 1 && AllDigits(d)
    ensures Prepare(word + sep + d) == Prepared(false, word + sep + d)
    ensures Read(word + sep + d) == Unanchored
  {
    if sep == "" {
      assert word + sep + d == word + d;
      ReadDigitsAfterWord(word, d);
    } else {
      assert word + sep + d == word + ['-'] + d;
      ReadSignedDigitsAfterWord(word, d);
    }
    GluedPrepare(word, sep, d);
  }

  lemma GluedPrepare(word: string, sep: string, d: string)
    requires |word| >= 1 && AllLetters(word)
    requires sep == "" || sep == "-"
    requires |d| >= 1 && AllDigits(d)
    ensures Prepare(word + sep + d) == Prepared(false, word + sep + d)
  {
    var w := word + sep + d;
    assert w[0] == word[0] && w[|w| - 1] == d[|d| - 1];
    assert forall i :: 0 <= i < |w| ==> IsAsciiLetter(w[i]) || IsDigit(w[i]) || w[i] == '-';
    PrepareWordFirst(w);
  }

  lemma ReadDigitsAfterWord(word: string, d: string)
    requires |word| >= 1 && AllLetters(word)
    requires |d| >= 1 && AllDigits(d)
    ensures Read(word + d) == Unanchored
  {
    var w := word + d;
    var j := |word|;
    assert w[j..] == d;
    assert forall i :: 0 <= i < j ==> IsAsciiLetter(w[i]);
    assert IsAsciiLetter(w[j - 1]);
    ReadDigitsAfter(w, j);
  }

  /** A word, '-' and digits: not an expression (a word is not a number), and the numeral
      found is the '-' with the digits, glued to the word. */
  lemma ReadSignedDigitsAfterWord(word: string, d: string)
    requires |word| >= 1 && AllLetters(word)
    requires |d| >= 1 && AllDigits(d)
    ensures Read(word + ['-'] + d) == Unanchored
  {
    var w := word + ['-'] + d;
    var j := |word|;
    WordMinusNoShortcut(word, d);
    assert w[j + 1..] == d;
    assert forall i :: 0 <= i < j ==> w[i] == word[i];
    SignedTailUnanchored(w, j);
  }

  /** A signed digit tail glued to a word is not read. */
  lemma SignedTailUnanchored(w: string, j: nat)
    requires 0 < j < |w| - 1 && w[j] == '-' && AllDigits(w[j + 1..])
    requires forall i :: 0 <= i < j ==> IsAsciiLetter(w[i])
    requires Shortcut(w, '-').None? && Shortcut(w, '+').None?
    ensures Read(w) == Unanchored
  {
    SignedDigitTailMatch(w, j);
    FirstMatchAfterWord(w, j);
    NoMatchAtWordChar(w, 0);
    GluedMatchUnanchored(w, j);
  }

  /** A first match glued to a letter, in a text that starts with a letter, is not
      read. */
  lemma GluedMatchUnanchored(w: string, j: nat)
    requires Shortcut(w, '-').None? && Shortcut(w, '+').None? && !IsScientific(w)
    requires FirstMatch(w, 0) == Some(j)
    requires 0 < j && IsAsciiLetter(w[0]) && IsAsciiLetter(w[j - 1])
    ensures Read(w) == Unanchored
  {
    ReadFirstMatch(w, j);
  }

  lemma WordMinusNoShortcut(word: string, d: string)
    requires |word| >= 1 && AllLetters(word)
    requires |d| >= 1 && AllDigits(d)
    ensures Shortcut(word + ['-'] + d, '-').None?
    ensures Shortcut(word + ['-'] + d, '+').None?
  {
    var w := word + ['-'] + d;
    assert w[..|word|] == word;
    assert forall i :: 0 <= i < |w| ==> w[i] != '+';
    IndexOfFirst(word, '-', d);
    WordNotNumeric(word);
    ShortcutReads(w, '-');
  }

  /** Letters, ':' and ' ' cannot start a numeral, so a match right after them is the
      first one. */
  lemma FirstMatchAfterWord(w: string, j: nat)
    requires j < |w| && RegexScanAt(w, j).Some?
    requires forall i :: 0 <= i < j ==> IsAsciiLetter(w[i]) || w[i] == ':' || w[i] == ' '
    ensures FirstMatch(w, 0) == Some(j)
  {
    forall p | 0 <= p < j ensures RegexScanAt(w, p).None? {
      NoMatchAtWordChar(w, p);
    }
  }

  lemma NoMatchAtWordChar(w: string, p: nat)
    requires p < |w| && (IsAsciiLetter(w[p]) || w[p] == ':' || w[p] == ' ')
    ensures RegexScanAt(w, p).None?
  {
    assert !IsDigit(w[p]) && w[p] != '.' && !IsSign(w[p]);
  }

  /** An amount of whole cents written with two decimals, as in "-12.05", "0.50" or
      "1234.00". */
  function CentsText(k: int): string
  {
    var m := if k < 0 then -k else k;
    var r := m % 100;
    DecimalText(k < 0, NatToString(m / 100), [DigitChar(r / 10), DigitChar(r % 10)])
  }

  /** A decimal numeral: an optional '-', integer digits, a point and fraction digits. */
  function DecimalText(negative: bool, a: string, b: string): string {
    (if negative then "-" else "") + a + "." + b
  }

  /** Reading back the two-decimal rendering of an amount of whole cents gives that
      amount: the normaliser is a left inverse of the rendering. */
  lemma CentsRoundTrip(k: int)
    ensures TransformNumber(CentsText(k), false) == k as real / 100.0
  {
    var m := if k < 0 then -k else k;
    var r := m % 100;
    var b := [DigitChar(r / 10), DigitChar(r % 10)];
    TwoDigits(r);
    assert CentsText(k) == DecimalText(k < 0, NatToString(m / 100), b);
    DecimalRoundTrip(k < 0, NatToString(m / 100), b, m);
  }

  lemma DecimalRoundTrip(negative: bool, a: string, b: string, m: nat)
    requires |a| >= 1 && |b| == 2 && AllDigits(a) && AllDigits(b)
    requires DigitsValue(a) == m / 100 && DigitsValue(b) == m % 100
    ensures TransformNumber(DecimalText(negative, a, b), false)
            == if negative then -(m as real / 100.0) else m as real / 100.0
  {
    var t := DecimalText(negative, a, b);
    var v := if negative then -(m as real / 100.0) else m as real / 100.0;
    var k: int := if negative then -(m as int) else m;
    assert v == k as real / 100.0;
    DecimalRead(negative, a, b);
    DecimalCents(negative, a, b, m);
    ReadBackAmount(t, v, k);
  }

  lemma ReadBackAmount(t: string, v: real, k: int)
    requires Prepare(t) == Prepared(false, t) && Read(t) == Extracted(t)
    requires NumeralValue(t) == v && v == k as real / 100.0
    ensures TransformNumber(t, false) == v
  {
    assert TransformNumber(t, false) == RoundToCents(v) by {
      ExtractedAmount(t, false);
    }
    CentsRound(v, k);
  }

  lemma CentsRound(v: real, k: int)
    requires v == k as real / 100.0
    ensures RoundToCents(v) == v
  {
    WholeAmountsAreCents(k);
  }

  /** A decimal numeral is prepared as itself and read as itself. */
  lemma DecimalRead(negative: bool, a: string, b: string)
    requires |a| >= 1 && |b| >= 1 && AllDigits(a) && AllDigits(b)
    ensures Prepare(DecimalText(negative, a, b)) == Prepared(false, DecimalText(negative, a, b))
    ensures Read(DecimalText(negative, a, b)) == Extracted(DecimalText(negative, a, b))
  {
    var t := DecimalText(negative, a, b);
    DecimalLayout(negative, a, b);
    DecimalScan(negative, a, b);
    PrepareDecimal(t);
    ReadLoneNumeral(t, Scan(if negative then 1 else 0, |a|, true, |b|, 0));
  }

  lemma PrepareDecimal(t: string)
    requires |t| > 0 && IsDigit(t[|t| - 1]) && (IsDigit(t[0]) || t[0] == '-')
    requires forall i :: 0 <= i < |t| ==> IsDigit(t[i]) || t[i] == '.' || t[i] == '-'
    ensures Prepare(t) == Prepared(false, t)
  {
    PreparePlain(t);
  }

  /** A text the numeral regex matches entirely, without an exponent and with no sign
      after its first character, is read as that numeral. */
  lemma ReadLoneNumeral(t: string, sc: Scan)
    requires RegexScanAt(t, 0) == Some(sc) && sc.Length() == |t| && sc.exponent == 0
    requires forall i :: 0 < i < |t| ==> !IsSign(t[i])
    ensures Read(t) == Extracted(t)
  {
    assert Shortcut(t, '-').None? && Shortcut(t, '+').None?;
    assert !IsScientific(t);
    assert FirstMatch(t, 0) == Some(0);
    ReadFirstMatch(t, 0);
    assert t[0..|t|] == t;
  }

  /** The characters of a decimal numeral. */
  lemma DecimalLayout(negative: bool, a: string, b: string)
    requires |a| >= 1 && |b| >= 1 && AllDigits(a) && AllDigits(b)
    ensures var t := DecimalText(negative, a, b);
            var s := if negative then 1 else 0;
            && |t| == s + |a| + 1 + |b|
            && (negative ==> t[0] == '-')
            && t[s..s + |a|] == a && t[s + |a|] == '.' && t[s + |a| + 1..] == b
            && (forall i :: 0 <= i < |t| ==> IsDigit(t[i]) || t[i] == '.' || t[i] == '-')
            && (forall i :: 0 < i < |t| ==> !IsSign(t[i]))
            && IsDigit(t[|t| - 1]) && (IsDigit(t[0]) || t[0] == '-')
  {
    var t := DecimalText(negative, a, b);
    var s := if negative then 1 else 0;
    assert forall i :: s <= i < s + |a| ==> t[i] == a[i - s];
    assert forall i :: s + |a| < i < |t| ==> t[i] == b[i - s - |a| - 1];
  }

  /** The numeral regex matches a whole decimal numeral as sign, integer digits, point
      and fraction digits. */
  lemma DecimalScan(negative: bool, a: string, b: string)
    requires |a| >= 1 && |b| >= 1 && AllDigits(a) && AllDigits(b)
    ensures RegexScanAt(DecimalText(negative, a, b), 0)
            == Some(Scan(if negative then 1 else 0, |a|, true, |b|, 0))
  {
    var t := DecimalText(negative, a, b);
    var s := if negative then 1 else 0;
    DecimalLayout(negative, a, b);
    DigitRunIs(t, s, |a|);
    DigitRunIs(t, s + |a| + 1, |b|);
    var m := Scan(0, |a|, true, |b|, 0);
    assert RegexMantissa(t, s) == Some(m);
    assert |t| == s + m.Length();
    if negative {
      assert IsSign(t[0]) && RegexMantissa(t, 1).Some?;
    } else {
      assert !IsSign(t[0]);
    }
    assert ExponentLength(t, |t|) == 0;
  }

  /** The value of a decimal numeral. */
  lemma DecimalValue(negative: bool, a: string, b: string)
    requires |a| >= 1 && |b| >= 1 && AllDigits(a) && AllDigits(b)
    ensures NumeralValue(DecimalText(negative, a, b)) == Numeral(negative, a, b, 0).Value()
  {
    var t := DecimalText(negative, a, b);
    var s := if negative then 1 else 0;
    DecimalScan(negative, a, b);
    DecimalLayout(negative, a, b);
    var f := s + |a| + 1;
    assert NumeralAt(t, 0, Scan(s, |a|, true, |b|, 0)) == Numeral(negative, a, b, 0) by {
      assert t[f..f + |b|] == b;
    }
  }

  lemma DecimalCents(negative: bool, a: string, b: string, m: nat)
    requires |a| >= 1 && |b| == 2 && AllDigits(a) && AllDigits(b)
    requires DigitsValue(a) == m / 100 && DigitsValue(b) == m % 100
    ensures NumeralValue(DecimalText(negative, a, b))
            == if negative then -(m as real / 100.0) else m as real / 100.0
  {
    DecimalValue(negative, a, b);
    CentsValue(negative, a, b, m);
  }

  lemma CentsValue(negative: bool, a: string, b: string, m: nat)
    requires DigitsValue(a) == m / 100 && DigitsValue(b) == m % 100 && |b| == 2
    ensures Numeral(negative, a, b, 0).Value() == if negative then -(m as real / 100.0) else m as real / 100.0
  {
    var r := (m % 100) as real;
    ScaleCents(r);
    assert (m / 100) as real + r / 100.0 == m as real / 100.0 by {
      assert m == 100 * (m / 100) + m % 100;
    }
  }

  lemma TwoDigits(r: nat)
    requires r < 100
    ensures DigitsValue([DigitChar(r / 10), DigitChar(r % 10)]) == r
  {
    var b := [DigitChar(r / 10), DigitChar(r % 10)];
    assert b[..1] == [b[0]];
    assert DigitsValue([b[0]]) == r / 10 by {
      assert [b[0]][..0] == [];
    }
  }

  lemma ScaleCents(r: real)
    ensures Scale(r, -2) == r / 100.0
  {
    assert Scale(r, -2) == Scale(r / 10.0, -1);
  }
}

=== FILE: numerals.dfy ===
/** Decimal digit strings: reading them as numbers, writing numbers as them,
    and `parseInt(s, 10)` (section 19.2.5 of ECMA-262). */
module Numerals {
  import opened Wrappers
  import opened Text

  predicate IsDigit(c: char) {
    '0' <= c <= '9'
  }

  predicate AllDigits(s: string) {
    forall i :: 0 <= i < |s| ==> IsDigit(s[i])
  }

  function DigitValue(c: char): nat {
    if IsDigit(c) then (c - '0') as nat else 0
  }

  function DigitChar(d: nat): (c: char)
    requires d < 10
    ensures IsDigit(c) && DigitValue(c) == d
  {
    ('0' as int + d) as char
  }

  function Pow10(n: nat): (r: nat)
    ensures r >= 1
  {
    if n == 0 then 1 else 10 * Pow10(n - 1)
  }

  /** Number of consecutive digits of `s` starting at `i`: the extent of a greedy `[0-9]*`. */
  function DigitRun(s: string, i: nat): (n: nat)
    requires i <= |s|
    ensures i + n <= |s|
    ensures forall k :: i <= k < i + n ==> IsDigit(s[k])
    ensures i + n == |s| || !IsDigit(s[i + n])
    decreases |s| - i
  {
    if i < |s| && IsDigit(s[i]) then 1 + DigitRun(s, i + 1) else 0
  }

  /** A digit run is determined by where the digits stop. */
  lemma DigitRunIs(s: string, i: nat, n: nat)
    requires i + n <= |s|
    requires forall k :: i <= k < i + n ==> IsDigit(s[k])
    requires i + n == |s| || !IsDigit(s[i + n])
    ensures DigitRun(s, i) == n
  {
  }

  /** The value of a digit string, most significant digit first. */
  function DigitsValue(ds: string): nat
    decreases |ds|
  {
    if |ds| == 0 then 0 else 10 * DigitsValue(ds[..|ds| - 1]) + DigitValue(ds[|ds| - 1])
  }

  /** A digit string is worth less than ten to the power of its length. */
  lemma {:induction false} DigitsValueBound(ds: string)
    ensures DigitsValue(ds) < Pow10(|ds|)
    decreases |ds|
  {
    if |ds| > 0 {
      DigitsValueBound(ds[..|ds| - 1]);
    }
  }

  /** Leading zeros do not change the value of a digit string. */
  lemma {:induction false} DigitsValueLeadingZero(ds: string)
    ensures DigitsValue("0" + ds) == DigitsValue(ds)
    decreases |ds|
  {
    if |ds| > 0 {
      assert ("0" + ds)[..|"0" + ds| - 1] == "0" + ds[..|ds| - 1];
      DigitsValueLeadingZero(ds[..|ds| - 1]);
    }
  }

  /** Decimal rendering of a natural number, as `Number.prototype.toString` gives it. */
  function NatToString(n: nat): (r: string)
    ensures |r| >= 1 && AllDigits(r)
    ensures r[0] != '0' || n == 0
    ensures DigitsValue(r) == n
  {
    if n < 10 then [DigitChar(n)]
    else
      var r := NatToString(n / 10) + [DigitChar(n % 10)];
      assert r[..|r| - 1] == NatToString(n / 10);
      r
  }

  /** Rendering is the inverse of reading, on digit strings without a superfluous leading zero. */
  lemma {:induction false} NatToStringOfDigits(ds: string)
    requires |ds| >= 1 && AllDigits(ds)
    requires ds[0] != '0' || |ds| == 1
    ensures NatToString(DigitsValue(ds)) == ds
    decreases |ds|
  {
    var n := DigitsValue(ds);
    if |ds| == 1 {
      assert ds[..0] == "";
    } else {
      var init := ds[..|ds| - 1];
      NatToStringOfDigits(init);
      assert init[0] == ds[0];
      assert DigitsValue(init) >= 1 by {
        if DigitsValue(init) == 0 {
          LeadingDigitBound(init);
        }
      }
      assert n / 10 == DigitsValue(init) && n % 10 == DigitValue(ds[|ds| - 1]);
      assert DigitChar(n % 10) == ds[|ds| - 1];
      assert ds == init + [ds[|ds| - 1]];
    }
  }

  /** A digit string that starts with a non-zero digit is worth at least one. */
  lemma {:induction false} LeadingDigitBound(ds: string)
    requires |ds| >= 1 && AllDigits(ds) && ds[0] != '0'
    ensures DigitsValue(ds) >= 1
    decreases |ds|
  {
    if |ds| > 1 {
      LeadingDigitBound(ds[..|ds| - 1]);
    }
  }

  /** Decimal rendering of an integer, with a `-` for negative values. */
  function IntToString(i: int): (r: string)
    ensures |r| >= 1
    ensures '/' !in r
  {
    if i < 0 then "-" + NatToString(-i) else NatToString(i)
  }

  /** The decimal text of an integer is digits after a minus sign exactly when it is
      negative. */
  lemma IntToStringChars(i: int)
    ensures var r := IntToString(i);
            && (r[0] == '-' <==> i < 0)
            && forall k :: 0 < k < |r| ==> IsDigit(r[k])
  {
    if i < 0 {
      var t := NatToString(-i);
      assert IntToString(i) == "-" + t;
      assert forall k :: 0 < k < |"-" + t| ==> ("-" + t)[k] == t[k - 1];
    }
  }

  /** `padStart(2, '0')`. */
  function PadStart2(t: string): (r: string)
    ensures |r| == if |t| >= 2 then |t| else 2
    ensures r[|r| - |t|..] == t
    ensures forall k :: 0 <= k < |r| - |t| ==> r[k] == '0'
  {
    if |t| == 0 then "00" else if |t| == 1 then "0" + t else t
  }

  /** `parseInt(s, 10)`: leading white skipped, an optional sign, then the longest run
      of digits; `None` (NaN) when there is no digit. Trailing text is ignored. */
  function ParseInt(s: string): (r: Option<int>)
  {
    var t := TrimStart(s);
    var sign: nat := if |t| > 0 && (t[0] == '+' || t[0] == '-') then 1 else 0;
    var n := DigitRun(t, sign);
    if n == 0 then None
    else
      var v := DigitsValue(t[sign..sign + n]);
      Some(if sign == 1 && t[0] == '-' then -(v as int) else v as int)
  }

  /** `parseInt` reads a digit string followed by anything that is not a digit. */
  lemma ParseIntPrefix(ds: string, rest: string)
    requires |ds| >= 1 && AllDigits(ds)
    requires |rest| == 0 || !IsDigit(rest[0])
    ensures ParseInt(ds + rest) == Some(DigitsValue(ds) as int)
  {
    var s := ds + rest;
    assert s[0] == ds[0];
    assert |ds| == |s| || s[|ds|] == rest[0];
    assert forall k :: 0 <= k < |ds| ==> s[k] == ds[k];
    DigitRunIs(s, 0, |ds|);
    assert s[0..|ds|] == ds;
    ParseIntDigitsFirst(s);
  }

  /** `parseInt` of a text that starts with a digit reads its leading digit run. */
  lemma ParseIntDigitsFirst(s: string)
    requires |s| > 0 && IsDigit(s[0])
    ensures ParseInt(s) == Some(DigitsValue(s[0..DigitRun(s, 0)]) as int)
  {
    assert !IsWhite(s[0]);
    TrimStartNonWhite(s);
    assert !(s[0] == '+' || s[0] == '-');
    assert DigitRun(s, 0) > 0;
  }

  /** `parseInt` reads back the rendering of any integer. */
  lemma ParseIntOfIntToString(i: int)
    ensures ParseInt(IntToString(i)) == Some(i)
  {
    var ds := NatToString(if i < 0 then -i else i);
    if i >= 0 {
      ParseIntPrefix(ds, "");
      assert ds + "" == ds;
    } else {
      var s := "-" + ds;
      assert !IsWhite(s[0]);
      assert TrimStart(s) == s;
      DigitRunIs(s, 1, |ds|);
      assert s[1..1 + |ds|] == ds;
    }
  }

  /** Leading zeros do not change what `parseInt` reads from a digit string. */
  lemma ParseIntLeadingZero(ds: string)
    requires |ds| >= 1 && AllDigits(ds)
    ensures ParseInt("0" + ds) == ParseInt(ds)
  {
    ParseIntPrefix(ds, "");
    ParseIntPrefix("0" + ds, "");
    assert ds + "" == ds && ("0" + ds) + "" == "0" + ds;
    DigitsValueLeadingZero(ds);
  }
}

=== FILE: prn_parser.dfy ===
// `PRNParser.parse`: the fixed-width format. The input is split into lines, the first
// line (the header) and the blank lines are dropped, each kept line is cut into the
// columns of the table, and the cut fields go through the two normalisers. The
// fixed-width library is modelled as cutting each line at the column bounds, clamped to
// the line's length.
module PrnParser {
  import opened Wrappers
  import opened Text
  import opened Numerals
  import opened Calendar
  import opened Records
  import opened NumberTransformer
  import opened DateTransformer

  datatype Column = Column(name: string, start: nat, width: nat)

  /** The column table of the format. */
  const Columns: seq<Column> := [
    Column("name", 0, 16),
    Column("address", 16, 22),
    Column("postcode", 38, 9),
    Column("phone", 47, 14),
    Column("creditLimit", 61, 13),
    Column("birthday", 74, 8)
  ]

  /** Each column starts where the previous one ends. */
  predicate Contiguous(cols: seq<Column>) {
    forall i :: 0 < i < |cols| ==> cols[i].start == cols[i - 1].start + cols[i - 1].width
  }

  function TotalWidth(cols: seq<Column>): nat
    decreases |cols|
  {
    if cols == [] then 0 else cols[0].width + TotalWidth(cols[1..])
  }

  /** Contiguous columns from `start` end at `start` plus their total width. */
  lemma {:induction false} ContiguousEnd(cols: seq<Column>)
    requires |cols| > 0 && Contiguous(cols)
    ensures cols[|cols| - 1].start + cols[|cols| - 1].width == cols[0].start + TotalWidth(cols)
    decreases |cols|
  {
    if |cols| > 1 {
      var tail := cols[1..];
      assert Contiguous(tail) by {
        forall i | 0 < i < |tail| ensures tail[i].start == tail[i - 1].start + tail[i - 1].width {
          assert tail[i] == cols[i + 1] && tail[i - 1] == cols[i];
        }
      }
      ContiguousEnd(tail);
    }
  }

  /** The table covers columns 0 to 82 without a gap or an overlap. */
  lemma ColumnTable()
    ensures Contiguous(Columns) && Columns[0].start == 0
    ensures TotalWidth(Columns) == 82
    ensures Columns[|Columns| - 1].start + Columns[|Columns| - 1].width == 82
  {
    assert TotalWidth(Columns[5..]) == 8;
    ContiguousEnd(Columns);
  }

  /** The text of a column: the characters from `start` for `width`, clamped to the
      line. */
  function Slice(line: string, c: Column): (r: string)
    ensures |r| <= c.width
    ensures c.start + c.width <= |line| ==> r == line[c.start..c.start + c.width]
    ensures c.start >= |line| ==> r == ""
  {
    var from := if c.start < |line| then c.start else |line|;
    var to := if c.start + c.width < |line| then c.start + c.width else |line|;
    line[from..to]
  }

  /** The record of one data line, or the birthday's error. `String(x || '0')` makes an
      empty credit-limit column read as "0"; an empty birthday column is the empty date
      text. */
  function ParseLine(line: string): (r: Result<Record, DateError>)
    ensures r.Success? ==> IsValidDate(r.value.birthday)
  {
    var limit := Slice(line, Columns[4]);
    match TransformDate(Slice(line, Columns[5]), Compact)
    case Failure(e) => Failure(e)
    case Success(birthday) =>
      Success(Record(
        Trim(Slice(line, Columns[0])),
        Trim(Slice(line, Columns[1])),
        Trim(Slice(line, Columns[2])),
        Trim(Slice(line, Columns[3])),
        TransformNumber(if limit == "" then "0" else limit, true),
        birthday))
  }

  /** What each data line yields, in line order (`lines.map(...)`). */
  function LineResults(lines: seq<string>): (o: seq<Result<Record, DateError>>)
    ensures |o| == |lines|
    decreases |lines|
  {
    if lines == [] then [] else [ParseLine(lines[0])] + LineResults(lines[1..])
  }

  /** The `i`-th result is what the `i`-th line yields. */
  lemma {:induction false} LineResultAt(lines: seq<string>, i: nat)
    requires i < |lines|
    ensures LineResults(lines)[i] == ParseLine(lines[i])
    decreases |lines|
  {
    assert LineResults(lines) == [ParseLine(lines[0])] + LineResults(lines[1..]);
    if i > 0 {
      LineResultAt(lines[1..], i - 1);
    }
  }

  /** The mapped records when every line yields one; otherwise the error of the first
      line that throws, which ends the mapping. */
  function Collect(o: seq<Result<Record, DateError>>): Result<seq<Record>, DateError>
    decreases |o|
  {
    if o == [] then Success([])
    else
      match o[0]
      case Failure(e) => Failure(e)
      case Success(record) =>
        match Collect(o[1..])
        case Failure(e) => Failure(e)
        case Success(records) => Success([record] + records)
  }

  /** The records of the data lines, in order; the first line whose birthday fails makes
      the whole parse fail with its error. */
  function ParseLines(lines: seq<string>): Result<seq<Record>, DateError>
  {
    Collect(LineResults(lines))
  }

  /** Either every result is a success and the values come out in order, or the error is
      that of the first failure. */
  lemma {:induction false} CollectAllOrNothing(o: seq<Result<Record, DateError>>)
    ensures Collect(o).Success? ==>
              |Collect(o).value| == |o| && forall i :: 0 <= i < |o| ==> o[i] == Success(Collect(o).value[i])
    ensures Collect(o).Failure? ==>
              exists i :: 0 <= i < |o| && o[i] == Failure(Collect(o).error) &&
                          forall j :: 0 <= j < i ==> o[j].Success?
    decreases |o|
  {
    if o != [] {
      var tail := o[1..];
      CollectAllOrNothing(tail);
      assert forall i :: 0 < i < |o| ==> o[i] == tail[i - 1];
      var r := Collect(o);
      match o[0]
      case Failure(e) =>
        assert o[0] == Failure(r.error);
      case Success(record) =>
        match Collect(tail)
        case Failure(e) =>
          var i :| 0 <= i < |tail| && tail[i] == Failure(e) && forall j :: 0 <= j < i ==> tail[j].Success?;
          assert o[i + 1] == Failure(r.error);
          assert forall j :: 0 < j < i + 1 ==> o[j].Success?;
        case Success(records) =>
          assert r.value == [record] + records;
          forall i | 0 <= i < |o| ensures o[i] == Success(r.value[i]) {
            if i > 0 {
              assert r.value[i] == records[i - 1];
            }
          }
    }
  }

  /** A line with nothing but white space. */
  predicate IsBlank(line: string) {
    AllWhite(line)
  }

  /** Blank is what `line.trim().length > 0` rejects. */
  lemma BlankIsTrimEmpty(line: string)
    ensures IsBlank(line) <==> |Trim(line)| == 0
  {
    TrimEmpty(line);
  }

  /** `filter(line => line.trim().length > 0)`. */
  function DataLines(lines: seq<string>): (r: seq<string>)
    ensures |r| <= |lines|
    ensures forall i :: 0 <= i < |r| ==> !IsBlank(r[i])
    decreases |lines|
  {
    if lines == [] then []
    else (if IsBlank(lines[0]) then [] else [lines[0]]) + DataLines(lines[1..])
  }

  /** `parse(input)`. */
  function ParsePrn(input: string): (r: Result<seq<Record>, DateError>)
    ensures |Split(input, '\n')| <= 1 ==> r == Success([])
  {
    var lines := Split(input, '\n');
    if |lines| <= 1 then Success([]) else ParseLines(DataLines(lines[1..]))
  }

  /** One record per data line, in line order, when every line's birthday is valid; the
      error of the first line whose birthday fails, and no records at all, otherwise. */
  lemma AllOrNothing(lines: seq<string>)
    ensures ParseLines(lines).Success? ==>
              |ParseLines(lines).value| == |lines| &&
              forall i :: 0 <= i < |lines| ==> ParseLine(lines[i]) == Success(ParseLines(lines).value[i])
    ensures ParseLines(lines).Failure? ==>
              exists i :: 0 <= i < |lines| && ParseLine(lines[i]) == Failure(ParseLines(lines).error) &&
                          forall j :: 0 <= j < i ==> ParseLine(lines[j]).Success?
  {
    var o := LineResults(lines);
    CollectAllOrNothing(o);
    if Collect(o).Success? {
      forall i | 0 <= i < |lines| ensures ParseLine(lines[i]) == Success(ParseLines(lines).value[i]) {
        LineResultAt(lines, i);
      }
    } else {
      var i :| 0 <= i < |o| && o[i] == Failure(Collect(o).error) && forall j :: 0 <= j < i ==> o[j].Success?;
      LineResultAt(lines, i);
      forall j | 0 <= j < i ensures ParseLine(lines[j]).Success? {
        LineResultAt(lines, j);
      }
    }
  }

  /** Some line's birthday failing is what makes the parse fail. */
  lemma FailsIffSomeLineFails(lines: seq<string>)
    ensures ParseLines(lines).Failure? <==> exists i :: 0 <= i < |lines| && ParseLine(lines[i]).Failure?
  {
    AllOrNothing(lines);
    if ParseLines(lines).Success? {
      forall i | 0 <= i < |lines| ensures ParseLine(lines[i]).Success? {
        assert ParseLine(lines[i]) == Success(ParseLines(lines).value[i]);
      }
    }
  }

  /** The header line is dropped whatever it says: the result depends only on the lines
      after the first '\n'. */
  lemma HeaderSkipped(header: string, body: string)
    requires '\n' !in header
    ensures ParsePrn(header + "\n" + body) == ParseLines(DataLines(Split(body, '\n')))
  {
    SplitFirst(header, body, '\n');
    var lines := Split(header + "\n" + body, '\n');
    assert lines[1..] == Split(body, '\n');
  }

  /** Filtering works line by line. */
  lemma {:induction false} DataLinesAppend(a: seq<string>, b: seq<string>)
    ensures DataLines(a + b) == DataLines(a) + DataLines(b)
    decreases |a|
  {
    if a != [] {
      DataLinesAppend(a[1..], b);
      var keep := if IsBlank(a[0]) then [] else [a[0]];
      assert (a + b)[0] == a[0] && (a + b)[1..] == a[1..] + b;
      assert DataLines(a + b) == keep + DataLines(a[1..] + b);
      assert DataLines(a) == keep + DataLines(a[1..]);
    } else {
      assert a + b == b;
    }
  }

  /** A blank line among the data lines is dropped without a trace. */
  lemma BlankLineIgnored(a: seq<string>, blank: string, b: seq<string>)
    requires IsBlank(blank)
    ensures DataLines(a + [blank] + b) == DataLines(a + b)
  {
    DataLinesAppend(a + [blank], b);
    DataLinesAppend(a, [blank]);
    DataLinesAppend(a, b);
    assert [blank][1..] == [];
  }

  /** A line that is not blank is kept. */
  lemma {:induction false} DataLinesKeep(lines: seq<string>)
    requires forall i :: 0 <= i < |lines| ==> !IsBlank(lines[i])
    ensures DataLines(lines) == lines
    decreases |lines|
  {
    if lines != [] {
      DataLinesKeep(lines[1..]);
      assert lines == [lines[0]] + lines[1..];
    }
  }

  /** On a line of the full width, each text field is its column's slice trimmed, the
      credit limit is the scaled amount of its slice and the birthday is read from the
      last eight characters in the 'YYYYMMDD' layout. */
  lemma LineFields(line: string)
    requires |line| >= 82
    ensures ParseLine(line).Success? <==> TransformDate(line[74..82], Compact).Success?
    ensures ParseLine(line).Success? ==>
              var r := ParseLine(line).value;
              && r.name == Trim(line[0..16]) && r.address == Trim(line[16..38])
              && r.postcode == Trim(line[38..47]) && r.phone == Trim(line[47..61])
              && r.creditLimit == TransformNumber(line[61..74], true)
              && r.birthday == TransformDate(line[74..82], Compact).value
  {
    var birthday := Slice(line, Columns[5]);
    assert birthday == line[74..82];
    assert Slice(line, Columns[4]) == line[61..74] != "";
    assert Slice(line, Columns[0]) == line[0..16] && Slice(line, Columns[1]) == line[16..38];
    assert Slice(line, Columns[2]) == line[38..47] && Slice(line, Columns[3]) == line[47..61];
  }

  /** A credit-limit column holding digits with white space on either side (the column
      is right-aligned, as in "     1000000 ") is read as that many cents. */
  lemma CreditLimitCents(line: string, p: string, d: string, q: string)
    requires |line| >= 82 && line[61..74] == p + d + q
    requires |d| >= 1 && AllDigits(d) && AllWhite(p) && AllWhite(q)
    requires ParseLine(line).Success?
    ensures ParseLine(line).value.creditLimit == DigitsValue(d) as real / 100.0
  {
    LineFields(line);
    PaddedAmount(p, d, q, true);
    DigitsAmount(d);
  }

  /** A birthday column of eight digits yields the date they spell, exactly when that
      date is valid. */
  lemma BirthdayDigits(line: string, yyyy: string, mm: string, dd: string)
    requires |line| >= 82 && line[74..82] == yyyy + mm + dd
    requires |yyyy| == 4 && AllDigits(yyyy) && |mm| == 2 && AllDigits(mm) && |dd| == 2 && AllDigits(dd)
    ensures var date := Date(DigitsValue(yyyy), DigitsValue(mm), DigitsValue(dd));
            && (ParseLine(line).Success? <==> IsValidDate(date))
            && (ParseLine(line).Success? ==> ParseLine(line).value.birthday == date)
  {
    LineFields(line);
    CompactComponents(yyyy, mm, dd);
    ParseIntPrefix(yyyy, "");
    ParseIntPrefix(mm, "");
    ParseIntPrefix(dd, "");
    assert yyyy + "" == yyyy && mm + "" == mm && dd + "" == dd;
    var c := Components(Some(DigitsValue(dd) as int), Some(DigitsValue(mm) as int), Some(DigitsValue(yyyy) as int));
    AcceptsExactlyValidDates(yyyy + mm + dd, Compact, c);
  }

  /** A line that stops before the birthday column has an empty birthday, which fails
      the whole parse. */
  lemma ShortLineFails(line: string)
    requires |line| <= 74
    ensures ParseLine(line) == Failure(EmptyDate)
  {
  }

  /** Every record of a successful parse has a valid birthday. */
  lemma ParsedBirthdaysValid(input: string)
    requires ParsePrn(input).Success?
    ensures forall k :: 0 <= k < |ParsePrn(input).value| ==> IsValidDate(ParsePrn(input).value[k].birthday)
  {
    var lines := Split(input, '\n');
    if |lines| > 1 {
      var data := DataLines(lines[1..]);
      AllOrNothing(data);
      forall k | 0 <= k < |ParseLines(data).value|
        ensures IsValidDate(ParseLines(data).value[k].birthday)
      {
        assert ParseLine(data[k]) == Success(ParseLines(data).value[k]);
      }
    }
  }
}

=== FILE: records.dfy ===
// The canonical record every input format is normalised into.
module Records {
  import opened Calendar

  /** A customer record: four text fields, the credit limit as a decimal amount and the
      birthday as a year, month and day. The type admits any triple; the records the
      parsers produce carry a valid date (`CsvParser.AcceptedBirthdaysValid`,
      `PrnParser.ParsedBirthdaysValid`). */
  datatype Record = Record(
    name: string,
    address: string,
    postcode: string,
    phone: string,
    creditLimit: real,
    birthday: Date)
}

=== FILE: seqs.dfy ===
// Applying a function to every element of a sequence (`Array.prototype.map`, and the
// `for` loops that push one result per input).
module Seqs {
  /** `f` applied to each element, in order. */
  function Map<A, B>(xs: seq<A>, f: A -> B): (ys: seq<B>)
    ensures |ys| == |xs|
    decreases |xs|
  {
    if xs == [] then [] else Map(xs[..|xs| - 1], f) + [f(xs[|xs| - 1])]
  }

  /** The `i`-th result is `f` of the `i`-th element. */
  lemma {:induction false} MapAt<A, B>(xs: seq<A>, f: A -> B, i: nat)
    requires i < |xs|
    ensures Map(xs, f)[i] == f(xs[i])
    decreases |xs|
  {
    var n := |xs| - 1;
    var init := xs[..n];
    assert Map(xs, f) == Map(init, f) + [f(xs[n])];
    if i < n {
      MapAt(init, f, i);
      assert init[i] == xs[i];
    }
  }

  /** Mapping works element by element: the results of two sequences one after the
      other are the results of the two sequences joined. */
  lemma {:induction false} MapAppend<A, B>(a: seq<A>, b: seq<A>, f: A -> B)
    ensures Map(a + b, f) == Map(a, f) + Map(b, f)
    decreases |b|
  {
    if b == [] {
      assert a + b == a;
    } else {
      var n := |b| - 1;
      MapAppend(a, b[..n], f);
      assert (a + b)[..|a + b| - 1] == a + b[..n];
      assert (a + b)[|a + b| - 1] == b[n];
    }
  }
}

=== FILE: text.dfy ===
/** Character-level string operations of ECMAScript used by the pipeline:
    `trim`, `indexOf`, `split`, `replace(/c/g, ...)` and character removal. */
module Text {

  /** ECMAScript WhiteSpace and LineTerminator code points: what `trim`,
      `Number` and `parseInt` skip (section 12.2 and 12.3 of ECMA-262). */
  predicate IsWhite(c: char) {
    || c == '\t' || c == '\U{000B}' || c == '\U{000C}' || c == ' '
    || c == '\U{00A0}' || c == '\U{FEFF}' || c == '\U{1680}'
    || ('\U{2000}' <= c <= '\U{200A}')
    || c == '\U{202F}' || c == '\U{205F}' || c == '\U{3000}'
    || c == '\n' || c == '\r' || c == '\U{2028}' || c == '\U{2029}'
  }

  predicate AllWhite(s: string) {
    forall i :: 0 <= i < |s| ==> IsWhite(s[i])
  }

  /** `String.prototype.trimStart`: drops the longest all-white prefix. */
  function TrimStart(s: string): (r: string)
    ensures |r| <= |s| && r == s[|s| - |r|..]
    ensures AllWhite(s[..|s| - |r|])
    ensures |r| > 0 ==> !IsWhite(r[0])
    decreases |s|
  {
    if |s| > 0 && IsWhite(s[0]) then
      var r := TrimStart(s[1..]);
      assert s[..|s| - |r|] == [s[0]] + s[1..][..|s| - 1 - |r|];
      r
    else s
  }

  /** A text that does not start with white is its own `trimStart`. */
  lemma TrimStartNonWhite(s: string)
    requires |s| > 0 && !IsWhite(s[0])
    ensures TrimStart(s) == s
  {
  }

  /** `String.prototype.trimEnd`: drops the longest all-white suffix. */
  function TrimEnd(s: string): (r: string)
    ensures |r| <= |s| && r == s[..|r|]
    ensures AllWhite(s[|r|..])
    ensures |r| > 0 ==> !IsWhite(r[|r| - 1])
    decreases |s|
  {
    if |s| > 0 && IsWhite(s[|s| - 1]) then
      var r := TrimEnd(s[..|s| - 1]);
      assert s[|r|..] == s[..|s| - 1][|r|..] + [s[|s| - 1]];
      r
    else s
  }

  function Trim(s: string): (r: string)
    ensures |r| <= |s|
    ensures |r| > 0 ==> !IsWhite(r[0]) && !IsWhite(r[|r| - 1])
    ensures TrimStartLength(s) + |r| <= |s| && r == s[TrimStartLength(s)..TrimStartLength(s) + |r|]
    ensures AllWhite(s[..TrimStartLength(s)]) && AllWhite(s[TrimStartLength(s) + |r|..])
  {
    var t := TrimStart(s);
    var r := TrimEnd(t);
    TrimParts(s, t, r);
    assert TrimStartLength(s) == |s| - |t|;
    assert |r| > 0 ==> r[0] == t[0];
    r
  }

  /** How many white characters `trimStart` drops. */
  function TrimStartLength(s: string): (n: nat)
    ensures n <= |s|
  {
    |s| - |TrimStart(s)|
  }

  lemma TrimParts(s: string, t: string, r: string)
    requires |t| <= |s| && t == s[|s| - |t|..] && |r| <= |t| && r == t[..|r|]
    requires AllWhite(t[|r|..])
    ensures var a := |s| - |t|; r == s[a..a + |r|] && AllWhite(s[a + |r|..])
  {
    var a := |s| - |t|;
    assert s[a + |r|..] == t[|r|..];
  }

  /** Trimming only drops characters. */
  lemma TrimKeeps(s: string, c: char)
    requires c in Trim(s)
    ensures c in s
  {
    var t := TrimStart(s);
    var r := TrimEnd(t);
    assert r == Trim(s);
    var i :| 0 <= i < |r| && r[i] == c;
    assert t[i] == c;
    assert s[|s| - |t| + i] == c;
  }

  /** Only all-white text trims to nothing. */
  lemma TrimEmpty(s: string)
    ensures |Trim(s)| == 0 <==> AllWhite(s)
  {
    if |Trim(s)| == 0 {
      assert |TrimStart(s)| == 0;
      assert s[..|s|] == s;
    }
  }

  /** A text with no white at either end is its own trim. */
  lemma TrimOfTrimmed(s: string)
    requires |s| > 0 ==> !IsWhite(s[0]) && !IsWhite(s[|s| - 1])
    ensures Trim(s) == s
  {
  }

  /** Trimming is idempotent. */
  lemma TrimIdempotent(s: string)
    ensures Trim(Trim(s)) == Trim(s)
  {
    TrimOfTrimmed(Trim(s));
  }

  /** Trimming ignores white padding on both sides. */
  lemma {:induction false} TrimPadded(p: string, m: string, q: string)
    requires AllWhite(p) && AllWhite(q)
    ensures Trim(p + m + q) == Trim(m)
  {
    var x := p + m + q;
    assert x == p + (m + q);
    TrimStartPadded(p, m + q);
    assert Trim(x) == TrimEnd(TrimStart(x));
    TrimStartThenEnd(m, q);
    assert Trim(m) == TrimEnd(TrimStart(m));
  }

  lemma {:induction false} TrimStartPadded(p: string, m: string)
    requires AllWhite(p)
    ensures TrimStart(p + m) == TrimStart(m)
    decreases |p|
  {
    if |p| > 0 {
      assert (p + m)[1..] == p[1..] + m;
      TrimStartPadded(p[1..], m);
    } else {
      assert p + m == m;
    }
  }

  lemma {:induction false} TrimEndPadded(m: string, q: string)
    requires AllWhite(q)
    ensures TrimEnd(m + q) == TrimEnd(m)
    decreases |q|
  {
    if |q| > 0 {
      assert (m + q)[..|m + q| - 1] == m + q[..|q| - 1];
      TrimEndPadded(m, q[..|q| - 1]);
    } else {
      assert m + q == m;
    }
  }

  /** Trimming the start of `m + q` then the end only sees white in `q`. */
  lemma {:induction false} TrimStartThenEnd(m: string, q: string)
    requires AllWhite(q)
    ensures TrimEnd(TrimStart(m + q)) == TrimEnd(TrimStart(m))
    decreases |m|
  {
    if |m| > 0 && IsWhite(m[0]) {
      assert (m + q)[1..] == m[1..] + q;
      TrimStartThenEnd(m[1..], q);
    } else if |m| > 0 {
      TrimEndPadded(m, q);
    } else {
      assert m + q == q;
      assert TrimStart(q) == [] by { TrimStartPadded(q, []); assert q + [] == q; }
    }
  }

  /** `indexOf` of one character: its first position, or -1. */
  function IndexOf(s: string, c: char): (r: int)
    ensures -1 <= r < |s|
    ensures r == -1 <==> c !in s
    ensures r >= 0 ==> r < |s| && s[r] == c && c !in s[..r]
    decreases |s|
  {
    if |s| == 0 then -1
    else if s[0] == c then 0
    else
      var k := IndexOf(s[1..], c);
      assert s == [s[0]] + s[1..];
      assert k >= 0 ==> s[..k + 1] == [s[0]] + s[1..][..k];
      if k == -1 then -1 else k + 1
  }

  /** The first occurrence of `c` in `p + [c] + q` when `p` has none. */
  lemma IndexOfFirst(p: string, c: char, q: string)
    requires c !in p
    ensures IndexOf(p + [c] + q, c) == |p|
  {
    var s := p + [c] + q;
    assert s[|p|] == c;
    assert s[..|p|] == p;
  }

  /** Whether `t` occurs in `s` at position `i`. */
  predicate OccursAt(s: string, t: string, i: nat) {
    i + |t| <= |s| && s[i..i + |t|] == t
  }

  /** `indexOf` of a text from position `from`: the first position where it occurs, or -1. */
  function IndexOfText(s: string, t: string, from: nat): (r: int)
    ensures r == -1 || (from <= r && OccursAt(s, t, r))
    ensures forall p :: from <= p && (r == -1 || p < r) ==> !OccursAt(s, t, p)
    decreases |s| - from
  {
    if from + |t| > |s| then -1
    else if s[from..from + |t|] == t then from
    else IndexOfText(s, t, from + 1)
  }

  /** `split` on a single character: the maximal separator-free pieces, in order. */
  function Split(s: string, sep: char): (parts: seq<string>)
    ensures |parts| == multiset(s)[sep] + 1
    ensures forall i :: 0 <= i < |parts| ==> sep !in parts[i]
    ensures Join(parts, sep) == s
    decreases |s|
  {
    if |s| == 0 then [""]
    else
      var rest := Split(s[1..], sep);
      SplitStep(s, sep, rest);
      SplitCons(s[0], sep, rest)
  }

  /** The pieces of `c + t`, from the pieces `rest` of `t`. */
  function SplitCons(c: char, sep: char, rest: seq<string>): seq<string>
    requires |rest| >= 1
  {
    if c == sep then [""] + rest else [[c] + rest[0]] + rest[1..]
  }

  lemma SplitStep(s: string, sep: char, rest: seq<string>)
    requires |s| > 0 && |rest| == multiset(s[1..])[sep] + 1
    requires forall i :: 0 <= i < |rest| ==> sep !in rest[i]
    requires Join(rest, sep) == s[1..]
    ensures var parts := SplitCons(s[0], sep, rest);
            && |parts| == multiset(s)[sep] + 1
            && (forall i :: 0 <= i < |parts| ==> sep !in parts[i])
            && Join(parts, sep) == s
  {
    MultisetCons(s, sep);
    var parts := SplitCons(s[0], sep, rest);
    if s[0] == sep {
      JoinCons(rest, "", sep);
      assert s == [sep] + s[1..];
      forall i | 0 <= i < |parts| ensures sep !in parts[i] {
        if i > 0 {
          assert parts[i] == rest[i - 1];
        }
      }
    } else {
      JoinHead(rest, s[0], sep);
      assert s == [s[0]] + s[1..];
      forall i | 0 <= i < |parts| ensures sep !in parts[i] {
        if i == 0 {
          assert parts[0] == [s[0]] + rest[0];
        } else {
          assert parts[i] == rest[i];
        }
      }
    }
  }

  /** How often `c` occurs in a non-empty text, counted from its first character. */
  lemma MultisetCons(s: string, c: char)
    requires |s| > 0
    ensures multiset(s)[c] == multiset(s[1..])[c] + (if s[0] == c then 1 else 0)
  {
    assert s == [s[0]] + s[1..];
  }

  /** Joining one more piece in front. */
  lemma JoinCons(parts: seq<string>, p: string, sep: char)
    requires |parts| >= 1
    ensures Join([p] + parts, sep) == p + [sep] + Join(parts, sep)
  {
    assert ([p] + parts)[1..] == parts;
  }

  /** Joining after one more character on the first piece. */
  lemma JoinHead(parts: seq<string>, c: char, sep: char)
    requires |parts| >= 1
    ensures Join([[c] + parts[0]] + parts[1..], sep) == [c] + Join(parts, sep)
  {
    var q := [[c] + parts[0]] + parts[1..];
    assert q[1..] == parts[1..];
    if |parts| > 1 {
      assert Join(q, sep) == [c] + parts[0] + [sep] + Join(parts[1..], sep);
    }
  }

  /** `join`: the pieces with the separator between consecutive ones. */
  function Join(parts: seq<string>, sep: char): string
    requires |parts| >= 1
    decreases |parts|
  {
    if |parts| == 1 then parts[0] else parts[0] + [sep] + Join(parts[1..], sep)
  }

  /** Splitting recovers the pieces that were joined, when none holds the separator. */
  lemma SplitJoin(parts: seq<string>, sep: char)
    requires |parts| >= 1
    requires forall i :: 0 <= i < |parts| ==> sep !in parts[i]
    ensures Split(Join(parts, sep), sep) == parts
  {
    JoinInjective(Split(Join(parts, sep), sep), parts, sep);
  }

  lemma {:induction false} JoinInjective(p: seq<string>, q: seq<string>, sep: char)
    requires |p| >= 1 && |q| >= 1
    requires forall i :: 0 <= i < |p| ==> sep !in p[i]
    requires forall i :: 0 <= i < |q| ==> sep !in q[i]
    requires Join(p, sep) == Join(q, sep)
    ensures p == q
    decreases |p|
  {
    if |p| == 1 && |q| == 1 {
    } else if |p| == 1 || |q| == 1 {
    } else {
      IndexOfFirst(p[0], sep, Join(p[1..], sep));
      IndexOfFirst(q[0], sep, Join(q[1..], sep));
      assert p[0] + [sep] + Join(p[1..], sep) == q[0] + [sep] + Join(q[1..], sep);
      assert |p[0]| == |q[0]|;
      assert p[0] == Join(p, sep)[..|p[0]|];
      assert q[0] == Join(q, sep)[..|q[0]|];
      assert Join(p[1..], sep) == Join(p, sep)[|p[0]| + 1..];
      assert Join(q[1..], sep) == Join(q, sep)[|q[0]| + 1..];
      JoinInjective(p[1..], q[1..], sep);
      assert p == [p[0]] + p[1..] && q == [q[0]] + q[1..];
    }
  }

  /** A separator-free piece in front, then the separator, is split off as the first
      piece. */
  lemma SplitFirst(h: string, rest: string, sep: char)
    requires sep !in h
    ensures Split(h + [sep] + rest, sep) == [h] + Split(rest, sep)
  {
    var parts := Split(rest, sep);
    JoinCons(parts, h, sep);
    assert forall i :: 0 <= i < |[h] + parts| ==> sep !in ([h] + parts)[i];
    SplitJoin([h] + parts, sep);
  }

  /** Splitting on a separator that occurs exactly once cuts at that occurrence. */
  lemma SplitOnce(s: string, sep: char)
    requires multiset(s)[sep] == 1
    ensures IndexOf(s, sep) >= 0
    ensures Split(s, sep) == [s[..IndexOf(s, sep)], s[IndexOf(s, sep) + 1..]]
  {
    var parts := Split(s, sep);
    TwoPieces(s, parts, sep);
  }

  lemma TwoPieces(s: string, parts: seq<string>, sep: char)
    requires |parts| == 2 && sep !in parts[0] && Join(parts, sep) == s
    ensures IndexOf(s, sep) == |parts[0]|
    ensures parts == [s[..|parts[0]|], s[|parts[0]| + 1..]]
  {
    var p, q := parts[0], parts[1];
    assert parts[1..] == [q];
    assert s == p + [sep] + q;
    IndexOfFirst(p, sep, q);
    assert s[..|p|] == p;
    assert s[|p| + 1..] == q;
  }

  /** `replace(/c/g, by)`: every occurrence of `c` replaced by `with`. */
  function ReplaceAll(s: string, c: char, with: string): (r: string)
    ensures |s| == 1 ==> r == (if s[0] == c then with else s)
    ensures c !in with ==> c !in r
    ensures c !in s ==> r == s
    decreases |s|
  {
    if |s| == 0 then ""
    else
      assert s == [s[0]] + s[1..];
      (if s[0] == c then with else [s[0]]) + ReplaceAll(s[1..], c, with)
  }

  /** Replacement works piece by piece. */
  lemma {:induction false} ReplaceAllAppend(a: string, b: string, c: char, with: string)
    ensures ReplaceAll(a + b, c, with) == ReplaceAll(a, c, with) + ReplaceAll(b, c, with)
    decreases |a|
  {
    if |a| == 0 {
      assert a + b == b;
    } else {
      assert (a + b)[0] == a[0];
      assert (a + b)[1..] == a[1..] + b;
      ReplaceAllAppend(a[1..], b, c, with);
    }
  }

  /** `replace(/[...]/g, '')`: every character of `drop` removed, the rest kept in order. */
  function Remove(s: string, drop: set<char>): (r: string)
    ensures |r| <= |s|
    ensures forall i :: 0 <= i < |r| ==> r[i] !in drop
    decreases |s|
  {
    if |s| == 0 then ""
    else (if s[0] in drop then "" else [s[0]]) + Remove(s[1..], drop)
  }

  /** Removal keeps every other character as often as it occurs. */
  lemma {:induction false} RemoveCounts(s: string, drop: set<char>, c: char)
    requires c !in drop
    ensures multiset(Remove(s, drop))[c] == multiset(s)[c]
    decreases |s|
  {
    if |s| > 0 {
      RemoveCounts(s[1..], drop, c);
      assert s == [s[0]] + s[1..];
      RemoveHead(s, drop);
    }
  }

  lemma RemoveHead(s: string, drop: set<char>)
    requires |s| > 0
    ensures Remove(s, drop) == RemoveChar(s[0], drop) + Remove(s[1..], drop)
  {
  }

  /** The removal of one character: nothing when it is dropped, itself otherwise. */
  function RemoveChar(c: char, drop: set<char>): (r: string)
    ensures r == Remove([c], drop)
  {
    assert [c][1..] == "";
    if c in drop then "" else [c]
  }

  /** Removal works piece by piece: it is the concatenation of the removals of the pieces. */
  lemma {:induction false} RemoveAppend(a: string, b: string, drop: set<char>)
    ensures Remove(a + b, drop) == Remove(a, drop) + Remove(b, drop)
    decreases |a|
  {
    if |a| > 0 {
      var h := RemoveChar(a[0], drop);
      assert (a + b)[0] == a[0];
      assert (a + b)[1..] == a[1..] + b;
      RemoveHead(a + b, drop);
      assert Remove(a + b, drop) == h + Remove(a[1..] + b, drop);
      RemoveHead(a, drop);
      assert Remove(a, drop) == h + Remove(a[1..], drop);
      RemoveAppend(a[1..], b, drop);
      assert Remove(a[1..] + b, drop) == Remove(a[1..], drop) + Remove(b, drop);
    } else {
      assert a + b == b;
    }
  }

  /** Removal only drops characters, and drops every character of `drop`. */
  lemma RemoveKeeps(s: string, drop: set<char>, c: char)
    requires c in Remove(s, drop)
    ensures c in s && c !in drop
  {
    var r := Remove(s, drop);
    var i :| 0 <= i < |r| && r[i] == c;
    RemoveCounts(s, drop, c);
    assert multiset(r)[c] > 0;
  }

  /** A text with nothing to remove is unchanged. */
  lemma {:induction false} RemoveNothing(s: string, drop: set<char>)
    requires forall i :: 0 <= i < |s| ==> s[i] !in drop
    ensures Remove(s, drop) == s
    decreases |s|
  {
    if |s| > 0 {
      RemoveNothing(s[1..], drop);
      assert s == [s[0]] + s[1..];
    }
  }
}

=== FILE: wrappers.dfy ===
/** Failure-carrying results used throughout the model in place of thrown errors. */
module Wrappers {

  /** A value that may be absent: in the TypeScript code, `undefined`, a `NaN` from
      `parseInt` or `Number`, or a `match` that finds nothing. */
  datatype Option<+T> = None | Some(value: T)

  /** Either a value or the reason it could not be produced: an error raised by `throw` in the
      TypeScript code. */
  datatype Result<+R, +E> = Success(value: R) | Failure(error: E)
}
